=== FILE: README.md ===
# Neon bomber game rules in Dafny

This project models the deterministic game-rule core of a browser bomber
game. The game is a single script, `main.js`. The model covers:

- the level generator: the grid classification and the enemy spawn-tile search;
- the tile queries;
- the player's discrete grid stepping;
- the bomb engine: placement, fuse countdown, four-direction blasts with chain reactions, and flame expiry;
- power-up drops and pickups;
- the run state machine: damage, pause, and the win check at the end of a frame.

Everything is an immutable value. `State.Game` holds the grid, the bombs,
flames, power-ups and enemies, the player record, the run phase and the
random stream. Every rule is a pure function from one `Game` to the next.

The seeded generator is an infinite stream of draws in `[0, 1)` with a
cursor (`Base.Rng`). Each rule reads the stream strictly left to right,
so a run is determined by its stream. Draws whose values only feed
cosmetics are still consumed:

- 24 per destroyed soft block, for the particle burst;
- one per power-up drop, for its animation phase.

The draws `updateEnemies` takes for heading changes are not modelled one
by one. `Run.Frame` takes their number as the input `enemyDraws` and
advances the stream by it. Given that count, and as long as no chain
reaction during the bomb countdown removes a bomb at a lower index (see
"## Findings"), every later draw stays at the position the game reads it
from.

Bombs are identified by their tile. `placeBomb` refuses a tile that
already holds a bomb, so no two bombs share one; `State.Valid` keeps this
as an invariant, together with a well-formed grid and
`0 <= stock <= capacity`.

Modules follow the parts of the script:

- `Base`: tiles, directions, the draw stream.
- `Level`: the grid, layout rules, grid generation and `randomEmptyTile`.
- `State`: entities and the game record.
- `Collision`: `canEnter`.
- `Movement`: `desiredDirs` and `movePlayer`.
- `Powerups`: drops and pickups.
- `Explosion`: `explodeBomb` and `spawnFlame`.
- `Fuse`: `placeBomb`, `updateBombs` and `updateFlames`.
- `Run`: `buildLevel`, `damagePlayer`, `togglePause`, the win check, and one frame of the loop.

The power-up drop follows the code's thresholds exactly:

- heart on `[0, 0.04)`;
- bomb on `[0.04, 0.1]`;
- range on `(0.1, 0.17]`;
- speed on `(0.17, 0.2)`.

With these thresholds speed is the rarest drop (3%) and range the most
common (7%).

## Model

| member | source | states |
|---|---|---|
| `Level.ClearSoftCount` | main.js:386-388 | Turning one soft block into an empty cell lowers the board's soft-block count by exactly one. |
| `Level.BuildRow` | main.js:119-134 | The inner grid loop yields a full row of 15 cells and consumes at most one draw per cell. |
| `Level.BuildRowEnd` | main.js:119-134 | The inner grid loop consumes exactly one draw per undecided cell of the columns it pushes, and nothing else. |
| `Level.BuildRowReadsInOrder` | main.js:119-134 | Within one row, cell `x` reads exactly the draw after those consumed by the undecided cells to its left, so a row reads its draws left to right. |
| `Level.BuildRows` | main.js:117-135 | The outer grid loop yields a well-formed 13 x 15 grid and keeps the rows already built. |
| `Level.BuildRowsFit` | main.js:117-135 | Every cell the outer loop builds is the layout rule's cell for exactly the draw after those of all undecided cells in the rows above it and to its left in its own row. |
| `Level.BuildRowsEnd` | main.js:117-135 | The outer grid loop consumes exactly the draws of the undecided cells of the rows it pushes. |
| `Level.BuildGrid` | main.js:117-135 | The generated grid is well formed, agrees with the layout rule on every tile (a fixed kind is kept, a drawn cell is never a wall), and only advances the stream. |
| `Level.BuildGridReadsInOrder` | main.js:117-135 | The grid build reads the stream in row-major order: cell `(x, y)` reads the draw after those of the undecided cells before it, and the build ends exactly after the draws of all undecided cells. |
| `Level.GeneratedGridLayout` | main.js:117-135 | Under the corrected classification the border is wall, every pillar outside the safe zone is wall, and every inner safe-zone cell, spawn (1,1) included, is empty. |
| `Level.GeneratedGridLayoutAsWritten` | main.js:121-125 | Under the classification as written, the border and every odd/odd cell are walls. |
| `Level.LayoutsDifferOnlyInSafeZone` | main.js:121-131 | The two classifications agree everywhere except on pillars inside the spawn safe zone. |
| `Level.SpawnIsWallAsWritten` | main.js:116-125 | As written, the spawn tile (1,1) is generated as a wall on every seed. |
| `Level.Scale` | main.js:160-161 | `Math.floor(rand() * n)` lands in `[0, n)`. |
| `Level.Search` | main.js:158-171 | The attempt loop consumes two draws per attempt, makes at most 200 attempts, and makes all 200 whenever it finds nothing. |
| `Level.SearchFound` | main.js:159-167 | A tile the loop returns is the last one drawn and is acceptable, and every earlier drawn tile was refused. |
| `Level.SearchExhausted` | main.js:158-171 | When the loop gives up, every tile it drew was refused. |
| `Level.RandomEmptyTile` | main.js:157-172 | The result is an empty in-bounds tile outside the padding square, or the fallback `(padding, padding)`, and at most 400 draws are consumed. |
| `Level.RandomEmptyTileFirst` | main.js:157-172 | The result is the first acceptable tile among the 200 attempts, after exactly the draws up to it. The fallback comes only when no attempt is acceptable. |
| `State.FindBomb` | main.js:395 | The lookup returns the first index whose bomb lies on the tile, and nothing exactly when no bomb does. |
| `State.RemoveAt` | main.js:372 | `splice(i, 1)` drops exactly the element at `i` and keeps the others in order. |
| `Collision.CanEnterRule` | main.js:287-297 | Off-grid, wall and soft tiles are never enterable. A bomb-free tile is enterable iff it is an empty cell. Someone else's bomb always blocks. The player's own bomb lets them through iff they stand on it or its grace exceeds 0.05 s. |
| `Explosion.BlocksNeverAppear` | main.js:215-219 | While the grid evolves under explosions, a tile that blocks afterwards blocked before, and a wall keeps blocking. |
| `Movement.Without` | main.js:282 | The filter removes every occurrence of the pressed direction and keeps every other one. |
| `Movement.DesiredDirs` | main.js:279-285 | The priority list holds each of the four directions once. The last-pressed direction comes first, and the rest follow the base order left, right, up, down. |
| `Movement.FirstViable` | main.js:301-312 | The loop stops at the first held, enterable direction of the priority list, and every direction before it is not viable. |
| `Movement.TryStart` | main.js:300-313 | An idle player starts moving iff some held direction leads to an enterable tile. The target is the neighbour in the highest-priority such direction, and nothing else changes. |
| `Movement.MovePlayer` | main.js:299-334 | A frame moves the player at most one tile, onto the target it started towards. It keeps the idle-or-heading-to-neighbour shape and changes nothing but position and heading. On arrival the player snaps onto the target and at once re-runs the start rule from there: it moves on iff some direction is viable, in the first viable direction of the priority list. A frame that is not an arrival while moving is exactly the start rule applied where the player stands. |
| `Powerups.DropKind` | main.js:414-419 | A roll of 0.2 or more drops nothing. Below it the four kinds partition `[0, 0.2)` at 0.04, 0.1 and 0.17, with the boundaries as written. |
| `Powerups.MaybeSpawnPowerup` | main.js:413-421 | One roll decides the drop. A drop appends one power-up of the bucketed kind on the tile and consumes one more draw. |
| `Powerups.ApplyPowerup` | main.js:473-491 | Any pickup adds 120 points. Bomb raises capacity and stock together. Range grows by one and speed by 0.25, each capped at exactly 8 and 5. Heart adds one life. No other stat changes. |
| `Powerups.ApplyPowerupKeepsBounds` | main.js:473-491 | A pickup keeps `0 <= stock <= capacity`, a range of at most 8 and a speed of at most 5. |
| `Powerups.Collect` | main.js:461-471 | Every power-up on the player's tile is applied and removed, and the others stay. Score, lives and capacity grow by the counts collected, and the stock headroom is unchanged. After `n` range pickups the range is `min(8, range + n)` (unchanged when `n = 0`); after `n` speed pickups the speed is `min(5, speed + 0.25·n)`. |
| `Powerups.UpdatePowerups` | main.js:461-471 | On a valid state, pickup keeps the state valid and removes exactly the power-ups on the player's tile. Score, lives, capacity and stock grow by the counts collected. Range and speed are raised as in `Powerups.Collect`. Nothing changes but those stats and the power-up list. |
| `Explosion.ClearSoft` | main.js:385-391 | A blast on a soft block empties that cell and scores 25, and leaves bombs and flames alone. It reads one draw as the drop roll. On a roll below 0.2 it appends one power-up of the kind that roll names to the block's tile and reads one more draw. It then skips the 24 particle draws. |
| `Explosion.Explode` | main.js:370-403 | An explosion detonates its bomb first and removes exactly the detonated bombs. It refunds one bomb per detonation up to capacity, scores 25 per cleared soft block, and never creates a wall or a soft block. The bomb list strictly shrinks, which bounds the chain recursion. It burns its own tile, and only appends flames, each within reach of a detonated bomb. |
| `Explosion.Blast` | main.js:381-402 | The four directional walks together keep the explosion relation, and every flame they add lies within reach of the bomb or a chained bomb. |
| `Explosion.Walk` | main.js:382-401 | One directional walk keeps the explosion relation, and every flame it adds lies within reach of the bomb or a chained bomb. |
| `Explosion.WalkStopsAtBlock` | main.js:385-393 | A walk that meets a blocked tile spawns no flame and chains into nothing. A soft block there is cleared for 25 points; anything else leaves the state unchanged. |
| `Explosion.ExplodeReach` | main.js:370-403 | Every cell an explosion changes and every power-up it drops lies within reach of a detonated bomb: on its row or column and at most its range away. |
| `Explosion.BlastReach` | main.js:381-402 | The four walks of one bomb change cells and drop power-ups only within reach of that bomb or a bomb it chained into. |
| `Explosion.WalkReach` | main.js:382-401 | One walk changes cells and drops power-ups only within reach of its bomb or a chained bomb. |
| `Explosion.ChainReach` | main.js:394-399 | Burning a tile and exploding the bomb found on it changes cells and drops power-ups only within reach of the walking bomb or the chained bombs. |
| `Explosion.WalkStaysOnRay` | main.js:382-393 | A walk that chains into no bomb adds flames, changes cells and drops power-ups only on its own ray, between step 1 and the bomb's range. |
| `Explosion.ClearRun` | main.js:382-399 | From any step, the ray has a clear run of open, bomb-free tiles, after which the walk stops: the range ends, or the tile is blocked or holds a bomb. |
| `Explosion.RayPrefix` | main.js:382-399 | Every ray has a clear prefix within range, and after it the range ends or the next tile is blocked or holds a bomb. |
| `Explosion.WalkThroughClearRay` | main.js:382-399 | Over `k` clear steps the walk burns exactly those tiles, one flame each, in order, and carries on after them. |
| `Explosion.WalkOverPrefix` | main.js:382-399 | A walk from step 1 over a clear prefix of `k` steps appends exactly their `k` flames and carries on from step `k + 1`. |
| `Explosion.WalkOutcome` | main.js:382-401 | After a clear prefix of `k` steps the walk burns exactly those `k` tiles. Then it stops at the range, or clears the soft block it meets, or stops at a wall or the edge, or burns the next tile and explodes the first bomb on it. |
| `Explosion.WalkOutcomeRange` | main.js:382 | A clear prefix that fills the range burns every tile of it and ends the walk. |
| `Explosion.WalkOutcomeSoft` | main.js:385-392 | After a clear prefix, a soft block is cleared and ends the walk without a flame. |
| `Explosion.WalkOutcomeWall` | main.js:385-393 | After a clear prefix, a wall or the board's edge ends the walk without a flame. |
| `Explosion.WalkOutcomeBomb` | main.js:394-399 | After a clear prefix, the first bomb met is on a tile within reach, is burnt and explodes, and the walk goes no further. |
| `Explosion.RayOnRay` | main.js:382-393 | The flames of a clear prefix, and the soft block cleared right after it, all lie on the ray within range. |
| `Explosion.ExplodeChain` | main.js:394-399 | Every bomb an explosion detonates after its own is on another tile than, and within reach of, the first bomb or a bomb detonated before it: chains spread only by reach. |
| `Explosion.ExplodeSplitsTiles` | main.js:370-403 | With distinct tiles, no bomb left after an explosion stands on the tile of a detonated bomb. |
| `Explosion.WalkLone` | main.js:382-399 | A walk with no bomb within its reach chains into nothing, leaves the bomb list as it was and changes only its own ray. |
| `Explosion.WalkLoneRay` | main.js:382-397 | With no bomb within reach, every step of an open run of `k` steps within the range is on fire after the walk, and a soft block right after the run is emptied. |
| `Explosion.BlastLone` | main.js:381-402 | With no bomb within reach, the four walks chain into nothing; the four rays share no tile, so each direction's flames and cleared block are left alone by the other directions. |
| `Explosion.ExplodeLone` | main.js:370-403 | A bomb with no other bomb in its reach detonates alone. In each direction every step of an open run of `k` steps within its range is on fire afterwards, and a soft block right after the run is cleared. |
| `Explosion.SpawnFlame` | main.js:405-411 | Spawning appends one flame with the full 520 ms on the tile and keeps the earlier flames in order. |
| `Explosion.SpawnFlameAt` | main.js:405-411 | After spawning, a tile has a flame iff it had one before or is the spawned tile. |
| `Explosion.Detonate` | main.js:371-374 | Detonation removes exactly the exploding bomb, refunds one bomb up to capacity, spawns a flame on its tile, and changes nothing else. |
| `Level.IsBlocked` | main.js:215-219 | A tile blocks iff it is off the grid, a wall or a soft block. |
| `Level.FixedCellAsWritten` | main.js:121-131 | As written, a cell is a wall iff it is on the border or a pillar, and it is forced empty iff it is neither but lies in the spawn safe zone. No cell is fixed soft. |
| `Level.FixedCell` | main.js:121-131 | Corrected, a cell is a wall iff it is on the border or a pillar outside the safe zone, and it is forced empty iff it is inside the safe zone and off the border. No cell is fixed soft. |
| `Collision.CanEnter` | main.js:287-297 | An enterable tile is an empty in-bounds cell, and one with a bomb only when it is the player's own and they stand on it or its grace exceeds 0.05 s. Every empty bomb-free tile is enterable. |
| `Explosion.FlamesGrow` | main.js:360 | The flame test on a bomb's tile keeps holding when flames are only appended. |
| `Explosion.Burn` | main.js:395-396 | Burning a tile within reach appends exactly one flame and changes nothing else. |
| `Explosion.ExplodesAtMostOnce` | main.js:395-399 | The detonated bombs have distinct tiles, none of them is left in the list, and the list keeps distinct tiles and holds only original bombs. |
| `Explosion.EvolvesKeepsValid` | main.js:370-403 | An explosion keeps a valid state valid. |
| `Explosion.StockAfterBounds` | main.js:373 | The refund after any number of detonations keeps `0 <= stock <= capacity`. |
| `Explosion.ExplodeRemovesIt` | main.js:371-373 | The exploded bomb and every bomb sharing its tile are gone, and the stock becomes `min(capacity, stock + detonations)`. |
| `Fuse.PlaceBomb` | main.js:337-354 | Placing is a no-op unless the run is playing, a bomb is in stock and the player's tile is free. Otherwise exactly one bomb is appended (full fuse, 0.25 s grace, the player's range, the player as owner), stock drops by one, nothing else changes, and validity is kept. |
| `Fuse.PlaceBombTwice` | main.js:341-343 | A second press without moving places nothing more. |
| `Fuse.TickBomb` | main.js:359-363 | A tick burns `dt` seconds off the fuse, or forces it to zero when a flame lies on the bomb's tile. Grace shrinks by `dt` but never below zero. |
| `Fuse.UpdateFrom` | main.js:357-366 | The pass over the remembered tiles keeps distinct tiles. Every original bomb is either still present or detonated. A survivor is untouched if its tile was not yet visited, and otherwise is its original ticked once, with fuse left and no flame on its tile at the start. |
| `Fuse.UpdateBombs` | main.js:356-368 | The corrected countdown keeps the state valid. Every bomb left is an original bomb ticked exactly once whose fuse has not run out and whose tile had no flame at the start. Every original bomb is either left or detonated. The converse, that only due bombs go, is `Fuse.UpdateBombsCountsDown`. |
| `Fuse.UpdateFromSettled` | main.js:357-366 | The pass detonates only bombs that were due. Each detonated bomb is an original one with its tile and range, and no bomb is left on its tile. An original is among the detonated only if its own tick on a visited tile ran the fuse out, or a detonated bomb on another tile had it in reach. |
| `Fuse.UpdateFromQuiet` | main.js:357-366 | When no visited bomb's tick runs its fuse out, the pass detonates nothing, changes nothing but the bombs, and ticks exactly the bombs on visited tiles once, in place. |
| `Fuse.PassDue` | main.js:356-368 | Over every bomb, the pass removes an original only if it was due or in reach of a detonated bomb. When no bomb is due, nothing detonates and every bomb is ticked once, in place. |
| `Fuse.DueAmongOriginals` | main.js:356-368 | Since reach depends only on tile and range, a bomb removed by another's blast was in reach of an original bomb that is gone too. |
| `Fuse.UpdateBombsCountsDown` | main.js:356-368 | The countdown in both directions (`CountedDown`). Every bomb left is an original ticked once, with fuse left and no flame at the start. An original that is gone had its fuse run out, or was in reach of another original that is gone too. When no bomb is due, every bomb is ticked once, in place. |
| `Fuse.UpdateBombsAsWritten` | main.js:356-368 | The countdown as written cannot fault with at most one bomb. |
| `Fuse.TickDown` | main.js:357-366 | Reading an index past the end of the shrunken list is the fault. With at most one bomb it never happens. |
| `Fuse.UpdateBombsAsWrittenFaults` | main.js:357-366 | Two bombs, the later in a flame and the earlier one tile to its right: the loop reads a bomb that the chain reaction already removed. |
| `Fuse.ExplodeLastChains` | main.js:395-399 | In that configuration, exploding the later bomb also detonates the earlier one and leaves no bomb. |
| `Fuse.WalkChains` | main.js:394-399 | A walk that reaches the tile of the only remaining bomb detonates it. |
| `Fuse.UpdateFlames` | main.js:423-431 | Every flame burns `dt` seconds, exactly the ones with time left survive, and the survivors keep positive time. |
| `Fuse.UpdateFlamesConcat` | main.js:423-431 | Flame expiry acts on each flame independently and keeps the list order. |
| `Run.PickDir` | main.js:535-543 | A draw picks right, left, down or up on the four quarters of `[0, 1)`. |
| `Run.SpawnEnemy` | main.js:143-151 | One enemy gets its index as id, an acceptable spawn tile or the fallback, and a first heading change due in 0.8 to 2 s. After the tile search, the next draw picks the heading (`PickDir`), the one after it sets the timer to `0.8 + 1.2·draw`, and the stream ends just past those two. |
| `Run.SpawnEnemies` | main.js:142-152 | The enemy loop yields exactly five enemies and keeps the ones already spawned. |
| `Run.SpawnEnemiesReadsInOrder` | main.js:142-152 | Enemy `k` is spawned from exactly the stream the enemies before it left (`Run.SpawnStream`). |
| `Run.SpawnEnemiesEnd` | main.js:142-152 | The enemy loop ends with the stream all five spawns leave. |
| `Run.SpawnEnemiesSpawned` | main.js:142-152 | Every enemy the loop adds is spawned as the loop intends and numbered by its position. |
| `Run.StartRun` | main.js:90-152 | A fresh run is valid and playing. It has no bombs, flames or power-ups, a reset player, five enemies, and the same draw stream. Every cell agrees with the grid loop's classification rule, which is a parameter. |
| `Run.StartRunBoardAsWritten` | main.js:116-125 | With the classification as written, a fresh run places the player on (1,1), and that tile is a wall on every seed. |
| `Run.StartRunBoard` | main.js:121-131 | With the corrected classification, a fresh run starts on a free spawn tile inside a walled board. |
| `Run.StartRunReadsInOrder` | main.js:98-152 | A fresh run reads the stream in program order. Grid cells come first, row by row. The enemies follow, starting at the draw after the grid's last, each from the stream the previous one left. The run keeps the stream the last enemy left. |
| `Run.StartRunEnemies` | main.js:142-152 | Every enemy of a fresh run is numbered by its position, stands on an acceptable tile or the fallback, and is due to turn in 0.8 to 2 s. |
| `Run.DamagePlayer` | main.js:545-570 | A hit is ignored while invulnerable or not playing. Otherwise it takes one life, sends the player idle to (1,1) with 1.6 s of invulnerability, and sets the score to `max(0, score - 150)`. The run ends iff no life is left, and nothing else changes. |
| `Run.DamageOnce` | main.js:546 | A second hit straight after the first has no effect. |
| `Run.DamageKeepsValid` | main.js:545-570 | A hit keeps the state valid and the player's movement shape. |
| `Run.TogglePause` | main.js:816-833 | A finished run stays finished; otherwise playing and paused swap. |
| `Run.TogglePauseTwice` | main.js:816-833 | Pausing twice returns to the starting phase. |
| `Run.CheckWin` | main.js:589-592 | The run becomes won exactly when it is playing with no enemy left, and then gains 500 points; otherwise nothing changes. |
| `Run.CheckWinOnce` | main.js:589-592 | A won run is not rewarded twice. |
| `Run.UpdatePlayer` | main.js:572-580 | Without a hit that lands, the player is the result of the move with the invulnerability timer counted down by `dt`, and the phase is kept. A hit that lands while playing, after the countdown, takes one life and sends the player idle to (1,1) with 1.6 s of invulnerability, and the run ends iff no life is left. Nothing but the player and the phase changes. |
| `Run.UpdateRules` | main.js:582-588 | The rule steps of a frame keep the state valid. The player is where the player step leaves them; lives and score grow by the hearts and points picked up on that tile plus 25 per soft block cleared. Every bomb left is an original ticked once, with fuse left and no flame on its tile at the start (the converse is `Run.UpdateRulesCountsDown`). Flames are aged and only live ones stay. The power-ups not on the player's tile come first, and none on it is among them. |
| `Run.UpdateRulesCountsDown` | main.js:582-588 | The rule steps of a frame count the bombs down in both directions (`CountedDown` on the bombs and flames the frame started with), since the player and pickup steps leave bombs and flames alone. |
| `Run.FlamesAged` | main.js:423-431 | When flames were only appended during the frame, expiry keeps every earlier flame that had time left, aged by `dt`, and only live flames. |
| `Run.Frame` | main.js:582-603 | A frame runs only while playing and keeps the state valid. The run is won iff the player step left it playing and no enemy is left, for 500 points on top of the pickup and soft-block points. Otherwise the phase is the player step's. The player's position, lives, bombs, flames and power-ups are as the rule steps leave them, and the grid only loses soft blocks. The stream consumes at least the enemies' heading draws. The two-way countdown is `Run.FrameCountsDown`. |
| `Run.FrameCountsDown` | main.js:582-603 | A frame while playing counts the bombs down in both directions (`CountedDown`), the win check leaving the bombs alone. |

## Left out

- Rendering, DOM updates, overlay cards, seed copying, resizing and keyboard wiring are I/O without rule content. Held keys and the last pressed key reach the model as `Movement.Input`.
- The `mulberry32` generator and `setSeed` are not modelled. The stream of draws stands for their output, which is always in `[0, 1)`.
- Floating point is modelled as exact reals. The timers, grace, speed and invulnerability use the source's constants.
- The player's continuous position and interpolation are left out. Whether a frame's step reaches the target tile is the input `arrived` of `Movement.MovePlayer`.
- Whether a flame touches the player's continuous position (`flameHits`) is the input `hit` of `Run.UpdatePlayer`.
- `updateEnemies` is not part of this model: continuous steering, `collides`, contact damage and the 250-point kill bonus are left out. `Run.Frame` takes the enemy list as `updateEnemies` leaves it as an input. It also takes the number of heading draws that call takes (`enemyDraws`); the model does not derive that number.
- Particles are not modelled; their draws are consumed. The power-up animation phase and its per-frame `pulse` increment are cosmetic and not modelled; the phase's draw is consumed.
- A bomb's string `id` (built from `Date.now()`) and an enemy's speed and pixel position are not modelled. Enemy ids are their index.
- `Run.Frame` composes the corrected countdown `Fuse.UpdateBombs`, which ticks every bomb present at the start of the frame once. Where a chain reaction removes a bomb at a lower index, the program's loop (`Fuse.UpdateBombsAsWritten`) instead reads indices that no longer hold the bomb it expects (and may fault); Frame does not model that.
- The animation-frame loop and its clamp of `dt` to 0.05 s are host timing. `Run.Frame` takes `dt` as given.
- `Level.BuildRow`: the exact draw count of a row is stated per cell by `Level.BuildRowReadsInOrder`, not as a total.

## Findings

| source | as written | input that shows it | evidently intended | confidence | as-written member | corrected member |
|---|---|---|---|---|---|---|
| main.js:121-131 | The odd/odd pillar test runs before the spawn safe-zone test, so the pillar cells of the safe zone, the spawn (1,1) itself included, become walls. | Any seed: cell (1,1) has odd coordinates and is classified solid, so the player starts inside a wall. | Cells of the spawn safe zone are empty, spawn included: the safe-zone test comes before the pillar test (the border stays first). | high, not executed | `Run.StartRunBoardAsWritten` | `Run.StartRunBoard` |
| main.js:357-366 | The countdown loop walks indices from the last down and reads `bombs[i]` afresh. A chain reaction triggered at index `i` can remove lower-index bombs, so a later iteration reads past the end of the list and dereferences `undefined`. | Two bombs `[a, b]` with `a` one tile right of `b`, and `b` placed on a lingering flame (the player is invulnerable after a hit): `b` explodes, chains into `a`, and the next iteration reads `bombs[0]` of an empty list. | Every bomb present at the start of the frame is ticked once unless an earlier chain already detonated it. | medium, not executed | `Fuse.UpdateBombsAsWrittenFaults` | `Fuse.UpdateBombs` |

=== FILE: base.dfy ===
/** Shared vocabulary of the game model: optional values, tile coordinates,
    the four axis directions and the random draw stream. */
module Base {

  datatype Option<+T> = None | Some(value: T)

  /** A grid coordinate; `x` is the column and `y` the row. */
  datatype Tile = Tile(x: int, y: int)

  /** The four axis directions the game knows ("left", "right", "up", "down"). */
  datatype Dir = Left | Right | Up | Down

  /** The tile `n` steps away from `t` in direction `d` (rows grow
      downwards, so `Up` lowers `y`). */
  function Step(t: Tile, d: Dir, n: int): (r: Tile)
    ensures Manhattan(t, r) == (if n < 0 then -n else n)
    ensures (d == Left || d == Right) ==> r.y == t.y
    ensures (d == Up || d == Down) ==> r.x == t.x
  {
    match d
    case Left => Tile(t.x - n, t.y)
    case Right => Tile(t.x + n, t.y)
    case Up => Tile(t.x, t.y - n)
    case Down => Tile(t.x, t.y + n)
  }

  function Abs(n: int): nat
  {
    if n < 0 then -n else n
  }

  function Manhattan(a: Tile, b: Tile): nat
  {
    Abs(a.x - b.x) + Abs(a.y - b.y)
  }

  /** One value returned by the generator: always in [0, 1). */
  type Draw = r: real | 0.0 <= r < 1.0

  /** The seeded generator as an infinite stream of draws and a cursor.
      `Next` hands out the draw at the cursor and moves the cursor by one,
      so every consumer reads the stream strictly left to right. */
  datatype Rng = Rng(draws: nat -> Draw, pos: nat)
  {
    function Next(): (Draw, Rng)
    {
      (draws(pos), Rng(draws, pos + 1))
    }

    /** Consume `n` draws whose values have no gameplay effect. */
    function Skip(n: nat): Rng
    {
      Rng(draws, pos + n)
    }
  }
}

=== FILE: collision.dfy ===
/** Tile-granular entry test for the player's grid stepping (main.js:287-297). */
module Collision {
  import opened Base
  import opened Level
  import opened State

  /** `canEnter(tx, ty)`: the tile must be on the grid and empty; a bomb on
      it blocks unless it is the player's own and the player is either
      already standing there or the bomb's grace is above 0.05 s. Only the
      first bomb listed on the tile is consulted. */
  function CanEnter(s: Game, t: Tile): (r: bool)
    requires WellFormed(s.grid)
    ensures r ==> InBounds(t) && CellAt(s.grid, t) == Empty
    ensures r && FindBomb(s.bombs, t).Some? ==>
              var b := s.bombs[FindBomb(s.bombs, t).value];
              b.owner == PlayerId && (s.player.tile == t || b.grace > 0.05)
    ensures InBounds(t) && CellAt(s.grid, t) == Empty && FindBomb(s.bombs, t).None? ==> r
  {
    && !IsBlocked(s.grid, t)
    && match FindBomb(s.bombs, t)
       case None => true
       case Some(i) =>
         var b := s.bombs[i];
         b.owner == PlayerId && (s.player.tile == t || b.grace > 0.05)
  }

  /** The entry rule stated over the bomb list as a set of bombs: a tile
      with no bomb is enterable iff it is an empty grid cell; a tile holding
      someone else's bomb never is; a tile holding the player's bomb is
      enterable iff it is empty and the player already stands there or the
      bomb's grace exceeds 0.05. */
  lemma CanEnterRule(s: Game, t: Tile)
    requires WellFormed(s.grid) && DistinctTiles(s.bombs)
    ensures !InBounds(t) ==> !CanEnter(s, t)
    ensures InBounds(t) && CellAt(s.grid, t) != Empty ==> !CanEnter(s, t)
    ensures (forall b :: b in s.bombs ==> b.tile != t) ==>
              (CanEnter(s, t) <==> InBounds(t) && CellAt(s.grid, t) == Empty)
    ensures forall b :: b in s.bombs && b.tile == t && b.owner != PlayerId ==> !CanEnter(s, t)
    ensures forall b :: b in s.bombs && b.tile == t && b.owner == PlayerId ==>
              (CanEnter(s, t) <==>
                 (InBounds(t) && CellAt(s.grid, t) == Empty && (s.player.tile == t || b.grace > 0.05)))
  {
    forall b | b in s.bombs && b.tile == t
      ensures FindBomb(s.bombs, t).Some? && s.bombs[FindBomb(s.bombs, t).value] == b
    {
      var k :| 0 <= k < |s.bombs| && s.bombs[k] == b;
      var i := FindBomb(s.bombs, t).value;
      assert i == k;
    }
  }
}

=== FILE: explosion.dfy ===
/** Bomb explosions: the four-direction blast walk, soft-block clearing and
    chain reactions (main.js:370-411). The recursion follows the source:
    a chained bomb is found in the current bomb list, removed and exploded
    before the outer walk moves on to its next direction. */
module Explosion {
  import opened Base
  import opened Level
  import opened State
  import opened Powerups

  /** Score for every soft block a blast clears. */
  const SoftScore: int := 25
  /** `spawnParticles` draws three values for each of its eight particles. */
  const ParticleDraws: nat := 24
  /** The blast walks `+x`, `-x`, `+y`, `-y`, in this order. */
  const BlastOrder: seq<Dir> := [Right, Left, Down, Up]

  function Min(a: int, b: int): int
  {
    if a < b then a else b
  }

  /** `spawnFlame(tx, ty)`: one fresh flame on `t` joins the end of the list. */
  function SpawnFlame(flames: seq<Flame>, t: Tile): (r: seq<Flame>)
    ensures |r| == |flames| + 1 && r[..|flames|] == flames
    ensures r[|flames|] == Flame(t, FlameMs)
  {
    flames + [Flame(t, FlameMs)]
  }

  /** After `spawnFlame(t)` the tiles on fire are those on fire before,
      plus `t`. */
  lemma SpawnFlameAt(flames: seq<Flame>, t: Tile)
    ensures forall u :: FlameAt(SpawnFlame(flames, t), u) <==> FlameAt(flames, u) || u == t
  {
    var r := SpawnFlame(flames, t);
    assert r[|flames|].tile == t;
    assert forall i :: 0 <= i < |flames| ==> r[i] == flames[i];
  }

  /** The stock after `k` explosions, each refunding one bomb up to capacity. */
  function StockAfter(p: Player, k: nat): int
  {
    if k == 0 then p.stock else Min(p.capacity, p.stock + k)
  }

  /** The grid only ever loses soft blocks: walls stay walls, nothing becomes
      a wall, and nothing becomes soft. */
  ghost predicate GridEvolves(g: Grid, h: Grid)
  {
    && WellFormed(g) && WellFormed(h)
    && forall t :: InBounds(t) ==>
         && (CellAt(h, t) == Soft ==> CellAt(g, t) == Soft)
         && (CellAt(g, t) == Solid <==> CellAt(h, t) == Solid)
  }

  /** Along an evolving grid no tile becomes blocked: a tile that blocks
      afterwards blocked before, and a wall blocks for good. */
  lemma BlocksNeverAppear(g: Grid, h: Grid, t: Tile)
    requires GridEvolves(g, h)
    ensures IsBlocked(h, t) ==> IsBlocked(g, t)
    ensures InBounds(t) && CellAt(g, t) == Solid ==> IsBlocked(h, t)
  {
  }

  /** Tile `t` is the bomb's own tile or lies on one of its four rays
      within its range. */
  predicate InReach(b: Bomb, t: Tile)
  {
    || t == b.tile
    || (t.x == b.tile.x && Abs(t.y - b.tile.y) <= b.range)
    || (t.y == b.tile.y && Abs(t.x - b.tile.x) <= b.range)
  }

  /** Tile `t` lies within reach of some bomb of `det`. */
  ghost predicate TileReached(t: Tile, det: seq<Bomb>)
  {
    exists db :: db in det && InReach(db, t)
  }

  /** Flame `f` lies within reach of some bomb of `det`. */
  ghost predicate Reached(f: Flame, det: seq<Bomb>)
  {
    TileReached(f.tile, det)
  }

  /** Every flame in `fl` lies within reach of some bomb of `det`. */
  ghost predicate ReachedBy(fl: seq<Flame>, det: seq<Bomb>)
  {
    forall k :: 0 <= k < |fl| ==> Reached(fl[k], det)
  }

  /** How an explosion that detonated the bombs `det` relates the state `s`
      before it to the state `r` after it: exactly the detonated bombs are
      gone, one bomb is refunded per detonation, 25 points are scored per
      soft block cleared, flames and power-ups are only appended, the draw
      stream only advances, and nothing else changes. */
  ghost predicate Evolves(s: Game, r: Game, det: seq<Bomb>)
  {
    && Around(s, r, det)
    && multiset(r.bombs) + multiset(det) == multiset(s.bombs)
  }

  /** Everything `Evolves` says except what happens to the bomb list. */
  ghost predicate Around(s: Game, r: Game, det: seq<Bomb>)
  {
    && GridEvolves(s.grid, r.grid)
    && SoftCount(r.grid) <= SoftCount(s.grid)
    && r.player == s.player.(stock := StockAfter(s.player, |det|),
                             score := s.player.score + SoftScore * (SoftCount(s.grid) - SoftCount(r.grid)))
    && |s.flames| <= |r.flames| && r.flames[..|s.flames|] == s.flames
    && |s.powerups| <= |r.powerups| && r.powerups[..|s.powerups|] == s.powerups
    && r.rng.draws == s.rng.draws && s.rng.pos <= r.rng.pos
    && r.enemies == s.enemies && r.phase == s.phase
  }

  lemma EvolvesRefl(s: Game)
    requires WellFormed(s.grid)
    ensures Evolves(s, s, [])
  {
    assert s.player.(stock := StockAfter(s.player, 0), score := s.player.score) == s.player;
  }

  lemma EvolvesTrans(a: Game, b: Game, c: Game, d1: seq<Bomb>, d2: seq<Bomb>)
    requires Evolves(a, b, d1) && Evolves(b, c, d2)
    ensures Evolves(a, c, d1 + d2)
  {
    assert multiset(d1 + d2) == multiset(d1) + multiset(d2);
    AroundTrans(a, b, c, d1, d2);
  }

  lemma {:induction false} AroundTrans(a: Game, b: Game, c: Game, d1: seq<Bomb>, d2: seq<Bomb>)
    requires Around(a, b, d1) && Around(b, c, d2)
    ensures Around(a, c, d1 + d2)
  {
    assert c.flames[..|a.flames|] == c.flames[..|b.flames|][..|a.flames|];
    assert c.powerups[..|a.powerups|] == c.powerups[..|b.powerups|][..|a.powerups|];
    assert StockAfter(b.player, |d2|) == StockAfter(a.player, |d1 + d2|);
  }

  lemma {:induction false} ReachedConcat(a: seq<Flame>, m: seq<Flame>, c: seq<Flame>,
                                         d1: seq<Bomb>, d2: seq<Bomb>, d: seq<Bomb>)
    requires |a| <= |m| <= |c| && c[..|m|] == m && m[..|a|] == a
    requires ReachedBy(m[|a|..], d1) && ReachedBy(c[|m|..], d2)
    requires forall x :: x in d1 ==> x in d
    requires forall x :: x in d2 ==> x in d
    ensures ReachedBy(c[|a|..], d)
  {
    var fl := c[|a|..];
    forall k | 0 <= k < |fl|
      ensures Reached(fl[k], d)
    {
      if |a| + k < |m| {
        assert fl[k] == m[|a|..][k];
        assert Reached(m[|a|..][k], d1);
        var db :| db in d1 && InReach(db, m[|a|..][k].tile);
        assert db in d && InReach(db, fl[k].tile);
      } else {
        assert fl[k] == c[|m|..][k - (|m| - |a|)];
        assert Reached(c[|m|..][k - (|m| - |a|)], d2);
        var db :| db in d2 && InReach(db, c[|m|..][k - (|m| - |a|)].tile);
        assert db in d && InReach(db, fl[k].tile);
      }
    }
  }

  /** The soft-block branch of the walk: clear the block, score 25, roll for
      a power-up and consume the particle burst's draws. */
  function ClearSoft(s: Game, t: Tile): (r: Game)
    requires WellFormed(s.grid) && InBounds(t) && CellAt(s.grid, t) == Soft
    ensures Evolves(s, r, [])
    ensures CellAt(r.grid, t) == Empty
    ensures r.player.score == s.player.score + SoftScore
    ensures r.flames == s.flames && r.bombs == s.bombs
    ensures forall u :: InBounds(u) && u != t ==> CellAt(r.grid, u) == CellAt(s.grid, u)
    ensures forall k :: |s.powerups| <= k < |r.powerups| ==> r.powerups[k].tile == t
    ensures var drop := DropKind(s.rng.draws(s.rng.pos));
      && r.powerups == s.powerups + (if drop.Some? then [PowerUp(t, drop.value)] else [])
      && r.rng == s.rng.(pos := s.rng.pos + 1 + (if drop.Some? then 1 else 0) + ParticleDraws)
  {
    var (pus, rng1) := MaybeSpawnPowerup(s.powerups, t, s.rng);
    var r := s.(grid := SetCell(s.grid, t, Empty),
                player := s.player.(score := s.player.score + SoftScore),
                powerups := pus,
                rng := rng1.Skip(ParticleDraws));
    ClearSoftCount(s.grid, t);
    assert r.player == s.player.(stock := StockAfter(s.player, 0),
                                 score := s.player.score + SoftScore * (SoftCount(s.grid) - SoftCount(r.grid)));
    r
  }

  /** The first half of `explodeBomb(index)`: the bomb leaves the list,
      one bomb is refunded up to capacity and its own tile burns. */
  function Detonate(s: Game, idx: nat): (r: Game)
    requires idx < |s.bombs|
    ensures multiset(r.bombs) + multiset{s.bombs[idx]} == multiset(s.bombs)
    ensures s.player.stock < s.player.capacity ==> r.player.stock == s.player.stock + 1
    ensures s.player.stock >= s.player.capacity ==> r.player.stock == s.player.capacity
    ensures r.player == s.player.(stock := r.player.stock)
    ensures r.flames == SpawnFlame(s.flames, s.bombs[idx].tile)
    ensures r == s.(bombs := r.bombs, player := r.player, flames := r.flames)
  {
    s.(bombs := RemoveAt(s.bombs, idx),
       player := s.player.(stock := Min(s.player.capacity, s.player.stock + 1)),
       flames := SpawnFlame(s.flames, s.bombs[idx].tile))
  }

  /** `explodeBomb(index)`: remove the bomb, refund one bomb up to capacity,
      burn its own tile, then blast in the four directions. Returns the new
      state and the detonated bombs in detonation order. */
  function Explode(s: Game, idx: nat): (r: (Game, seq<Bomb>))
    requires WellFormed(s.grid) && idx < |s.bombs|
    decreases |s.bombs|, 0, 0
    ensures Evolves(s, r.0, r.1)
    ensures |r.1| >= 1 && r.1[0] == s.bombs[idx]
    ensures |r.0.bombs| < |s.bombs|
    ensures |r.0.flames| > |s.flames| && r.0.flames[|s.flames|] == Flame(s.bombs[idx].tile, FlameMs)
    ensures ReachedBy(r.0.flames[|s.flames|..], r.1)
  {
    var b := s.bombs[idx];
    var s1 := Detonate(s, idx);
    assert Evolves(s, s1, [b]);
    var bl := Blast(s1, b, 0);
    EvolvesTrans(s, s1, bl.0, [b], bl.1);
    assert bl.0.flames[|s.flames|] == bl.0.flames[..|s1.flames|][|s.flames|] == Flame(b.tile, FlameMs);
    assert s1.flames[|s.flames|..] == [Flame(b.tile, FlameMs)];
    assert b in [b] && InReach(b, b.tile);
    assert Reached(Flame(b.tile, FlameMs), [b]);
    ReachedConcat(s.flames, s1.flames, bl.0.flames, [b], [b] + bl.1, [b] + bl.1);
    assert |multiset(bl.0.bombs)| + |multiset([b] + bl.1)| == |multiset(s.bombs)|;
    (bl.0, [b] + bl.1)
  }

  /** The four directions `d` onwards of bomb `b`'s blast. */
  function Blast(s: Game, b: Bomb, d: nat): (r: (Game, seq<Bomb>))
    requires WellFormed(s.grid) && d <= 4
    decreases |s.bombs|, 2, 4 - d
    ensures Evolves(s, r.0, r.1)
    ensures ReachedBy(r.0.flames[|s.flames|..], [b] + r.1)
  {
    if d == 4 then
      EvolvesRefl(s);
      (s, [])
    else
      var w := Walk(s, b, d, 1);
      assert |w.0.bombs| <= |s.bombs| by {
        assert |multiset(w.0.bombs)| + |multiset(w.1)| == |multiset(s.bombs)|;
      }
      var rest := Blast(w.0, b, d + 1);
      EvolvesTrans(s, w.0, rest.0, w.1, rest.1);
      ReachedConcat(s.flames, w.0.flames, rest.0.flames, [b] + w.1, [b] + rest.1, [b] + (w.1 + rest.1));
      (rest.0, w.1 + rest.1)
  }

  /** The walk of bomb `b` in direction `BlastOrder[d]`, from step `i` on:
      stop past the range; stop at a blocked tile, clearing it if soft;
      otherwise burn the tile, and if a bomb lies there, explode it and stop. */
  function Walk(s: Game, b: Bomb, d: nat, i: int): (r: (Game, seq<Bomb>))
    requires WellFormed(s.grid) && d < 4 && i >= 1
    decreases |s.bombs|, 1, if b.range - i + 1 > 0 then b.range - i + 1 else 0
    ensures Evolves(s, r.0, r.1)
    ensures ReachedBy(r.0.flames[|s.flames|..], [b] + r.1)
  {
    if i > b.range then
      EvolvesRefl(s);
      (s, [])
    else
      var t := Step(b.tile, BlastOrder[d], i);
      if IsBlocked(s.grid, t) then
        if InBounds(t) && CellAt(s.grid, t) == Soft then
          (ClearSoft(s, t), [])
        else
          EvolvesRefl(s);
          (s, [])
      else
        var s2 := Burn(s, b, t);
        match FindBomb(s.bombs, t)
        case None =>
          var w := Walk(s2, b, d, i + 1);
          BurnThen(s, s2, w.0, b, w.1, [b] + w.1);
          w
        case Some(h) =>
          var e := Explode(s2, h);
          BurnThen(s, s2, e.0, b, e.1, e.1);
          e
  }

  /** A walk that meets a blocked tile goes no further: it spawns no flame
      and chains into no bomb; a soft block there is cleared for 25 points,
      anything else leaves the state as it was. */
  lemma WalkStopsAtBlock(s: Game, b: Bomb, d: nat, i: int)
    requires WellFormed(s.grid) && d < 4 && 1 <= i <= b.range
    requires IsBlocked(s.grid, Step(b.tile, BlastOrder[d], i))
    ensures var (r, det) := Walk(s, b, d, i);
      var t := Step(b.tile, BlastOrder[d], i);
      && det == [] && r.flames == s.flames && r.bombs == s.bombs
      && (InBounds(t) && CellAt(s.grid, t) == Soft ==>
            WellFormed(r.grid) && CellAt(r.grid, t) == Empty && r.player.score == s.player.score + SoftScore)
      && (!InBounds(t) || CellAt(s.grid, t) != Soft ==> r == s)
  {
  }

  /** Step `i` of ray `d` of bomb `b`, for `1 <= i <= range`, is within its reach. */
  lemma StepInReach(b: Bomb, d: nat, i: int)
    requires d < 4 && 1 <= i <= b.range
    ensures InReach(b, Step(b.tile, BlastOrder[d], i))
  {
  }

  /** Tile `t` lies on ray `d` of bomb `b`, from step `i` up to the range. */
  ghost predicate OnRay(b: Bomb, d: nat, i: int, t: Tile)
    requires d < 4
  {
    exists j :: i <= j <= b.range && t == Step(b.tile, BlastOrder[d], j)
  }

  /** Every flame spawned, cell changed and power-up dropped between `s`
      and `r` lies on ray `d` of bomb `b`, between step `i` and the range. */
  ghost predicate StaysOnRay(s: Game, r: Game, b: Bomb, d: nat, i: int)
    requires WellFormed(s.grid) && WellFormed(r.grid) && d < 4
  {
    && (forall k :: |s.flames| <= k < |r.flames| ==> OnRay(b, d, i, r.flames[k].tile))
    && (forall t :: InBounds(t) && CellAt(r.grid, t) != CellAt(s.grid, t) ==> OnRay(b, d, i, t))
    && (forall k :: |s.powerups| <= k < |r.powerups| ==> OnRay(b, d, i, r.powerups[k].tile))
  }

  /** On an open, bomb-free tile the walk burns it and moves on. */
  lemma WalkBurnsOpen(s: Game, b: Bomb, d: nat, i: int)
    requires WellFormed(s.grid) && d < 4 && 1 <= i <= b.range
    requires !IsBlocked(s.grid, Step(b.tile, BlastOrder[d], i))
    requires FindBomb(s.bombs, Step(b.tile, BlastOrder[d], i)).None?
    ensures InReach(b, Step(b.tile, BlastOrder[d], i))
    ensures Walk(s, b, d, i) == Walk(Burn(s, b, Step(b.tile, BlastOrder[d], i)), b, d, i + 1)
  {
    StepInReach(b, d, i);
  }

  /** A walk that chains into no bomb stays on its own ray and within the
      range: every flame it spawns, every cell it changes and every
      power-up it drops lies on ray `d` between step 1 and `b.range`. */
  lemma WalkStaysOnRay(s: Game, b: Bomb, d: nat)
    requires WellFormed(s.grid) && d < 4
    ensures Walk(s, b, d, 1).1 == [] ==> StaysOnRay(s, Walk(s, b, d, 1).0, b, d, 1)
  {
    if b.range < 1 {
      WalkPastRange(s, b, d, 1);
    } else {
      var k := RayPrefix(s, b, d);
      var t := Step(b.tile, BlastOrder[d], k + 1);
      if k == b.range {
        WalkOutcomeRange(s, b, d, k);
        RayOnRay(s, PrefixBurnt(s, b, d, k), b, d, k);
      } else if InBounds(t) && CellAt(s.grid, t) == Soft {
        StaysSoft(s, b, d, k);
      } else if IsBlocked(s.grid, t) {
        WalkOutcomeWall(s, b, d, k);
        RayOnRay(s, PrefixBurnt(s, b, d, k), b, d, k);
      } else {
        WalkOutcomeBomb(s, b, d, k);
      }
    }
  }

  /** The longest clear prefix of ray `d`, and why the walk stops after it. */
  lemma RayPrefix(s: Game, b: Bomb, d: nat) returns (k: nat)
    requires WellFormed(s.grid) && d < 4 && b.range >= 1
    ensures ClearPrefix(s, b, d, k)
    ensures var t := Step(b.tile, BlastOrder[d], k + 1);
      k == b.range || IsBlocked(s.grid, t) || FindBomb(s.bombs, t).Some?
  {
    k := ClearRun(s.grid, s.bombs, b, d, 1);
  }

  /** A walk stopped by a soft block after a clear prefix stays on its ray. */
  lemma StaysSoft(s: Game, b: Bomb, d: nat, k: nat)
    requires ClearPrefix(s, b, d, k) && k < b.range
    requires var t := Step(b.tile, BlastOrder[d], k + 1); InBounds(t) && CellAt(s.grid, t) == Soft
    ensures StaysOnRay(s, Walk(s, b, d, 1).0, b, d, 1)
  {
    WalkOutcomeSoft(s, b, d, k);
    RayOnRay(s, ClearSoft(PrefixBurnt(s, b, d, k), Step(b.tile, BlastOrder[d], k + 1)), b, d, k);
  }

  /** The result of a walk over `k` clear steps that stops without a chain
      stays on the ray. */
  lemma RayOnRay(s: Game, r: Game, b: Bomb, d: nat, k: nat)
    requires WellFormed(s.grid) && WellFormed(r.grid) && d < 4 && k <= b.range
    requires var burnt := PrefixBurnt(s, b, d, k);
      var t := Step(b.tile, BlastOrder[d], k + 1);
      r == burnt || (k < b.range && InBounds(t) && CellAt(s.grid, t) == Soft && r == ClearSoft(burnt, t))
    ensures StaysOnRay(s, r, b, d, 1)
  {
    var t := Step(b.tile, BlastOrder[d], k + 1);
    RayFlamesAt(b, d, 1, k);
    assert r.flames == s.flames + RayFlames(b, d, 1, k);
    forall j | |s.flames| <= j < |r.flames|
      ensures OnRay(b, d, 1, r.flames[j].tile)
    {
      assert r.flames[j] == RayFlames(b, d, 1, k)[j - |s.flames|];
    }
    if k < b.range {
      assert OnRay(b, d, 1, t);
    }
  }

  /** The number of open, bomb-free tiles on ray `d` of bomb `b` from step
      `i` on, before the range ends or something stops the walk. */
  function ClearRun(g: Grid, bombs: seq<Bomb>, b: Bomb, d: nat, i: int): (k: nat)
    requires WellFormed(g) && d < 4 && i >= 1
    decreases if b.range - i + 1 > 0 then b.range - i + 1 else 0
    ensures ClearRay(g, bombs, b, d, i, k)
    ensures i + k <= b.range + 1 || k == 0
    ensures StopsAt(g, bombs, b, d, i + k)
  {
    if StopsAt(g, bombs, b, d, i) then
      assert i + 0 == i;
      0
    else
      var k := ClearRun(g, bombs, b, d, i + 1);
      assert ClearRay(g, bombs, b, d, i, k + 1) by {
        assert k + 1 - 1 == k;
      }
      assert i + (k + 1) == i + 1 + k;
      k + 1
  }

  /** The walk of bomb `b` along ray `d` does not go on past step `j`: the
      range ends, or the tile is blocked or holds a bomb. */
  predicate StopsAt(g: Grid, bombs: seq<Bomb>, b: Bomb, d: nat, j: int)
    requires WellFormed(g) && d < 4
  {
    var t := Step(b.tile, BlastOrder[d], j);
    j > b.range || IsBlocked(g, t) || FindBomb(bombs, t).Some?
  }

  /** The `j`-th flame of `RayFlames(b, d, i, k)` is on step `i + j`. */
  lemma {:induction false} RayFlamesAt(b: Bomb, d: nat, i: int, k: nat)
    requires d < 4
    decreases k
    ensures forall j :: 0 <= j < k ==> RayFlames(b, d, i, k)[j] == Flame(Step(b.tile, BlastOrder[d], i + j), FlameMs)
  {
    if k > 0 {
      RayFlamesAt(b, d, i + 1, k - 1);
    }
  }

  /** Every cell `r` changed and every power-up dropped on the way from `s`
      lies within reach of some bomb of `det`. */
  ghost predicate ChangesReached(s: Game, r: Game, det: seq<Bomb>)
    requires WellFormed(s.grid) && WellFormed(r.grid)
  {
    && (forall t :: InBounds(t) && CellAt(r.grid, t) != CellAt(s.grid, t) ==> TileReached(t, det))
    && (forall k :: |s.powerups| <= k < |r.powerups| ==> TileReached(r.powerups[k].tile, det))
  }

  lemma ChangesReachedTrans(a: Game, b: Game, c: Game, d1: seq<Bomb>, d2: seq<Bomb>, d: seq<Bomb>)
    requires WellFormed(a.grid) && WellFormed(b.grid) && WellFormed(c.grid)
    requires |a.powerups| <= |b.powerups| <= |c.powerups| && c.powerups[..|b.powerups|] == b.powerups
    requires ChangesReached(a, b, d1) && ChangesReached(b, c, d2)
    requires forall x :: x in d1 ==> x in d
    requires forall x :: x in d2 ==> x in d
    ensures ChangesReached(a, c, d)
  {
    forall t | InBounds(t) && CellAt(c.grid, t) != CellAt(a.grid, t)
      ensures TileReached(t, d)
    {
      if CellAt(b.grid, t) != CellAt(a.grid, t) {
        var db :| db in d1 && InReach(db, t);
      } else {
        var db :| db in d2 && InReach(db, t);
      }
    }
    forall k | |a.powerups| <= k < |c.powerups|
      ensures TileReached(c.powerups[k].tile, d)
    {
      if k < |b.powerups| {
        assert c.powerups[k] == b.powerups[k];
        var db :| db in d1 && InReach(db, b.powerups[k].tile);
      } else {
        var db :| db in d2 && InReach(db, c.powerups[k].tile);
      }
    }
  }

  /** An explosion changes cells and drops power-ups only within reach of
      the bombs it detonated. */
  lemma ExplodeReach(s: Game, idx: nat)
    requires WellFormed(s.grid) && idx < |s.bombs|
    decreases |s.bombs|, 0, 0
    ensures ChangesReached(s, Explode(s, idx).0, Explode(s, idx).1)
  {
    var b := s.bombs[idx];
    var s1 := Detonate(s, idx);
    BlastReach(s1, b, 0);
  }

  /** The blast's remaining directions change cells and drop power-ups only
      within reach of the bomb or the bombs it chained into. */
  lemma BlastReach(s: Game, b: Bomb, d: nat)
    requires WellFormed(s.grid) && d <= 4
    decreases |s.bombs|, 2, 4 - d
    ensures ChangesReached(s, Blast(s, b, d).0, [b] + Blast(s, b, d).1)
  {
    if d < 4 {
      var w := Walk(s, b, d, 1);
      WalkReach(s, b, d, 1);
      assert |w.0.bombs| <= |s.bombs| by {
        assert |multiset(w.0.bombs)| + |multiset(w.1)| == |multiset(s.bombs)|;
      }
      var rest := Blast(w.0, b, d + 1);
      BlastReach(w.0, b, d + 1);
      ChangesReachedTrans(s, w.0, rest.0, [b] + w.1, [b] + rest.1, [b] + (w.1 + rest.1));
    }
  }

  /** One walk changes cells and drops power-ups only within reach of the
      bomb or the bombs it chained into. */
  lemma WalkReach(s: Game, b: Bomb, d: nat, i: int)
    requires WellFormed(s.grid) && d < 4 && i >= 1
    decreases |s.bombs|, 1, if b.range - i + 1 > 0 then b.range - i + 1 else 0
    ensures ChangesReached(s, Walk(s, b, d, i).0, [b] + Walk(s, b, d, i).1)
  {
    if i <= b.range {
      var t := Step(b.tile, BlastOrder[d], i);
      StepInReach(b, d, i);
      assert b in [b] + Walk(s, b, d, i).1;
      if !IsBlocked(s.grid, t) {
        var s2 := Burn(s, b, t);
        match FindBomb(s.bombs, t)
        case None =>
          WalkReach(s2, b, d, i + 1);
        case Some(h) =>
          ChainReach(s, b, t, h);
      }
    }
  }

  /** Burning tile `t` and exploding the bomb found there changes cells and
      drops power-ups only within reach of `b` or the chained bombs. */
  lemma ChainReach(s: Game, b: Bomb, t: Tile, h: nat)
    requires WellFormed(s.grid) && InReach(b, t) && h < |s.bombs|
    decreases |s.bombs|, 1, 0
    ensures ChangesReached(s, Explode(Burn(s, b, t), h).0, [b] + Explode(Burn(s, b, t), h).1)
  {
    var s2 := Burn(s, b, t);
    ExplodeReach(s2, h);
    var e := Explode(s2, h);
    forall u | InBounds(u) && CellAt(e.0.grid, u) != CellAt(s.grid, u)
      ensures TileReached(u, [b] + e.1)
    {
      var db :| db in e.1 && InReach(db, u);
      assert db in [b] + e.1;
    }
    forall k | |s.powerups| <= k < |e.0.powerups|
      ensures TileReached(e.0.powerups[k].tile, [b] + e.1)
    {
      var db :| db in e.1 && InReach(db, e.0.powerups[k].tile);
      assert db in [b] + e.1;
    }
  }

  /** Every bomb of `det` lies within reach of `root` or of a bomb before
      it in `det`, on another tile than its own: each was set off by a blast
      that came before it. */
  ghost predicate Chained(root: Bomb, det: seq<Bomb>)
  {
    forall j :: 0 <= j < |det| ==>
      exists c :: c in [root] + det[..j] && c.tile != det[j].tile && InReach(c, det[j].tile)
  }

  /** A bomb of a chain was reached by the root or by some bomb of the chain
      on another tile. */
  lemma ChainedAt(root: Bomb, det: seq<Bomb>, j: nat)
    requires Chained(root, det) && j < |det|
    ensures exists c :: c in [root] + det && c.tile != det[j].tile && InReach(c, det[j].tile)
  {
    var c :| c in [root] + det[..j] && c.tile != det[j].tile && InReach(c, det[j].tile);
    if c != root {
      assert c in det;
    }
  }

  lemma ChainedConcat(root: Bomb, a: seq<Bomb>, c: seq<Bomb>)
    requires Chained(root, a) && Chained(root, c)
    ensures Chained(root, a + c)
  {
    forall j | 0 <= j < |a + c|
      ensures exists x :: x in [root] + (a + c)[..j] && x.tile != (a + c)[j].tile && InReach(x, (a + c)[j].tile)
    {
      if j < |a| {
        assert (a + c)[..j] == a[..j] && (a + c)[j] == a[j];
      } else {
        var k := j - |a|;
        assert (a + c)[j] == c[k];
        var x :| x in [root] + c[..k] && x.tile != c[k].tile && InReach(x, c[k].tile);
        assert (a + c)[..j] == a + c[..k];
        assert x in [root] + (a + c)[..j];
      }
    }
  }

  /** A chain set off by `root` reaching the first bomb of `det`. */
  lemma ChainedLift(root: Bomb, det: seq<Bomb>)
    requires |det| >= 1 && Chained(det[0], det[1..])
    requires det[0].tile != root.tile && InReach(root, det[0].tile)
    ensures Chained(root, det)
  {
    forall j | 0 <= j < |det|
      ensures exists x :: x in [root] + det[..j] && x.tile != det[j].tile && InReach(x, det[j].tile)
    {
      if j == 0 {
        assert root in [root] + det[..0];
      } else {
        assert det[1..][j - 1] == det[j];
        var x :| x in [det[0]] + det[1..][..j - 1] && x.tile != det[j].tile && InReach(x, det[j].tile);
        assert [det[0]] + det[1..][..j - 1] == det[..j];
        assert x in [root] + det[..j];
      }
    }
  }

  /** Every bomb an explosion sets off after the first was reached by the
      blast of a bomb detonated before it, standing on another tile. */
  lemma ExplodeChain(s: Game, idx: nat)
    requires WellFormed(s.grid) && idx < |s.bombs|
    decreases |s.bombs|, 0, 0
    ensures Chained(Explode(s, idx).1[0], Explode(s, idx).1[1..])
  {
    var b := s.bombs[idx];
    var s1 := Detonate(s, idx);
    BlastChain(s1, b, 0);
    assert Explode(s, idx).1 == [b] + Blast(s1, b, 0).1;
  }

  lemma BlastChain(s: Game, b: Bomb, d: nat)
    requires WellFormed(s.grid) && d <= 4
    decreases |s.bombs|, 2, 4 - d
    ensures Chained(b, Blast(s, b, d).1)
  {
    if d < 4 {
      var w := Walk(s, b, d, 1);
      WalkChain(s, b, d, 1);
      assert |w.0.bombs| <= |s.bombs| by {
        assert |multiset(w.0.bombs)| + |multiset(w.1)| == |multiset(s.bombs)|;
      }
      BlastChain(w.0, b, d + 1);
      ChainedConcat(b, w.1, Blast(w.0, b, d + 1).1);
    }
  }

  lemma WalkChain(s: Game, b: Bomb, d: nat, i: int)
    requires WellFormed(s.grid) && d < 4 && i >= 1
    decreases |s.bombs|, 1, if b.range - i + 1 > 0 then b.range - i + 1 else 0
    ensures Chained(b, Walk(s, b, d, i).1)
  {
    if i <= b.range {
      var t := Step(b.tile, BlastOrder[d], i);
      StepInReach(b, d, i);
      if !IsBlocked(s.grid, t) {
        var s2 := Burn(s, b, t);
        match FindBomb(s.bombs, t)
        case None =>
          WalkChain(s2, b, d, i + 1);
        case Some(h) =>
          assert Manhattan(b.tile, t) == i;
          ChainChain(s, b, t, h);
      }
    }
  }

  /** The bomb a walk finds on tile `t` was set off by `b` itself. */
  lemma ChainChain(s: Game, b: Bomb, t: Tile, h: nat)
    requires WellFormed(s.grid) && InReach(b, t) && t != b.tile
    requires h < |s.bombs| && s.bombs[h].tile == t
    decreases |s.bombs|, 1, 0
    ensures Chained(b, Explode(Burn(s, b, t), h).1)
  {
    var s2 := Burn(s, b, t);
    ExplodeChain(s2, h);
    ChainedLift(b, Explode(s2, h).1);
  }

  /** The tiles of the detonated bombs and of the bombs left are disjoint. */
  lemma ExplodeSplitsTiles(s: Game, r: Game, det: seq<Bomb>)
    requires Evolves(s, r, det) && DistinctTiles(s.bombs)
    ensures forall c :: c in det ==> c.tile !in TileSet(r.bombs)
  {
    ExplodesAtMostOnce(s, r, det);
    forall c, x | c in det && x in r.bombs
      ensures x.tile != c.tile
    {
      assert c in multiset(det);
      assert c in s.bombs by {
        assert c in multiset(s.bombs);
      }
      DistinctMembers(s.bombs, x, c);
    }
  }

  /** The flames of steps `i .. i + k - 1` of ray `d` of bomb `b`, in order. */
  function RayFlames(b: Bomb, d: nat, i: int, k: nat): (r: seq<Flame>)
    requires d < 4
    decreases k
    ensures |r| == k
  {
    if k == 0 then [] else [Flame(Step(b.tile, BlastOrder[d], i), FlameMs)] + RayFlames(b, d, i + 1, k - 1)
  }

  /** Steps `i .. i + k - 1` of ray `d` of bomb `b` are open tiles of grid
      `g` with no bomb of `bombs` on them. */
  ghost predicate ClearRay(g: Grid, bombs: seq<Bomb>, b: Bomb, d: nat, i: int, k: nat)
    requires WellFormed(g) && d < 4
    decreases k
  {
    k == 0 ||
      (&& !IsBlocked(g, Step(b.tile, BlastOrder[d], i))
       && FindBomb(bombs, Step(b.tile, BlastOrder[d], i)).None?
       && ClearRay(g, bombs, b, d, i + 1, k - 1))
  }

  /** Walking over the `k` open, bomb-free tiles from step `i` on, all
      within the range, burns exactly those tiles in order and changes
      nothing else: the walk then goes on from step `e == i + k` in the
      state `burnt`, which is `s` with their flames appended. */
  lemma {:induction false} WalkThroughClearRay(s: Game, b: Bomb, d: nat, i: int, k: nat, burnt: Game, e: int)
    requires Through(s, b, d, i, k, burnt, e)
    decreases k, 1
    ensures Walk(s, b, d, i) == Walk(burnt, b, d, e)
  {
    if k == 0 {
      WalkThroughNone(s, b, d, i, burnt, e);
    } else {
      WalkThroughFirst(s, b, d, i, k, burnt, e);
    }
  }

  /** The setting of `WalkThroughClearRay`: steps `i .. e - 1` of the ray
      are clear and within the range, and `burnt` is `s` with their flames
      appended. */
  ghost predicate Through(s: Game, b: Bomb, d: nat, i: int, k: nat, burnt: Game, e: int)
  {
    && WellFormed(s.grid) && d < 4 && i >= 1 && e == i + k && e <= b.range + 1
    && ClearRay(s.grid, s.bombs, b, d, i, k)
    && burnt == s.(flames := s.flames + RayFlames(b, d, i, k))
  }

  /** `WalkThroughClearRay` over no tile at all. */
  lemma WalkThroughNone(s: Game, b: Bomb, d: nat, i: int, burnt: Game, e: int)
    requires Through(s, b, d, i, 0, burnt, e)
    ensures Walk(s, b, d, i) == Walk(burnt, b, d, e)
  {
    assert s.flames + [] == s.flames;
    assert burnt == s;
  }

  /** `WalkThroughClearRay` over at least one tile: burn step `i`, then
      walk through the rest. */
  lemma {:induction false} WalkThroughFirst(s: Game, b: Bomb, d: nat, i: int, k: nat, burnt: Game, e: int)
    requires Through(s, b, d, i, k, burnt, e) && k >= 1
    decreases k, 0
    ensures Walk(s, b, d, i) == Walk(burnt, b, d, e)
  {
    var s2 := ClearRayStep(s, b, d, i, k, burnt, e);
    WalkThroughClearRay(s2, b, d, i + 1, k - 1, burnt, e);
  }

  /** Burning step `i` of a clear ray leaves the rest of it clear. */
  lemma ClearRayStep(s: Game, b: Bomb, d: nat, i: int, k: nat, burnt: Game, e: int) returns (s2: Game)
    requires Through(s, b, d, i, k, burnt, e) && k >= 1
    ensures Through(s2, b, d, i + 1, k - 1, burnt, e)
    ensures Walk(s, b, d, i) == Walk(s2, b, d, i + 1)
  {
    var t := Step(b.tile, BlastOrder[d], i);
    assert !IsBlocked(s.grid, t) && FindBomb(s.bombs, t).None? && i <= b.range;
    WalkBurnsOpen(s, b, d, i);
    s2 := ClearRayBurn(s, b, d, i, k, burnt, e);
  }

  /** The state after burning step `i` of a clear ray. */
  lemma ClearRayBurn(s: Game, b: Bomb, d: nat, i: int, k: nat, burnt: Game, e: int) returns (s2: Game)
    requires Through(s, b, d, i, k, burnt, e) && k >= 1
    ensures i <= b.range && InReach(b, Step(b.tile, BlastOrder[d], i))
    ensures s2 == Burn(s, b, Step(b.tile, BlastOrder[d], i))
    ensures Through(s2, b, d, i + 1, k - 1, burnt, e)
  {
    StepInReach(b, d, i);
    s2 := Burn(s, b, Step(b.tile, BlastOrder[d], i));
    assert s2.flames + RayFlames(b, d, i + 1, k - 1) == burnt.flames;
  }

  /** How one direction of a blast ends. With the first `k` tiles of the
      ray open and bomb-free, the walk burns exactly those `k` tiles and
      then: stops at the range; or clears the soft block on tile `k + 1`;
      or stops at a wall or the edge there; or burns tile `k + 1` and
      explodes the bomb on it. */
  lemma WalkOutcome(s: Game, b: Bomb, d: nat, k: nat)
    requires ClearPrefix(s, b, d, k)
    ensures RayOutcome(s, b, d, k)
  {
    var t := Step(b.tile, BlastOrder[d], k + 1);
    if k == b.range {
      WalkOutcomeRange(s, b, d, k);
    } else if InBounds(t) && CellAt(s.grid, t) == Soft {
      WalkOutcomeSoft(s, b, d, k);
    } else if IsBlocked(s.grid, t) {
      WalkOutcomeWall(s, b, d, k);
    } else if FindBomb(s.bombs, t).Some? {
      WalkOutcomeBomb(s, b, d, k);
    }
  }

  /** The first `k` steps of ray `d` of bomb `b` are open and bomb-free,
      and lie within the range. */
  ghost predicate ClearPrefix(s: Game, b: Bomb, d: nat, k: nat)
  {
    WellFormed(s.grid) && d < 4 && k <= b.range && ClearRay(s.grid, s.bombs, b, d, 1, k)
  }

  /** `s` with the flames of the first `k` steps of ray `d` appended. */
  function PrefixBurnt(s: Game, b: Bomb, d: nat, k: nat): Game
    requires d < 4
  {
    s.(flames := s.flames + RayFlames(b, d, 1, k))
  }

  /** The walk along a clear prefix of `k` steps appends exactly their `k`
      flames, in order, and then: stops at the range; or clears the soft
      block on step `k + 1`; or stops at the wall or the edge there; or
      burns step `k + 1` and explodes the first bomb on it. */
  ghost predicate RayOutcome(s: Game, b: Bomb, d: nat, k: nat)
    requires ClearPrefix(s, b, d, k)
  {
    var burnt := PrefixBurnt(s, b, d, k);
    var t := Step(b.tile, BlastOrder[d], k + 1);
    && (k == b.range ==> Walk(s, b, d, 1) == (burnt, []))
    && (k < b.range && InBounds(t) && CellAt(s.grid, t) == Soft ==>
          Walk(s, b, d, 1) == (ClearSoft(burnt, t), []))
    && (k < b.range && IsBlocked(s.grid, t) && !(InBounds(t) && CellAt(s.grid, t) == Soft) ==>
          Walk(s, b, d, 1) == (burnt, []))
    && (k < b.range && !IsBlocked(s.grid, t) && FindBomb(s.bombs, t).Some? ==>
          InReach(b, t) && Walk(s, b, d, 1) == Explode(Burn(burnt, b, t), FindBomb(s.bombs, t).value))
  }

  /** The walk over a clear prefix of `k` steps burns exactly those steps
      and carries on from step `k + 1`. */
  lemma WalkOverPrefix(s: Game, b: Bomb, d: nat, k: nat)
    requires ClearPrefix(s, b, d, k)
    ensures PrefixBurnt(s, b, d, k).grid == s.grid && PrefixBurnt(s, b, d, k).bombs == s.bombs
    ensures Walk(s, b, d, 1) == Walk(PrefixBurnt(s, b, d, k), b, d, k + 1)
  {
    PrefixThrough(s, b, d, k);
    WalkThroughClearRay(s, b, d, 1, k, PrefixBurnt(s, b, d, k), k + 1);
  }

  /** A clear prefix and its flames meet the invariant of `WalkThroughClearRay`. */
  lemma PrefixThrough(s: Game, b: Bomb, d: nat, k: nat)
    requires ClearPrefix(s, b, d, k)
    ensures PrefixBurnt(s, b, d, k).grid == s.grid && PrefixBurnt(s, b, d, k).bombs == s.bombs
    ensures Through(s, b, d, 1, k, PrefixBurnt(s, b, d, k), k + 1)
  {
  }

  // How the walk ends after a clear prefix, one lemma per case.

  lemma WalkOutcomeRange(s: Game, b: Bomb, d: nat, k: nat)
    requires ClearPrefix(s, b, d, k) && k == b.range
    ensures Walk(s, b, d, 1) == (PrefixBurnt(s, b, d, k), [])
  {
    WalkOverPrefix(s, b, d, k);
    WalkPastRange(PrefixBurnt(s, b, d, k), b, d, k + 1);
  }

  lemma WalkOutcomeSoft(s: Game, b: Bomb, d: nat, k: nat)
    requires ClearPrefix(s, b, d, k) && k < b.range
    requires var t := Step(b.tile, BlastOrder[d], k + 1); InBounds(t) && CellAt(s.grid, t) == Soft
    ensures Walk(s, b, d, 1) == (ClearSoft(PrefixBurnt(s, b, d, k), Step(b.tile, BlastOrder[d], k + 1)), [])
  {
    WalkOverPrefix(s, b, d, k);
    WalkAtSoft(PrefixBurnt(s, b, d, k), b, d, k + 1);
  }

  lemma WalkOutcomeWall(s: Game, b: Bomb, d: nat, k: nat)
    requires ClearPrefix(s, b, d, k) && k < b.range
    requires var t := Step(b.tile, BlastOrder[d], k + 1);
      IsBlocked(s.grid, t) && !(InBounds(t) && CellAt(s.grid, t) == Soft)
    ensures Walk(s, b, d, 1) == (PrefixBurnt(s, b, d, k), [])
  {
    WalkOverPrefix(s, b, d, k);
    WalkAtWall(PrefixBurnt(s, b, d, k), b, d, k + 1);
  }

  lemma WalkOutcomeBomb(s: Game, b: Bomb, d: nat, k: nat)
    requires ClearPrefix(s, b, d, k) && k < b.range
    requires var t := Step(b.tile, BlastOrder[d], k + 1);
      !IsBlocked(s.grid, t) && FindBomb(s.bombs, t).Some?
    ensures InReach(b, Step(b.tile, BlastOrder[d], k + 1))
    ensures var t := Step(b.tile, BlastOrder[d], k + 1);
      Walk(s, b, d, 1) == Explode(Burn(PrefixBurnt(s, b, d, k), b, t), FindBomb(s.bombs, t).value)
  {
    WalkOverPrefix(s, b, d, k);
    WalkAtBomb(PrefixBurnt(s, b, d, k), b, d, k + 1);
  }

  // One unfolding of `Walk`, one lemma per way a step can go.

  lemma WalkPastRange(s: Game, b: Bomb, d: nat, j: int)
    requires WellFormed(s.grid) && d < 4 && j >= 1 && j > b.range
    ensures Walk(s, b, d, j) == (s, [])
  {
  }

  lemma WalkAtSoft(s: Game, b: Bomb, d: nat, j: int)
    requires WellFormed(s.grid) && d < 4 && 1 <= j <= b.range
    requires var t := Step(b.tile, BlastOrder[d], j); InBounds(t) && CellAt(s.grid, t) == Soft
    ensures Walk(s, b, d, j) == (ClearSoft(s, Step(b.tile, BlastOrder[d], j)), [])
  {
  }

  lemma WalkAtWall(s: Game, b: Bomb, d: nat, j: int)
    requires WellFormed(s.grid) && d < 4 && 1 <= j <= b.range
    requires var t := Step(b.tile, BlastOrder[d], j);
      IsBlocked(s.grid, t) && !(InBounds(t) && CellAt(s.grid, t) == Soft)
    ensures Walk(s, b, d, j) == (s, [])
  {
  }

  lemma WalkAtBomb(s: Game, b: Bomb, d: nat, j: int)
    requires WellFormed(s.grid) && d < 4 && 1 <= j <= b.range
    requires var t := Step(b.tile, BlastOrder[d], j);
      !IsBlocked(s.grid, t) && FindBomb(s.bombs, t).Some?
    ensures InReach(b, Step(b.tile, BlastOrder[d], j))
    ensures var t := Step(b.tile, BlastOrder[d], j);
      Walk(s, b, d, j) == Explode(Burn(s, b, t), FindBomb(s.bombs, t).value)
  {
    StepInReach(b, d, j);
  }

  /** Burn tile `t`, which lies within reach of bomb `b`. */
  function Burn(s: Game, b: Bomb, t: Tile): (r: Game)
    requires WellFormed(s.grid) && InReach(b, t)
    ensures Evolves(s, r, [])
    ensures r == s.(flames := SpawnFlame(s.flames, t))
    ensures ReachedBy(r.flames[|s.flames|..], [b])
  {
    var r := s.(flames := SpawnFlame(s.flames, t));
    assert r.flames[|s.flames|..] == [Flame(t, FlameMs)];
    assert b in [b] && InReach(b, t);
    assert Reached(Flame(t, FlameMs), [b]);
    EvolvesRefl(s);
    r
  }

  /** A burn followed by a walk or a chained explosion. */
  lemma BurnThen(s: Game, s2: Game, r: Game, b: Bomb, det: seq<Bomb>, reach: seq<Bomb>)
    requires Evolves(s, s2, []) && ReachedBy(s2.flames[|s.flames|..], [b])
    requires Evolves(s2, r, det) && ReachedBy(r.flames[|s2.flames|..], reach)
    requires forall x :: x in reach ==> x == b || x in det
    ensures Evolves(s, r, det)
    ensures ReachedBy(r.flames[|s.flames|..], [b] + det)
  {
    EvolvesTrans(s, s2, r, [], det);
    assert [] + det == det;
    ReachedConcat(s.flames, s2.flames, r.flames, [b], reach, [b] + det);
  }

  /** A state that differs from `s` only in its bomb list is `Around` it. */
  lemma AroundBombsOnly(s: Game, bs: seq<Bomb>)
    requires WellFormed(s.grid)
    ensures Around(s, s.(bombs := bs), [])
  {
    EvolvesRefl(s);
  }

  /** Each bomb explodes at most once: the detonated bombs have distinct
      tiles, none of them is left in the list, and the list keeps its
      distinct tiles. */
  lemma ExplodesAtMostOnce(s: Game, r: Game, det: seq<Bomb>)
    requires Evolves(s, r, det) && DistinctTiles(s.bombs)
    ensures DistinctTiles(det) && DistinctTiles(r.bombs)
    ensures forall x :: x in det ==> x !in r.bombs
    ensures forall x :: x in r.bombs ==> x in s.bombs
  {
    assert multiset(det) <= multiset(s.bombs);
    assert multiset(r.bombs) <= multiset(s.bombs);
    SubDistinct(det, s.bombs);
    SubDistinct(r.bombs, s.bombs);
    forall x | x in det
      ensures x !in r.bombs
    {
      DistinctOnce(s.bombs, x);
      assert multiset(det)[x] >= 1;
    }
    forall x | x in r.bombs
      ensures x in s.bombs
    {
      assert x in multiset(r.bombs);
    }
  }

  /** An explosion keeps a valid state valid. */
  lemma EvolvesKeepsValid(s: Game, r: Game, det: seq<Bomb>)
    requires Valid(s) && Evolves(s, r, det)
    ensures Valid(r)
  {
    ExplodesAtMostOnce(s, r, det);
  }

  /** `explodeBomb(index)` removes exactly the bomb at `index` (and the bombs
      it chains into), refunds `min(capacity, stock + 1)` per detonation and
      keeps the state valid. */
  lemma ExplodeRemovesIt(s: Game, idx: nat)
    requires Valid(s) && idx < |s.bombs|
    ensures var r := Explode(s, idx);
      && Valid(r.0)
      && s.bombs[idx] !in r.0.bombs
      && (forall x :: x in r.0.bombs ==> x in s.bombs && x.tile != s.bombs[idx].tile)
      && r.0.player.stock == Min(s.player.capacity, s.player.stock + |r.1|)
  {
    var r := Explode(s, idx);
    ExplodesAtMostOnce(s, r.0, r.1);
    EvolvesKeepsValid(s, r.0, r.1);
    assert s.bombs[idx] in r.1;
  }

  lemma StockAfterBounds(p: Player, k: nat)
    requires 0 <= p.stock <= p.capacity
    ensures 0 <= StockAfter(p, k) <= p.capacity
  {
  }

  /** Flames are only ever appended, so a tile that had a flame keeps one. */
  lemma FlamesGrow(a: seq<Flame>, b: seq<Flame>)
    requires |a| <= |b| && b[..|a|] == a
    ensures forall p :: FlameAt(a, p) ==> FlameAt(b, p)
  {
    forall p | FlameAt(a, p)
      ensures FlameAt(b, p)
    {
      var i :| 0 <= i < |a| && a[i].tile == p;
      assert b[i] == a[i];
    }
  }

  /** No bomb of `bs` lies within reach of bomb `b`. */
  ghost predicate NoneInReach(b: Bomb, bs: seq<Bomb>)
  {
    forall x :: x in bs ==> !InReach(b, x.tile)
  }

  /** Steps `1 .. k` of ray `d` of bomb `b` are open tiles of `g`. */
  ghost predicate OpenSteps(g: Grid, b: Bomb, d: nat, k: nat)
    requires WellFormed(g) && d < 4
  {
    forall j :: 1 <= j <= k ==> !IsBlocked(g, Step(b.tile, BlastOrder[d], j))
  }

  /** The four rays of a bomb share no tile. */
  lemma RaysApart(b: Bomb, d1: nat, d2: nat, i: int, j: int)
    requires d1 < 4 && d2 < 4 && d1 != d2 && i >= 1 && j >= 1
    ensures Step(b.tile, BlastOrder[d1], i) != Step(b.tile, BlastOrder[d2], j)
  {
  }

  /** A step of ray `d` is on no other ray. */
  lemma OffRay(b: Bomb, d0: nat, d: nat, j: int)
    requires d0 < 4 && d < 4 && d0 != d && j >= 1
    ensures !OnRay(b, d0, 1, Step(b.tile, BlastOrder[d], j))
  {
    forall m | 1 <= m <= b.range
      ensures Step(b.tile, BlastOrder[d0], m) != Step(b.tile, BlastOrder[d], j)
    {
      RaysApart(b, d0, d, m, j);
    }
  }

  /** With no bomb in reach, no step of a ray within the range holds a bomb. */
  lemma LoneRayFree(s: Game, b: Bomb, d: nat)
    requires d < 4 && NoneInReach(b, s.bombs)
    ensures forall j :: 1 <= j <= b.range ==> FindBomb(s.bombs, Step(b.tile, BlastOrder[d], j)).None?
  {
    forall j | 1 <= j <= b.range
      ensures FindBomb(s.bombs, Step(b.tile, BlastOrder[d], j)).None?
    {
      StepInReach(b, d, j);
      forall m | 0 <= m < |s.bombs|
        ensures s.bombs[m].tile != Step(b.tile, BlastOrder[d], j)
      {
        assert s.bombs[m] in s.bombs;
      }
    }
  }

  /** Every step of a clear ray is open. */
  lemma {:induction false} ClearRayOpen(g: Grid, bombs: seq<Bomb>, b: Bomb, d: nat, i: int, k: nat)
    requires WellFormed(g) && d < 4 && ClearRay(g, bombs, b, d, i, k)
    decreases k
    ensures forall j :: i <= j < i + k ==> !IsBlocked(g, Step(b.tile, BlastOrder[d], j))
  {
    if k > 0 {
      ClearRayOpen(g, bombs, b, d, i + 1, k - 1);
    }
  }

  /** A walk with no bomb in reach sets off nothing, leaves the bombs as
      they are and changes only its own ray. */
  lemma WalkLone(s: Game, b: Bomb, d: nat)
    requires WellFormed(s.grid) && d < 4 && NoneInReach(b, s.bombs)
    ensures var w := Walk(s, b, d, 1);
      && w.1 == [] && w.0.bombs == s.bombs
      && WellFormed(w.0.grid) && StaysOnRay(s, w.0, b, d, 1)
  {
    if b.range < 1 {
      WalkPastRange(s, b, d, 1);
    } else {
      var k := RayPrefix(s, b, d);
      LoneRayFree(s, b, d);
      WalkOutcome(s, b, d, k);
      WalkStaysOnRay(s, b, d);
    }
  }

  /** With no bomb in reach, the longest clear prefix of a ray covers
      every open run of `k` steps within the range, and stops right before
      a soft block that follows such a run. */
  lemma LonePrefix(s: Game, b: Bomb, d: nat, k: nat) returns (m: nat)
    requires WellFormed(s.grid) && d < 4 && NoneInReach(b, s.bombs) && b.range >= 1
    requires k <= b.range && OpenSteps(s.grid, b, d, k)
    ensures ClearPrefix(s, b, d, m) && k <= m
    ensures m < b.range ==> IsBlocked(s.grid, Step(b.tile, BlastOrder[d], m + 1))
    ensures var t := Step(b.tile, BlastOrder[d], k + 1);
      k < b.range && IsBlocked(s.grid, t) ==> m == k
  {
    m := RayPrefix(s, b, d);
    LoneRayFree(s, b, d);
    assert m >= k;
    ClearRayOpen(s.grid, s.bombs, b, d, 1, m);
  }

  /** The walk after a clear prefix `m` that no bomb stops appends exactly
      the prefix's flames. */
  lemma LoneWalkFlames(s: Game, b: Bomb, d: nat, m: nat)
    requires ClearPrefix(s, b, d, m)
    requires m < b.range ==> IsBlocked(s.grid, Step(b.tile, BlastOrder[d], m + 1))
    ensures Walk(s, b, d, 1).0.flames == s.flames + RayFlames(b, d, 1, m)
  {
    var t := Step(b.tile, BlastOrder[d], m + 1);
    if m == b.range {
      WalkOutcomeRange(s, b, d, m);
    } else if InBounds(t) && CellAt(s.grid, t) == Soft {
      WalkOutcomeSoft(s, b, d, m);
    } else {
      WalkOutcomeWall(s, b, d, m);
    }
  }

  /** A walk with no bomb in reach burns every step of an open run of `k`
      steps within the range, and clears a soft block right after it. */
  lemma WalkLoneRay(s: Game, b: Bomb, d: nat, k: nat)
    requires WellFormed(s.grid) && d < 4 && NoneInReach(b, s.bombs)
    requires k <= b.range
    ensures WellFormed(Walk(s, b, d, 1).0.grid) && RayDone(s, Walk(s, b, d, 1).0, b, d, k)
  {
    if b.range >= 1 && OpenSteps(s.grid, b, d, k) {
      var m := LonePrefix(s, b, d, k);
      LoneWalkFlames(s, b, d, m);
      RayFlamesAt(b, d, 1, m);
      var fl := Walk(s, b, d, 1).0.flames;
      forall j | 1 <= j <= k
        ensures FlameAt(fl, Step(b.tile, BlastOrder[d], j))
      {
        assert fl[|s.flames| + j - 1].tile == Step(b.tile, BlastOrder[d], j);
      }
      var t := Step(b.tile, BlastOrder[d], k + 1);
      if k < b.range && InBounds(t) && CellAt(s.grid, t) == Soft {
        WalkOutcomeSoft(s, b, d, k);
      }
    }
  }

  /** What direction `d` of a lone bomb's blast promises between `s` and
      `r`: every step of an open run of `k` steps within the range is on
      fire, and a soft block right after the run is cleared. */
  ghost predicate RayDone(s: Game, r: Game, b: Bomb, d: nat, k: nat)
    requires WellFormed(s.grid) && WellFormed(r.grid) && d < 4
  {
    var t := Step(b.tile, BlastOrder[d], k + 1);
    OpenSteps(s.grid, b, d, k) ==>
      && (forall j :: 1 <= j <= k ==> FlameAt(r.flames, Step(b.tile, BlastOrder[d], j)))
      && (k < b.range && InBounds(t) && CellAt(s.grid, t) == Soft ==> CellAt(r.grid, t) == Empty)
  }

  /** What blasting directions `d0` onwards promises about direction `d`:
      done if it is still to come, and its cleared block kept if not. */
  ghost predicate LoneOutcome(s: Game, r: Game, b: Bomb, d0: nat, d: nat, k: nat)
    requires WellFormed(s.grid) && WellFormed(r.grid) && d < 4
  {
    var t := Step(b.tile, BlastOrder[d], k + 1);
    && (d0 <= d ==> RayDone(s, r, b, d, k))
    && (d < d0 && InBounds(t) && CellAt(s.grid, t) == Empty ==> CellAt(r.grid, t) == Empty)
  }

  /** Blasting directions `d0` onwards of a bomb with no bomb in reach sets
      off nothing and keeps `LoneOutcome` for every direction `d`. */
  lemma {:induction false} BlastLone(s: Game, b: Bomb, d0: nat, d: nat, k: nat)
    requires WellFormed(s.grid) && d0 <= 4 && d < 4 && NoneInReach(b, s.bombs) && k <= b.range
    decreases 4 - d0
    ensures Blast(s, b, d0).1 == []
    ensures WellFormed(Blast(s, b, d0).0.grid) && LoneOutcome(s, Blast(s, b, d0).0, b, d0, d, k)
  {
    if d0 < 4 {
      var w := Walk(s, b, d0, 1);
      WalkLone(s, b, d0);
      BlastLone(w.0, b, d0 + 1, d, k);
      var rest := Blast(w.0, b, d0 + 1);
      assert Blast(s, b, d0) == (rest.0, w.1 + rest.1);
      if d0 == d {
        WalkLoneRay(s, b, d, k);
      }
      LoneStep(s, w.0, rest.0, b, d0, d, k);
    }
  }

  /** One direction of a lone bomb's blast, then the rest. */
  lemma LoneStep(s: Game, w: Game, r: Game, b: Bomb, d0: nat, d: nat, k: nat)
    requires WellFormed(s.grid) && WellFormed(w.grid) && WellFormed(r.grid) && d0 < 4 && d < 4
    requires StaysOnRay(s, w, b, d0, 1)
    requires |w.flames| <= |r.flames| && r.flames[..|w.flames|] == w.flames
    requires d0 == d ==> RayDone(s, w, b, d, k)
    requires LoneOutcome(w, r, b, d0 + 1, d, k)
    ensures LoneOutcome(s, r, b, d0, d, k)
  {
    var t := Step(b.tile, BlastOrder[d], k + 1);
    if d0 == d {
      FlamesGrow(w.flames, r.flames);
    } else {
      OtherRayKept(s, w, b, d0, d, k + 1);
      if d0 < d {
        forall j | 1 <= j <= k && InBounds(Step(b.tile, BlastOrder[d], j))
          ensures CellAt(w.grid, Step(b.tile, BlastOrder[d], j)) == CellAt(s.grid, Step(b.tile, BlastOrder[d], j))
        {
          OtherRayKept(s, w, b, d0, d, j);
        }
      }
    }
  }

  /** A walk along ray `d0` leaves the cells of every other ray alone. */
  lemma OtherRayKept(s: Game, w: Game, b: Bomb, d0: nat, d: nat, j: int)
    requires WellFormed(s.grid) && WellFormed(w.grid) && d0 < 4 && d < 4 && d0 != d && j >= 1
    requires StaysOnRay(s, w, b, d0, 1)
    ensures InBounds(Step(b.tile, BlastOrder[d], j)) ==>
              CellAt(w.grid, Step(b.tile, BlastOrder[d], j)) == CellAt(s.grid, Step(b.tile, BlastOrder[d], j))
  {
    OffRay(b, d0, d, j);
  }

  /** `explodeBomb(index)` for a bomb with no other bomb in its reach: it
      sets off only itself; in each direction `d`, every step of an open
      run of `k` steps within its range is on fire afterwards, and a soft
      block right after the run is cleared. */
  lemma ExplodeLone(s: Game, idx: nat, d: nat, k: nat)
    requires WellFormed(s.grid) && idx < |s.bombs| && d < 4
    requires forall j :: 0 <= j < |s.bombs| && j != idx ==> !InReach(s.bombs[idx], s.bombs[j].tile)
    requires k <= s.bombs[idx].range && OpenSteps(s.grid, s.bombs[idx], d, k)
    ensures Explode(s, idx).1 == [s.bombs[idx]]
    ensures forall j :: 1 <= j <= k ==>
              FlameAt(Explode(s, idx).0.flames, Step(s.bombs[idx].tile, BlastOrder[d], j))
    ensures var t := Step(s.bombs[idx].tile, BlastOrder[d], k + 1);
      k < s.bombs[idx].range && InBounds(t) && CellAt(s.grid, t) == Soft ==>
        CellAt(Explode(s, idx).0.grid, t) == Empty
  {
    var b := s.bombs[idx];
    var s1 := Detonate(s, idx);
    forall x | x in s1.bombs
      ensures !InReach(b, x.tile)
    {
      var j :| 0 <= j < |s1.bombs| && s1.bombs[j] == x;
      if j < idx {
        assert x == s.bombs[j];
      } else {
        assert x == s.bombs[j + 1];
      }
    }
    BlastLone(s1, b, 0, d, k);
    assert Explode(s, idx) == (Blast(s1, b, 0).0, [b] + Blast(s1, b, 0).1);
  }
}

=== FILE: fuse.dfy ===
/** Bomb placement, the per-frame fuse countdown and flame expiry
    (main.js:337-368, 423-431). */
module Fuse {
  import opened Base
  import opened Level
  import opened State
  import opened Explosion

  function MaxReal(a: real, b: real): real
  {
    if a >= b then a else b
  }

  /** No bomb lies on tile `t`. */
  predicate Free(bombs: seq<Bomb>, t: Tile)
  {
    forall b :: b in bombs ==> b.tile != t
  }

  /** `placeBomb()`: only while playing, with a bomb in stock and no bomb
      already on the player's tile; the new bomb goes to the end of the list
      with a full fuse, the standard grace and the player's current range. */
  function PlaceBomb(s: Game): (r: Game)
    ensures !(s.phase == Playing && s.player.stock > 0 && Free(s.bombs, s.player.tile)) ==> r == s
    ensures s.phase == Playing && s.player.stock > 0 && Free(s.bombs, s.player.tile) ==>
              && |r.bombs| == |s.bombs| + 1
              && r.bombs[..|s.bombs|] == s.bombs
              && r.bombs[|s.bombs|].tile == s.player.tile
              && r.bombs[|s.bombs|].range == s.player.flameRange
              && r.bombs[|s.bombs|].owner == PlayerId
              && r.bombs[|s.bombs|].timer == FuseMs
              && r.bombs[|s.bombs|].grace == BombGrace
              && r.player == s.player.(stock := s.player.stock - 1)
              && r == s.(bombs := r.bombs, player := r.player)
    ensures Valid(s) ==> Valid(r)
  {
    if s.phase != Playing || s.player.stock <= 0 then s
    else match FindBomb(s.bombs, s.player.tile)
      case Some(_) => s
      case None =>
        var b := Bomb(s.player.tile, FuseMs, PlayerId, BombGrace, s.player.flameRange);
        s.(bombs := s.bombs + [b], player := s.player.(stock := s.player.stock - 1))
  }

  /** Pressing the bomb key twice without moving places one bomb. */
  lemma PlaceBombTwice(s: Game)
    ensures PlaceBomb(PlaceBomb(s)) == PlaceBomb(s)
  {
    var r := PlaceBomb(s);
    if r != s {
      assert r.bombs[|s.bombs|] in r.bombs;
      assert !Free(r.bombs, r.player.tile);
    }
  }

  /** One frame of a bomb's countdown (main.js:359-363): the fuse burns `dt`
      seconds, or is forced to zero when a flame lies on the bomb's tile,
      and the grace shrinks towards zero. */
  function TickBomb(b: Bomb, dt: real, flames: seq<Flame>): (r: Bomb)
    ensures r.tile == b.tile && r.owner == b.owner && r.range == b.range
    ensures FlameAt(flames, b.tile) ==> r.timer == 0.0
    ensures !FlameAt(flames, b.tile) ==> r.timer == b.timer - dt * 1000.0
    ensures r.grace >= 0.0 && r.grace >= b.grace - dt
    ensures r.grace == 0.0 || r.grace == b.grace - dt
  {
    var timer := b.timer - dt * 1000.0;
    b.(timer := if FlameAt(flames, b.tile) then 0.0 else timer,
       grace := MaxReal(0.0, b.grace - dt))
  }

  /** `b` is `o` after exactly one tick of `dt` seconds with no flame on it. */
  predicate TickedFrom(b: Bomb, o: Bomb, dt: real)
  {
    b == o.(timer := o.timer - dt * 1000.0, grace := MaxReal(0.0, o.grace - dt))
  }

  /** The bomb tiles in list order. */
  function Tiles(bs: seq<Bomb>): (r: seq<Tile>)
    ensures |r| == |bs|
    ensures forall k :: 0 <= k < |bs| ==> r[k] == bs[k].tile
  {
    seq(|bs|, k requires 0 <= k < |bs| => bs[k].tile)
  }

  predicate NoRepeats(ts: seq<Tile>)
  {
    forall i, j :: 0 <= i < j < |ts| ==> ts[i] != ts[j]
  }

  /** What the countdown pass over the tiles `ts` promises about its result
      `r` and the bombs `det` it detonated. */
  ghost predicate Passed(s: Game, ts: seq<Tile>, dt: real, r: Game, det: seq<Bomb>)
  {
    && Around(s, r, det)
    && DistinctTiles(r.bombs)
    && TileSet(s.bombs) == TileSet(r.bombs) + TileSet(det)
    && forall b :: b in r.bombs ==>
         || (b in s.bombs && b.tile !in ts)
         || (b.tile in ts && b.timer > 0.0 && !FlameAt(s.flames, b.tile) && exists o :: o in s.bombs && TickedFrom(b, o, dt))
  }

  /** The countdown pass over the tiles `ts`, last first, looking each bomb
      up by its tile at the moment it is reached: a bomb already taken by
      an earlier chain reaction is skipped; any other is ticked once and
      exploded when its fuse is out. Returns the detonated bombs too. */
  function UpdateFrom(s: Game, ts: seq<Tile>, dt: real): (r: (Game, seq<Bomb>))
    requires WellFormed(s.grid) && DistinctTiles(s.bombs) && NoRepeats(ts)
    decreases |ts|
    ensures Around(s, r.0, r.1)
    ensures DistinctTiles(r.0.bombs)
    ensures TileSet(s.bombs) == TileSet(r.0.bombs) + TileSet(r.1)
    ensures forall b :: b in r.0.bombs ==>
              || (b in s.bombs && b.tile !in ts)
              || (b.tile in ts && b.timer > 0.0 && !FlameAt(s.flames, b.tile) && exists o :: o in s.bombs && TickedFrom(b, o, dt))
  {
    if |ts| == 0 then
      EvolvesRefl(s);
      (s, [])
    else
      var t := ts[|ts| - 1];
      var rest := ts[..|ts| - 1];
      assert ts == rest + [t];
      match FindBomb(s.bombs, t)
      case None =>
        UpdateFrom(s, rest, dt)
      case Some(i) =>
        var b := TickBomb(s.bombs[i], dt, s.flames);
        var s1 := s.(bombs := s.bombs[i := b]);
        assert DistinctTiles(s1.bombs);
        if b.timer <= 0.0 then
          var e := Explode(s1, i);
          ExplodesAtMostOnce(s1, e.0, e.1);
          var u := UpdateFrom(e.0, rest, dt);
          ExplodedBranch(s, s1, e.0, e.1, u.0, u.1, i, b, t, rest, dt);
          (u.0, e.1 + u.1)
        else
          var u := UpdateFrom(s1, rest, dt);
          TickedBranch(s, s1, u.0, u.1, i, b, t, rest, dt);
          u
  }

  /** A pass step whose bomb exploded, from the rest of the pass. */
  lemma ExplodedBranch(s: Game, s1: Game, e: Game, det: seq<Bomb>, u: Game, later: seq<Bomb>,
                       i: nat, b: Bomb, t: Tile, rest: seq<Tile>, dt: real)
    requires WellFormed(s.grid) && DistinctTiles(s.bombs) && i < |s.bombs| && s.bombs[i].tile == t && t !in rest
    requires b == TickBomb(s.bombs[i], dt, s.flames) && s1 == s.(bombs := s.bombs[i := b])
    requires DistinctTiles(s1.bombs)
    requires Evolves(s1, e, det) && |det| >= 1 && det[0] == b
    requires forall x :: x in det ==> x !in e.bombs
    requires forall x :: x in e.bombs ==> x in s1.bombs
    requires Passed(e, rest, dt, u, later)
    ensures Passed(s, rest + [t], dt, u, det + later)
  {
    TileSetUpdate(s.bombs, i, b);
    AroundBombsOnly(s, s1.bombs);
    TileSetSplit(e.bombs, det, s1.bombs);
    AroundTrans(s, s1, e, [], det);
    assert [] + det == det;
    AroundTrans(s, e, u, det, later);
    assert TileSet(det + later) == TileSet(det) + TileSet(later);
    FlamesGrow(s.flames, e.flames);
    ExplodedStep(s, s1, e, det, u, i, b, t, rest, dt);
  }

  /** A pass step whose bomb kept burning, from the rest of the pass. */
  lemma TickedBranch(s: Game, s1: Game, u: Game, later: seq<Bomb>,
                     i: nat, b: Bomb, t: Tile, rest: seq<Tile>, dt: real)
    requires WellFormed(s.grid) && DistinctTiles(s.bombs) && i < |s.bombs| && s.bombs[i].tile == t && t !in rest
    requires b == TickBomb(s.bombs[i], dt, s.flames) && b.timer > 0.0 && s1 == s.(bombs := s.bombs[i := b])
    requires Passed(s1, rest, dt, u, later)
    ensures Passed(s, rest + [t], dt, u, later)
  {
    TileSetUpdate(s.bombs, i, b);
    AroundBombsOnly(s, s1.bombs);
    AroundTrans(s, s1, u, [], later);
    assert [] + later == later;
    TickedStep(s, s1, u, i, b, t, rest, dt);
  }

  /** The survivor clause of `UpdateFrom` across a tick that did not explode. */
  lemma TickedStep(s: Game, s1: Game, u: Game, i: nat, b: Bomb, t: Tile, rest: seq<Tile>, dt: real)
    requires DistinctTiles(s.bombs) && i < |s.bombs| && s.bombs[i].tile == t && t !in rest
    requires b == TickBomb(s.bombs[i], dt, s.flames) && b.timer > 0.0
    requires s1 == s.(bombs := s.bombs[i := b])
    requires forall x :: x in u.bombs ==>
               || (x in s1.bombs && x.tile !in rest)
               || (x.tile in rest && x.timer > 0.0 && !FlameAt(s1.flames, x.tile) && exists o :: o in s1.bombs && TickedFrom(x, o, dt))
    ensures forall x :: x in u.bombs ==>
              || (x in s.bombs && x.tile !in rest + [t])
              || (x.tile in rest + [t] && x.timer > 0.0 && !FlameAt(s.flames, x.tile) && exists o :: o in s.bombs && TickedFrom(x, o, dt))
  {
    assert !FlameAt(s.flames, t);
    assert TickedFrom(b, s.bombs[i], dt);
    forall x | x in u.bombs
      ensures || (x in s.bombs && x.tile !in rest + [t])
              || (x.tile in rest + [t] && x.timer > 0.0 && !FlameAt(s.flames, x.tile) && exists o :: o in s.bombs && TickedFrom(x, o, dt))
    {
      if x in s1.bombs && x.tile !in rest {
        var k :| 0 <= k < |s1.bombs| && s1.bombs[k] == x;
        if k == i {
          assert x == b;
          assert s.bombs[i] in s.bombs;
        } else {
          assert x == s.bombs[k];
          assert x.tile != t;
        }
      } else {
        var o :| o in s1.bombs && TickedFrom(x, o, dt);
        var k :| 0 <= k < |s1.bombs| && s1.bombs[k] == o;
        assert k != i;
        assert o == s.bombs[k];
      }
    }
  }

  /** The survivor clause of `UpdateFrom` across a tick that exploded. */
  lemma ExplodedStep(s: Game, s1: Game, e: Game, det: seq<Bomb>, u: Game, i: nat, b: Bomb, t: Tile,
                     rest: seq<Tile>, dt: real)
    requires DistinctTiles(s.bombs) && i < |s.bombs| && s.bombs[i].tile == t && t !in rest
    requires b.tile == t
    requires s1 == s.(bombs := s.bombs[i := b])
    requires |det| >= 1 && det[0] == b
    requires forall x :: x in det ==> x !in e.bombs
    requires forall x :: x in e.bombs ==> x in s1.bombs
    requires forall p :: FlameAt(s.flames, p) ==> FlameAt(e.flames, p)
    requires forall x :: x in u.bombs ==>
               || (x in e.bombs && x.tile !in rest)
               || (x.tile in rest && x.timer > 0.0 && !FlameAt(e.flames, x.tile) && exists o :: o in e.bombs && TickedFrom(x, o, dt))
    ensures forall x :: x in u.bombs ==>
              || (x in s.bombs && x.tile !in rest + [t])
              || (x.tile in rest + [t] && x.timer > 0.0 && !FlameAt(s.flames, x.tile) && exists o :: o in s.bombs && TickedFrom(x, o, dt))
  {
    assert b in det;
    forall x | x in u.bombs
      ensures || (x in s.bombs && x.tile !in rest + [t])
              || (x.tile in rest + [t] && x.timer > 0.0 && !FlameAt(s.flames, x.tile) && exists o :: o in s.bombs && TickedFrom(x, o, dt))
    {
      if x in e.bombs && x.tile !in rest {
        var k :| 0 <= k < |s1.bombs| && s1.bombs[k] == x;
        assert k != i;
        assert x == s.bombs[k];
        assert x.tile != t;
      } else {
        var o :| o in e.bombs && TickedFrom(x, o, dt);
        var k :| 0 <= k < |s1.bombs| && s1.bombs[k] == o;
        assert k != i;
        assert o == s.bombs[k];
      }
    }
  }

  /** What a countdown pass over the tiles `ts` promises about the bombs it
      detonated, `det`: none of their tiles still holds a bomb in `r`; each
      is a bomb of `s`, possibly ticked, with its tile and range; and a bomb
      of `s` is among them only if it was due, its own tick on a tile of
      `ts` running the fuse out, or a bomb detonated in the pass on another
      tile had it in reach. */
  ghost predicate Settled(s: Game, ts: seq<Tile>, dt: real, r: Game, det: seq<Bomb>)
  {
    && (forall c :: c in det ==> c.tile !in TileSet(r.bombs))
    && (forall c :: c in det ==> exists o :: o in s.bombs && o.tile == c.tile && o.range == c.range)
    && (forall o :: o in s.bombs && o.tile in TileSet(det) ==>
          || (o.tile in ts && TickBomb(o, dt, s.flames).timer <= 0.0)
          || exists c :: c in det && c.tile != o.tile && InReach(c, o.tile))
  }

  /** The pass detonates only bombs that were due. */
  lemma {:induction false} UpdateFromSettled(s: Game, ts: seq<Tile>, dt: real)
    requires WellFormed(s.grid) && DistinctTiles(s.bombs) && NoRepeats(ts)
    decreases |ts|
    ensures Settled(s, ts, dt, UpdateFrom(s, ts, dt).0, UpdateFrom(s, ts, dt).1)
  {
    if |ts| > 0 {
      var t := ts[|ts| - 1];
      var rest := ts[..|ts| - 1];
      assert ts == rest + [t];
      match FindBomb(s.bombs, t)
      case None =>
        UpdateFromSettled(s, rest, dt);
      case Some(i) =>
        var b := TickBomb(s.bombs[i], dt, s.flames);
        var s1 := s.(bombs := s.bombs[i := b]);
        if b.timer <= 0.0 {
          var e := Explode(s1, i);
          DueBombExplodes(s, i, t, dt);
          UpdateFromSettled(e.0, rest, dt);
          var u := UpdateFrom(e.0, rest, dt);
          ExplodedSettles(s, s1, e.0, e.1, u.0, u.1, i, b, t, rest, dt);
          assert UpdateFrom(s, ts, dt) == (u.0, e.1 + u.1);
        } else {
          assert DistinctTiles(s1.bombs);
          UpdateFromSettled(s1, rest, dt);
          var u := UpdateFrom(s1, rest, dt);
          TickedSettles(s, s1, u.0, u.1, i, b, t, rest, dt);
          assert UpdateFrom(s, ts, dt) == u;
        }
    }
  }

  /** The facts a due bomb's detonation hands to the rest of the pass. */
  lemma DueBombExplodes(s: Game, i: nat, t: Tile, dt: real)
    requires WellFormed(s.grid) && DistinctTiles(s.bombs) && i < |s.bombs| && s.bombs[i].tile == t
    requires TickBomb(s.bombs[i], dt, s.flames).timer <= 0.0
    ensures var b := TickBomb(s.bombs[i], dt, s.flames);
            var s1 := s.(bombs := s.bombs[i := b]);
            var e := Explode(s1, i);
            && ExplodedStepFacts(s, s1, e.0, e.1, i, b, t, dt)
            && WellFormed(e.0.grid) && DistinctTiles(e.0.bombs)
  {
    var b := TickBomb(s.bombs[i], dt, s.flames);
    var s1 := s.(bombs := s.bombs[i := b]);
    assert DistinctTiles(s1.bombs);
    var e := Explode(s1, i);
    ExplodesAtMostOnce(s1, e.0, e.1);
    ExplodeChain(s1, i);
    ExplodeSplitsTiles(s1, e.0, e.1);
  }

  /** A bomb of `s1`, which is `s` with bomb `i` ticked, has an original in
      `s` on its tile with its range. */
  lemma OriginBack(s: Game, s1: Game, i: nat, b: Bomb, x: Bomb)
    requires i < |s.bombs| && b.tile == s.bombs[i].tile && b.range == s.bombs[i].range
    requires s1.bombs == s.bombs[i := b] && x in s1.bombs
    ensures exists o :: o in s.bombs && o.tile == x.tile && o.range == x.range
  {
    var k :| 0 <= k < |s1.bombs| && s1.bombs[k] == x;
    assert s.bombs[k] in s.bombs;
  }

  /** A pass step whose bomb kept burning keeps the pass settled. */
  lemma TickedSettles(s: Game, s1: Game, u: Game, later: seq<Bomb>,
                      i: nat, b: Bomb, t: Tile, rest: seq<Tile>, dt: real)
    requires DistinctTiles(s.bombs) && i < |s.bombs| && s.bombs[i].tile == t && t !in rest
    requires b == TickBomb(s.bombs[i], dt, s.flames) && s1 == s.(bombs := s.bombs[i := b])
    requires Settled(s1, rest, dt, u, later)
    ensures Settled(s, rest + [t], dt, u, later)
  {
    forall c | c in later
      ensures exists o :: o in s.bombs && o.tile == c.tile && o.range == c.range
    {
      var x :| x in s1.bombs && x.tile == c.tile && x.range == c.range;
      OriginBack(s, s1, i, b, x);
    }
    forall o | o in s.bombs && o.tile in TileSet(later)
      ensures || (o.tile in rest + [t] && TickBomb(o, dt, s.flames).timer <= 0.0)
              || exists c :: c in later && c.tile != o.tile && InReach(c, o.tile)
    {
      var k :| 0 <= k < |s.bombs| && s.bombs[k] == o;
      if k == i {
        assert s1.bombs[i] == b && b.tile == o.tile;
      } else {
        assert s1.bombs[k] == o;
      }
    }
  }

  /** What holds after a pass step whose bomb exploded into `det`, from
      state `s1` to `e`. */
  ghost predicate ExplodedStepFacts(s: Game, s1: Game, e: Game, det: seq<Bomb>, i: nat, b: Bomb, t: Tile, dt: real)
  {
    && DistinctTiles(s.bombs) && i < |s.bombs| && s.bombs[i].tile == t
    && b == TickBomb(s.bombs[i], dt, s.flames) && b.timer <= 0.0
    && s1 == s.(bombs := s.bombs[i := b]) && DistinctTiles(s1.bombs)
    && Evolves(s1, e, det) && |det| >= 1 && det[0] == b && Chained(b, det[1..])
    && ReachedBy(e.flames[|s1.flames|..], det)
    && (forall c :: c in det ==> c.tile !in TileSet(e.bombs))
  }

  /** A pass step whose bomb exploded keeps the pass settled. */
  lemma ExplodedSettles(s: Game, s1: Game, e: Game, det: seq<Bomb>, u: Game, later: seq<Bomb>,
                        i: nat, b: Bomb, t: Tile, rest: seq<Tile>, dt: real)
    requires ExplodedStepFacts(s, s1, e, det, i, b, t, dt) && t !in rest
    requires TileSet(e.bombs) == TileSet(u.bombs) + TileSet(later)
    requires Settled(e, rest, dt, u, later)
    ensures Settled(s, rest + [t], dt, u, det + later)
  {
    TileSetSplit(e.bombs, det, s1.bombs);
    ExplodedOrigins(s, s1, e, det, later, i, b, t, dt);
    assert TileSet(det + later) == TileSet(det) + TileSet(later);
    var tail := det[1..];
    assert det == [b] + tail;
    forall o | o in s.bombs && o.tile in TileSet(det + later)
      ensures || (o.tile in rest + [t] && TickBomb(o, dt, s.flames).timer <= 0.0)
              || exists c :: c in det + later && c.tile != o.tile && InReach(c, o.tile)
    {
      var k :| 0 <= k < |s.bombs| && s.bombs[k] == o;
      if k == i {
        assert TickBomb(o, dt, s.flames) == b;
      } else if o.tile in TileSet(det) {
        DistinctMembers(s.bombs, s.bombs[i], o);
        DueByChain(b, tail, o.tile);
        var c :| c in det && c.tile != o.tile && InReach(c, o.tile);
        assert c in det + later;
      } else {
        DueLater(s, s1, e, det, u, later, i, b, t, rest, dt, k);
      }
    }
  }

  /** Every bomb a pass step detonated, or left for the rest of the pass to
      detonate, has an original in `s` on its tile with its range. */
  lemma ExplodedOrigins(s: Game, s1: Game, e: Game, det: seq<Bomb>, later: seq<Bomb>,
                        i: nat, b: Bomb, t: Tile, dt: real)
    requires ExplodedStepFacts(s, s1, e, det, i, b, t, dt)
    requires forall c :: c in later ==> exists o :: o in e.bombs && o.tile == c.tile && o.range == c.range
    ensures forall c :: c in det + later ==> exists o :: o in s.bombs && o.tile == c.tile && o.range == c.range
  {
    forall c | c in det + later
      ensures exists o :: o in s.bombs && o.tile == c.tile && o.range == c.range
    {
      if c in det {
        assert c in multiset(det);
        assert c in s1.bombs by {
          assert c in multiset(s1.bombs);
        }
        OriginBack(s, s1, i, b, c);
      } else {
        var x :| x in e.bombs && x.tile == c.tile && x.range == c.range;
        assert x in multiset(e.bombs);
        assert x in s1.bombs by {
          assert x in multiset(s1.bombs);
        }
        OriginBack(s, s1, i, b, x);
      }
    }
  }

  /** A bomb of `s` set off within the explosion itself was reached by an
      earlier detonated bomb on another tile. */
  lemma DueByChain(b: Bomb, tail: seq<Bomb>, p: Tile)
    requires Chained(b, tail) && p in TileSet([b] + tail) && p != b.tile
    ensures exists c :: c in [b] + tail && c.tile != p && InReach(c, p)
  {
    var j :| 0 <= j < |tail| && tail[j].tile == p;
    ChainedAt(b, tail, j);
  }

  /** A bomb of `s` the explosion left for the rest of the pass, and which
      the rest detonated, was due: its tick, made after the explosion's
      flames, ran the fuse out, either by itself or because one of those
      flames, spread by a detonated bomb on another tile, covered it. */
  lemma DueLater(s: Game, s1: Game, e: Game, det: seq<Bomb>, u: Game, later: seq<Bomb>,
                 i: nat, b: Bomb, t: Tile, rest: seq<Tile>, dt: real, k: nat)
    requires ExplodedStepFacts(s, s1, e, det, i, b, t, dt) && t !in rest
    requires TileSet(e.bombs) + TileSet(det) == TileSet(s1.bombs)
    requires Settled(e, rest, dt, u, later)
    requires k < |s.bombs| && k != i && s.bombs[k].tile !in TileSet(det)
    requires s.bombs[k].tile in TileSet(later)
    ensures || (s.bombs[k].tile in rest + [t] && TickBomb(s.bombs[k], dt, s.flames).timer <= 0.0)
            || exists c :: c in det + later && c.tile != s.bombs[k].tile && InReach(c, s.bombs[k].tile)
  {
    var o := s.bombs[k];
    assert s1.bombs[k] == o;
    var y :| y in e.bombs && y.tile == o.tile;
    assert y in multiset(e.bombs);
    assert y in s1.bombs by {
      assert y in multiset(s1.bombs);
    }
    if y != o {
      DistinctMembers(s1.bombs, y, o);
    }
    if o.tile in rest && TickBomb(o, dt, e.flames).timer <= 0.0 {
      FlamesGrow(s.flames, e.flames);
      if FlameAt(e.flames, o.tile) && !FlameAt(s.flames, o.tile) {
        NewFlameReached(s1.flames, e.flames, det, o.tile);
        var db :| db in det && InReach(db, o.tile);
        assert db in det + later;
      }
    } else {
      var c :| c in later && c.tile != o.tile && InReach(c, o.tile);
      assert c in det + later;
    }
  }

  /** A flame on `p` that is new since `before` lies within reach of a
      bomb of `det`. */
  lemma NewFlameReached(before: seq<Flame>, after: seq<Flame>, det: seq<Bomb>, p: Tile)
    requires |before| <= |after| && after[..|before|] == before
    requires ReachedBy(after[|before|..], det)
    requires FlameAt(after, p) && !FlameAt(before, p)
    ensures exists db :: db in det && InReach(db, p)
  {
    var m :| 0 <= m < |after| && after[m].tile == p;
    assert m >= |before| by {
      assert forall j :: 0 <= j < |before| ==> after[j] == before[j];
    }
    assert after[|before|..][m - |before|] == after[m];
  }

  /** Bomb `k` of `s` after one tick if its tile is among `ts`, as it was
      otherwise. */
  function TickedOn(s: Game, ts: seq<Tile>, dt: real, k: nat): Bomb
    requires k < |s.bombs|
  {
    if s.bombs[k].tile in ts then TickBomb(s.bombs[k], dt, s.flames) else s.bombs[k]
  }

  /** A pass in which no bomb's tick runs its fuse out detonates nothing
      and ticks each bomb on a tile of `ts` exactly once, in place. */
  lemma {:induction false} UpdateFromQuiet(s: Game, ts: seq<Tile>, dt: real)
    requires WellFormed(s.grid) && DistinctTiles(s.bombs) && NoRepeats(ts)
    requires forall o :: o in s.bombs && o.tile in ts ==> TickBomb(o, dt, s.flames).timer > 0.0
    decreases |ts|
    ensures var r := UpdateFrom(s, ts, dt);
            && r.1 == []
            && r.0 == s.(bombs := r.0.bombs)
            && |r.0.bombs| == |s.bombs|
            && forall k :: 0 <= k < |s.bombs| ==> r.0.bombs[k] == TickedOn(s, ts, dt, k)
  {
    if |ts| > 0 {
      var t := ts[|ts| - 1];
      var rest := ts[..|ts| - 1];
      assert ts == rest + [t];
      match FindBomb(s.bombs, t)
      case None =>
        UpdateFromQuiet(s, rest, dt);
        assert forall k :: 0 <= k < |s.bombs| ==> TickedOn(s, ts, dt, k) == TickedOn(s, rest, dt, k);
      case Some(i) =>
        var b := TickBomb(s.bombs[i], dt, s.flames);
        var s1 := s.(bombs := s.bombs[i := b]);
        QuietStep(s, rest, t, i, dt);
        UpdateFromQuiet(s1, rest, dt);
        assert UpdateFrom(s, ts, dt) == UpdateFrom(s1, rest, dt);
    }
  }

  /** One quiet pass step: the ticked bomb keeps burning, the rest of the
      pass stays quiet, and ticking it now or with the rest agrees. */
  lemma QuietStep(s: Game, rest: seq<Tile>, t: Tile, i: nat, dt: real)
    requires DistinctTiles(s.bombs) && i < |s.bombs| && s.bombs[i].tile == t && t !in rest
    requires forall o :: o in s.bombs && o.tile in rest + [t] ==> TickBomb(o, dt, s.flames).timer > 0.0
    ensures var s1 := s.(bombs := s.bombs[i := TickBomb(s.bombs[i], dt, s.flames)]);
            && TickBomb(s.bombs[i], dt, s.flames).timer > 0.0
            && DistinctTiles(s1.bombs)
            && (forall o :: o in s1.bombs && o.tile in rest ==> TickBomb(o, dt, s1.flames).timer > 0.0)
            && forall k :: 0 <= k < |s.bombs| ==> TickedOn(s1, rest, dt, k) == TickedOn(s, rest + [t], dt, k)
  {
    var b := TickBomb(s.bombs[i], dt, s.flames);
    var s1 := s.(bombs := s.bombs[i := b]);
    assert DistinctTiles(s1.bombs);
    assert s.bombs[i] in s.bombs;
    forall o | o in s1.bombs && o.tile in rest
      ensures TickBomb(o, dt, s1.flames).timer > 0.0
    {
      var k :| 0 <= k < |s1.bombs| && s1.bombs[k] == o;
      assert k != i;
      assert s.bombs[k] in s.bombs;
    }
  }

  /** `updateBombs(dt)` processing every bomb present at the start of the
      frame exactly once, by identity: after the pass every bomb left is an
      original bomb ticked once, with no flame on its tile at the start of
      the frame and a fuse that has not run out; every original
      bomb is either left or detonated, and the state stays valid. */
  function UpdateBombs(s: Game, dt: real): (r: (Game, seq<Bomb>))
    requires Valid(s)
    ensures Valid(r.0)
    ensures Around(s, r.0, r.1)
    ensures forall b :: b in r.0.bombs ==> b.timer > 0.0 && !FlameAt(s.flames, b.tile) && exists o :: o in s.bombs && TickedFrom(b, o, dt)
    ensures TileSet(s.bombs) == TileSet(r.0.bombs) + TileSet(r.1)
  {
    var ts := Tiles(s.bombs);
    var r := UpdateFrom(s, ts, dt);
    forall b | b in r.0.bombs && b in s.bombs
      ensures b.tile in ts
    {
      var k :| 0 <= k < |s.bombs| && s.bombs[k] == b;
      assert ts[k] == b.tile;
    }
    StockAfterBounds(s.player, |r.1|);
    r
  }

  /** The whole-list pass detonates only due bombs, and when none is due it
      ticks every bomb once, in place. */
  lemma PassDue(s: Game, ts: seq<Tile>, dt: real, r: (Game, seq<Bomb>))
    requires Valid(s) && ts == Tiles(s.bombs) && NoRepeats(ts) && r == UpdateFrom(s, ts, dt)
    ensures && (forall c :: c in r.1 ==> c.tile !in TileSet(r.0.bombs))
            && (forall c :: c in r.1 ==> exists o :: o in s.bombs && o.tile == c.tile && o.range == c.range)
            && forall o :: o in s.bombs && o.tile !in TileSet(r.0.bombs) ==>
                 || TickBomb(o, dt, s.flames).timer <= 0.0
                 || exists c :: c in r.1 && c.tile != o.tile && InReach(c, o.tile)
    ensures (forall o :: o in s.bombs ==> TickBomb(o, dt, s.flames).timer > 0.0) ==>
              && r.1 == []
              && r.0 == s.(bombs := r.0.bombs)
              && |r.0.bombs| == |s.bombs|
              && forall k :: 0 <= k < |s.bombs| ==> r.0.bombs[k] == TickBomb(s.bombs[k], dt, s.flames)
  {
    UpdateFromSettled(s, ts, dt);
    forall o | o in s.bombs && o.tile !in TileSet(r.0.bombs)
      ensures o.tile in TileSet(r.1)
    {
      assert o.tile in TileSet(s.bombs);
    }
    if forall o :: o in s.bombs ==> TickBomb(o, dt, s.flames).timer > 0.0 {
      UpdateFromQuiet(s, ts, dt);
      forall k | 0 <= k < |s.bombs|
        ensures TickedOn(s, ts, dt, k) == TickBomb(s.bombs[k], dt, s.flames)
      {
        assert ts[k] == s.bombs[k].tile;
      }
    }
  }

  /** The detonations of a pass restated on the original bombs: a bomb of
      `s` whose tile is empty afterwards was due, or was in reach of another
      original bomb whose tile is empty afterwards too. */
  lemma DueAmongOriginals(s: Game, r: Game, det: seq<Bomb>, dt: real)
    requires forall c :: c in det ==> c.tile !in TileSet(r.bombs)
    requires forall c :: c in det ==> exists o :: o in s.bombs && o.tile == c.tile && o.range == c.range
    requires forall o :: o in s.bombs && o.tile !in TileSet(r.bombs) ==>
               || TickBomb(o, dt, s.flames).timer <= 0.0
               || exists c :: c in det && c.tile != o.tile && InReach(c, o.tile)
    ensures forall o :: o in s.bombs && o.tile !in TileSet(r.bombs) ==>
              || TickBomb(o, dt, s.flames).timer <= 0.0
              || exists c :: c in s.bombs && c.tile !in TileSet(r.bombs) && c.tile != o.tile && InReach(c, o.tile)
  {
    forall o | o in s.bombs && o.tile !in TileSet(r.bombs) && TickBomb(o, dt, s.flames).timer > 0.0
      ensures exists c :: c in s.bombs && c.tile !in TileSet(r.bombs) && c.tile != o.tile && InReach(c, o.tile)
    {
      var c :| c in det && c.tile != o.tile && InReach(c, o.tile);
      var oc :| oc in s.bombs && oc.tile == c.tile && oc.range == c.range;
      assert InReach(oc, o.tile);
    }
  }

  /** What one frame's countdown does to the bomb list `before`, with the
      flames `flames` on the board at its start, leaving `after`: every
      bomb left is an original ticked once, with no flame on its tile and
      fuse left; an original whose tile is empty afterwards was due, or was
      in reach of another original whose tile is empty afterwards too; and
      when no bomb is due, every bomb is ticked once, in place. */
  ghost predicate CountedDown(before: seq<Bomb>, flames: seq<Flame>, dt: real, after: seq<Bomb>)
  {
    && (forall b :: b in after ==>
          b.timer > 0.0 && !FlameAt(flames, b.tile) && exists o :: o in before && TickedFrom(b, o, dt))
    && (forall o :: o in before && o.tile !in TileSet(after) ==>
          || TickBomb(o, dt, flames).timer <= 0.0
          || exists c :: c in before && c.tile !in TileSet(after) && c.tile != o.tile && InReach(c, o.tile))
    && ((forall o :: o in before ==> TickBomb(o, dt, flames).timer > 0.0) ==>
          && |after| == |before|
          && forall k :: 0 <= k < |before| ==> after[k] == TickBomb(before[k], dt, flames))
  }

  /** The frame countdown `UpdateBombs` performs, in both directions. */
  lemma UpdateBombsCountsDown(s: Game, dt: real)
    requires Valid(s)
    ensures CountedDown(s.bombs, s.flames, dt, UpdateBombs(s, dt).0.bombs)
  {
    var ts := Tiles(s.bombs);
    var r := UpdateFrom(s, ts, dt);
    PassDue(s, ts, dt, r);
    assert UpdateBombs(s, dt) == r;
    DueAmongOriginals(s, r.0, r.1, dt);
  }

  /** `updateBombs(dt)` as written: the loop walks indices from the last
      down to 0 and reads `bombs[i]` afresh each time. A chain reaction that
      removed lower-index bombs can leave `i` past the end of the shrunken
      list; reading the fuse of the missing bomb throws, modelled as `None`. */
  function UpdateBombsAsWritten(s: Game, dt: real): (r: Option<Game>)
    requires WellFormed(s.grid)
    ensures |s.bombs| <= 1 ==> r.Some?
  {
    TickDown(s, |s.bombs| - 1, dt)
  }

  function TickDown(s: Game, i: int, dt: real): (r: Option<Game>)
    requires WellFormed(s.grid)
    decreases if i < 0 then 0 else i + 1
    ensures i < |s.bombs| <= 1 ==> r.Some?
  {
    if i < 0 then Some(s)
    else if i >= |s.bombs| then None
    else
      var b := TickBomb(s.bombs[i], dt, s.flames);
      var s1 := s.(bombs := s.bombs[i := b]);
      if b.timer <= 0.0 then TickDown(Explode(s1, i).0, i - 1, dt)
      else TickDown(s1, i - 1, dt)
  }

  /** Two bombs, the later one standing in a flame with its earlier neighbour
      one tile to its right in reach: the later bomb explodes first, chains
      into the earlier one, and the loop then reads index 0 of an empty list. */
  lemma UpdateBombsAsWrittenFaults(s: Game, dt: real)
    requires WellFormed(s.grid) && |s.bombs| == 2
    requires FlameAt(s.flames, s.bombs[1].tile)
    requires s.bombs[1].range >= 1
    requires s.bombs[0].tile == Step(s.bombs[1].tile, Right, 1)
    requires !IsBlocked(s.grid, s.bombs[0].tile)
    ensures UpdateBombsAsWritten(s, dt) == None
  {
    var j := |s.bombs| - 1;
    var b := TickBomb(s.bombs[j], dt, s.flames);
    assert b.timer == 0.0;
    var s1 := s.(bombs := s.bombs[j := b]);
    ExplodeLastChains(s1);
    assert TickDown(s, j, dt) == TickDown(Explode(s1, j).0, j - 1, dt);
  }

  /** The first step of the fault: exploding the later bomb of the pair
      also takes the earlier one, leaving no bomb at all. */
  lemma ExplodeLastChains(s: Game)
    requires WellFormed(s.grid) && |s.bombs| == 2
    requires s.bombs[1].range >= 1
    requires s.bombs[0].tile == Step(s.bombs[1].tile, Right, 1)
    requires !IsBlocked(s.grid, s.bombs[0].tile)
    ensures |Explode(s, |s.bombs| - 1).0.bombs| == 0
  {
    var j := |s.bombs| - 1;
    var a := s.bombs[0];
    var b := s.bombs[j];
    var s2 := Detonate(s, j);
    assert s2.bombs == [a];
    WalkChains(s2, a, b, j - 1, j);
    BlastAfterEmpty(s2, b, j - 1);
    assert Explode(s, j).0 == Blast(s2, b, j - 1).0;
  }

  /** A walk that reaches the tile of the only bomb left explodes it. */
  lemma WalkChains(s: Game, a: Bomb, b: Bomb, d: nat, i: int)
    requires WellFormed(s.grid) && s.bombs == [a] && d < 4 && 1 <= i <= b.range
    requires a.tile == Step(b.tile, BlastOrder[d], i) && !IsBlocked(s.grid, a.tile)
    ensures |Walk(s, b, d, i).0.bombs| == 0
  {
    var s3 := Burn(s, b, a.tile);
    assert FindBomb(s.bombs, a.tile) == Some(0);
    assert Walk(s, b, d, i) == Explode(s3, 0);
  }

  /** Once the walk in direction `d` leaves no bomb, neither does the rest
      of the blast. */
  lemma BlastAfterEmpty(s: Game, b: Bomb, d: nat)
    requires WellFormed(s.grid) && d < 4 && |Walk(s, b, d, 1).0.bombs| == 0
    ensures |Blast(s, b, d).0.bombs| == 0
  {
    var w := Walk(s, b, d, 1);
    var bl := Blast(w.0, b, d + 1);
    assert |multiset(bl.0.bombs)| + |multiset(bl.1)| == |multiset(w.0.bombs)|;
  }

  /** `updateFlames(dt)`: every flame burns `dt` seconds and the ones whose
      time is up are dropped; the loop runs last index first, which keeps
      the survivors in order. */
  function UpdateFlames(flames: seq<Flame>, dt: real): (r: seq<Flame>)
    ensures |r| <= |flames|
    ensures forall f :: f in r ==> f.ttl > 0.0
    ensures forall f :: f in r <==>
              exists g :: g in flames && g.ttl - dt * 1000.0 > 0.0 && f == g.(ttl := g.ttl - dt * 1000.0)
  {
    if |flames| == 0 then []
    else
      var front := flames[..|flames| - 1];
      var last := flames[|flames| - 1];
      assert flames == front + [last];
      var aged := last.(ttl := last.ttl - dt * 1000.0);
      if aged.ttl <= 0.0 then UpdateFlames(front, dt)
      else UpdateFlames(front, dt) + [aged]
  }

  /** Expiry acts on each flame independently and keeps the list order. */
  lemma {:induction false} UpdateFlamesConcat(a: seq<Flame>, b: seq<Flame>, dt: real)
    ensures UpdateFlames(a + b, dt) == UpdateFlames(a, dt) + UpdateFlames(b, dt)
    decreases |b|
  {
    if |b| == 0 {
      assert a + b == a;
    } else {
      var front := b[..|b| - 1];
      assert (a + b)[..|a + b| - 1] == a + front;
      assert (a + b)[|a + b| - 1] == b[|b| - 1];
      UpdateFlamesConcat(a, front, dt);
    }
  }
}

=== FILE: level.dfy ===
/** The tile grid: cell kinds, the fixed layout rules, level generation from
    the draw stream, and the enemy spawn-tile search (main.js:98-172, 215-219). */
module Level {
  import opened Base

  datatype Cell = Solid | Soft | Empty

  const Cols: int := 15
  const Rows: int := 13
  /** Probability that a free, non-safe cell becomes a soft block. */
  const BlockChance: real := 0.62
  const SpawnTile: Tile := Tile(1, 1)
  /** Attempts `randomEmptyTile` makes before falling back. */
  const MaxAttempts: nat := 200

  /** The grid is stored row by row: `g[y][x]`. */
  type Grid = seq<seq<Cell>>

  ghost predicate WellFormed(g: Grid)
  {
    |g| == Rows && forall y :: 0 <= y < |g| ==> |g[y]| == Cols
  }

  predicate InBounds(t: Tile)
  {
    0 <= t.x < Cols && 0 <= t.y < Rows
  }

  function CellAt(g: Grid, t: Tile): Cell
    requires WellFormed(g) && InBounds(t)
  {
    g[t.y][t.x]
  }

  /** Off-grid tiles, walls and soft blocks all block. */
  function IsBlocked(g: Grid, t: Tile): (r: bool)
    requires WellFormed(g)
    ensures r <==> !InBounds(t) || CellAt(g, t) == Solid || CellAt(g, t) == Soft
  {
    !InBounds(t) || CellAt(g, t) != Empty
  }

  function SetCell(g: Grid, t: Tile, c: Cell): (r: Grid)
    requires WellFormed(g) && InBounds(t)
    ensures WellFormed(r)
    ensures CellAt(r, t) == c
    ensures forall u :: InBounds(u) && u != t ==> CellAt(r, u) == CellAt(g, u)
  {
    g[t.y := g[t.y][t.x := c]]
  }

  /** Number of soft blocks in a row. */
  function RowSoft(row: seq<Cell>): nat
  {
    if |row| == 0 then 0
    else RowSoft(row[..|row| - 1]) + (if row[|row| - 1] == Soft then 1 else 0)
  }

  /** Number of soft blocks in the first `n` rows. */
  function SoftRows(g: Grid, n: nat): nat
    requires n <= |g|
  {
    if n == 0 then 0 else SoftRows(g, n - 1) + RowSoft(g[n - 1])
  }

  /** Number of soft blocks on the grid. */
  function SoftCount(g: Grid): nat
  {
    SoftRows(g, |g|)
  }

  lemma {:induction false} RowSoftUpdate(row: seq<Cell>, x: nat, c: Cell)
    requires x < |row|
    ensures RowSoft(row[x := c]) + (if row[x] == Soft then 1 else 0)
            == RowSoft(row) + (if c == Soft then 1 else 0)
  {
    var n := |row| - 1;
    if x < n {
      assert row[x := c][..n] == row[..n][x := c];
      RowSoftUpdate(row[..n], x, c);
    } else {
      assert row[x := c][..n] == row[..n];
    }
  }

  lemma {:induction false} SoftRowsUpdate(g: Grid, n: nat, y: nat, row: seq<Cell>)
    requires y < |g| && n <= |g|
    ensures SoftRows(g[y := row], n) + (if y < n then RowSoft(g[y]) else 0)
            == SoftRows(g, n) + (if y < n then RowSoft(row) else 0)
  {
    if n > 0 {
      SoftRowsUpdate(g, n - 1, y, row);
    }
  }

  /** Clearing a soft block lowers the soft-block count by exactly one. */
  lemma ClearSoftCount(g: Grid, t: Tile)
    requires WellFormed(g) && InBounds(t) && CellAt(g, t) == Soft
    ensures SoftCount(SetCell(g, t, Empty)) + 1 == SoftCount(g)
  {
    RowSoftUpdate(g[t.y], t.x, Empty);
    SoftRowsUpdate(g, |g|, t.y, g[t.y][t.x := Empty]);
  }

  // ---------------------------------------------------------------------
  // Layout rules

  predicate OnBorder(x: int, y: int)
  {
    y == 0 || x == 0 || y == Rows - 1 || x == Cols - 1
  }

  /** The fixed pillar lattice: odd column and odd row. */
  predicate Pillar(x: int, y: int)
  {
    x % 2 == 1 && y % 2 == 1
  }

  /** The spawn safe zone: Manhattan distance at most 2 from the spawn tile,
      plus the two cells next to it (already inside that distance). */
  predicate NearSpawn(x: int, y: int)
  {
    Abs(x - SpawnTile.x) + Abs(y - SpawnTile.y) <= 2 || (x == 1 && y == 2) || (x == 2 && y == 1)
  }

  /** The layout rule exactly as main.js:121-131 orders it: the pillar test
      precedes the safe-zone test. `None` means "decided by a draw". */
  function FixedCellAsWritten(x: int, y: int): (r: Option<Cell>)
    ensures r == Some(Solid) <==> OnBorder(x, y) || Pillar(x, y)
    ensures r == Some(Empty) <==> !OnBorder(x, y) && !Pillar(x, y) && NearSpawn(x, y)
    ensures r != Some(Soft)
  {
    if OnBorder(x, y) || Pillar(x, y) then Some(Solid)
    else if NearSpawn(x, y) then Some(Empty)
    else None
  }

  /** The layout rule the model uses: the border first, then the safe zone,
      then the pillar lattice, so that the spawn tile is walkable. */
  function FixedCell(x: int, y: int): (r: Option<Cell>)
    ensures r == Some(Solid) <==> OnBorder(x, y) || (Pillar(x, y) && !NearSpawn(x, y))
    ensures r == Some(Empty) <==> !OnBorder(x, y) && NearSpawn(x, y)
    ensures r != Some(Soft)
  {
    if OnBorder(x, y) then Some(Solid)
    else if NearSpawn(x, y) then Some(Empty)
    else if Pillar(x, y) then Some(Solid)
    else None
  }

  /** A drawn cell: soft with probability `BlockChance`. */
  function DrawnCell(r: Draw): Cell
  {
    if r < BlockChance then Soft else Empty
  }

  /** A layout rule: the fixed kind of a cell, or `None` when a draw decides. */
  type Layout = (int, int) -> Option<Cell>

  /** The cell at `(x, y)` under `layout`, when `d` is the draw it would consume. */
  function Expected(layout: Layout, x: int, y: int, d: Draw): Cell
  {
    match layout(x, y)
    case Some(c) => c
    case None => DrawnCell(d)
  }

  /** Number of cells among columns `x` to `x + n - 1` of row `y` that
      consume a draw. */
  function DrawsIn(layout: Layout, y: int, x: int, n: nat): nat
  {
    |set c | x <= c < x + n && layout(c, y).None?|
  }

  /** Counting the draws of a run of cells one cell at a time. */
  lemma DrawsInStep(layout: Layout, y: int, x: int, n: nat)
    requires n > 0
    ensures DrawsIn(layout, y, x, n) == Uses(layout, x, y) + DrawsIn(layout, y, x + 1, n - 1)
  {
    var a := set c | x <= c < x + n && layout(c, y).None?;
    var b := set c | x + 1 <= c < x + 1 + (n - 1) && layout(c, y).None?;
    if layout(x, y).None? {
      assert a == b + {x};
    } else {
      assert a == b;
    }
  }

  /** The number of draws cell `(x, y)` consumes under `layout`. */
  function Uses(layout: Layout, x: int, y: int): nat
  {
    if layout(x, y).Some? then 0 else 1
  }

  /** The inner loop of the grid build: push the cells of row `y` after the
      ones already in `row`, consuming one draw per undecided cell, left to
      right. */
  function BuildRow(layout: Layout, y: int, row: seq<Cell>, rng: Rng): (r: (seq<Cell>, Rng))
    requires |row| <= Cols
    decreases Cols - |row|
    ensures |r.0| == Cols && forall i :: 0 <= i < |row| ==> r.0[i] == row[i]
    ensures r.1.draws == rng.draws && rng.pos <= r.1.pos <= rng.pos + (Cols - |row|)
  {
    if |row| == Cols then (row, rng)
    else
      var x := |row|;
      var r := BuildRow(layout, y, row + [Expected(layout, x, y, rng.draws(rng.pos))], rng.Skip(Uses(layout, x, y)));
      r
  }

  /** The inner loop consumes exactly one draw per undecided cell of the
      columns it pushes. */
  lemma {:induction false} BuildRowEnd(layout: Layout, y: int, row: seq<Cell>, rng: Rng)
    requires |row| <= Cols
    decreases Cols - |row|
    ensures BuildRow(layout, y, row, rng).1 == rng.(pos := rng.pos + DrawsIn(layout, y, |row|, Cols - |row|))
  {
    if |row| < Cols {
      var c := Expected(layout, |row|, y, rng.draws(rng.pos));
      BuildRowEnd(layout, y, row + [c], rng.Skip(Uses(layout, |row|, y)));
      DrawsInStep(layout, y, |row|, Cols - |row|);
    }
  }

  /** Cell `x` of the row reads the draw that follows the ones consumed by
      the cells pushed after `row` and before it: within one row, left to
      right. */
  lemma {:induction false} BuildRowReadsInOrder(layout: Layout, y: int, row: seq<Cell>, rng: Rng, x: int)
    requires |row| <= x < Cols
    decreases x - |row|
    ensures BuildRow(layout, y, row, rng).0[x]
              == Expected(layout, x, y, rng.draws(rng.pos + DrawsIn(layout, y, |row|, x - |row|)))
  {
    var c := Expected(layout, |row|, y, rng.draws(rng.pos));
    var rng1 := rng.Skip(Uses(layout, |row|, y));
    var next := BuildRow(layout, y, row + [c], rng1).0;
    assert BuildRow(layout, y, row, rng).0 == next;
    if x == |row| {
      assert next[x] == (row + [c])[x] == c;
    } else {
      BuildRowReadsInOrder(layout, y, row + [c], rng1, x);
      DrawsInStep(layout, y, |row|, x - |row|);
    }
  }

  /** A cell agrees with its layout entry: a fixed kind is kept and a drawn
      cell is never a wall. */
  predicate CellFits(fixed: Option<Cell>, c: Cell)
  {
    match fixed
    case Some(k) => c == k
    case None => c != Solid
  }

  lemma ExpectedFits(layout: Layout, x: int, y: int, d: Draw)
    ensures CellFits(layout(x, y), Expected(layout, x, y, d))
  {
  }

  /** Number of draws the rows `y0` to `y - 1` consume. */
  function RowsDraws(layout: Layout, y0: int, y: int): nat
    decreases y - y0
  {
    if y <= y0 then 0 else DrawsIn(layout, y0, 0, Cols) + RowsDraws(layout, y0 + 1, y)
  }

  /** The outer loop of the grid build: push rows `|grid|` onwards, top to
      bottom. */
  function BuildRows(layout: Layout, grid: Grid, rng: Rng): (r: (Grid, Rng))
    requires |grid| <= Rows && forall j :: 0 <= j < |grid| ==> |grid[j]| == Cols
    decreases Rows - |grid|
    ensures WellFormed(r.0) && forall j :: 0 <= j < |grid| ==> r.0[j] == grid[j]
    ensures r.1.draws == rng.draws && rng.pos <= r.1.pos
  {
    if |grid| == Rows then (grid, rng)
    else
      var row := BuildRow(layout, |grid|, [], rng);
      var r := BuildRows(layout, grid + [row.0], row.1);
      r
  }

  /** Every cell pushed by the outer loop reads the draw that follows those
      of the rows above it and of the cells to its left. */
  lemma {:induction false} BuildRowsFit(layout: Layout, grid: Grid, rng: Rng, x: int, y: int)
    requires |grid| <= Rows && forall j :: 0 <= j < |grid| ==> |grid[j]| == Cols
    requires |grid| <= y < Rows && 0 <= x < Cols
    decreases Rows - |grid|
    ensures BuildRows(layout, grid, rng).0[y][x]
              == Expected(layout, x, y, rng.draws(rng.pos + RowsDraws(layout, |grid|, y) + DrawsIn(layout, y, 0, x)))
  {
    if y == |grid| {
      BuildRowsHead(layout, grid, rng);
      BuildRowReadsInOrder(layout, y, [], rng, x);
    } else {
      var row := BuildRow(layout, |grid|, [], rng);
      BuildRowsFit(layout, grid + [row.0], row.1, x, y);
      BuildRowEnd(layout, |grid|, [], rng);
      assert BuildRows(layout, grid, rng) == BuildRows(layout, grid + [row.0], row.1);
      assert RowsDraws(layout, |grid|, y) == DrawsIn(layout, |grid|, 0, Cols) + RowsDraws(layout, |grid| + 1, y);
    }
  }

  /** The first row the outer loop pushes is built by the inner loop from
      the stream as it stands. */
  lemma BuildRowsHead(layout: Layout, grid: Grid, rng: Rng)
    requires |grid| < Rows && forall j :: 0 <= j < |grid| ==> |grid[j]| == Cols
    ensures BuildRows(layout, grid, rng).0[|grid|] == BuildRow(layout, |grid|, [], rng).0
  {
    var row := BuildRow(layout, |grid|, [], rng);
    assert (grid + [row.0])[|grid|] == row.0;
  }

  /** The grid loop of `buildLevel` under a given layout rule: every cell
      fits the rule. */
  function BuildGrid(layout: Layout, rng: Rng): (r: (Grid, Rng))
    ensures WellFormed(r.0)
    ensures r.1.draws == rng.draws && r.1.pos >= rng.pos
    ensures forall t :: InBounds(t) ==> CellFits(layout(t.x, t.y), CellAt(r.0, t))
  {
    var r := BuildRows(layout, [], rng);
    forall t | InBounds(t)
      ensures CellFits(layout(t.x, t.y), CellAt(r.0, t))
    {
      BuildRowsFit(layout, [], rng, t.x, t.y);
      ExpectedFits(layout, t.x, t.y, rng.draws(rng.pos + RowsDraws(layout, 0, t.y) + DrawsIn(layout, t.y, 0, t.x)));
    }
    r
  }

  /** The outer loop consumes exactly the draws of the rows it pushes. */
  lemma {:induction false} BuildRowsEnd(layout: Layout, grid: Grid, rng: Rng)
    requires |grid| <= Rows && forall j :: 0 <= j < |grid| ==> |grid[j]| == Cols
    decreases Rows - |grid|
    ensures BuildRows(layout, grid, rng).1 == rng.(pos := rng.pos + RowsDraws(layout, |grid|, Rows))
  {
    if |grid| < Rows {
      var row := BuildRow(layout, |grid|, [], rng);
      BuildRowEnd(layout, |grid|, [], rng);
      BuildRowsEnd(layout, grid + [row.0], row.1);
    }
  }

  /** The grid build reads the stream in row-major order: cell `(x, y)`
      reads the draw after those of the rows above it and of the cells to
      its left in its row, and the build ends after the draws of all rows. */
  lemma BuildGridReadsInOrder(layout: Layout, rng: Rng, t: Tile)
    requires InBounds(t)
    ensures CellAt(BuildGrid(layout, rng).0, t)
              == Expected(layout, t.x, t.y, rng.draws(rng.pos + RowsDraws(layout, 0, t.y) + DrawsIn(layout, t.y, 0, t.x)))
    ensures BuildGrid(layout, rng).1 == rng.(pos := rng.pos + RowsDraws(layout, 0, Rows))
  {
    BuildRowsFit(layout, [], rng, t.x, t.y);
    BuildRowsEnd(layout, [], rng);
  }

  /** Every grid generated under the corrected layout: walls on the border
      ring, the pillar lattice outside the safe zone, and an all-empty safe
      zone around spawn, spawn tile included. */
  lemma GeneratedGridLayout(rng: Rng)
    ensures var g := BuildGrid(FixedCell, rng).0;
      && (forall t :: InBounds(t) && OnBorder(t.x, t.y) ==> CellAt(g, t) == Solid)
      && (forall t :: InBounds(t) && Pillar(t.x, t.y) && !NearSpawn(t.x, t.y) ==> CellAt(g, t) == Solid)
      && (forall t :: InBounds(t) && !OnBorder(t.x, t.y) && NearSpawn(t.x, t.y) ==> CellAt(g, t) == Empty)
      && CellAt(g, SpawnTile) == Empty
  {
    var g := BuildGrid(FixedCell, rng).0;
    assert FixedCell(1, 1) == Some(Empty);
  }

  /** Every grid generated under the layout as written: walls on the border
      ring and on every odd/odd cell, so the spawn tile itself is a wall. */
  lemma GeneratedGridLayoutAsWritten(rng: Rng)
    ensures var g := BuildGrid(FixedCellAsWritten, rng).0;
      && (forall t :: InBounds(t) && (OnBorder(t.x, t.y) || Pillar(t.x, t.y)) ==> CellAt(g, t) == Solid)
      && CellAt(g, SpawnTile) == Solid
  {
    var g := BuildGrid(FixedCellAsWritten, rng).0;
    assert FixedCellAsWritten(1, 1) == Some(Solid);
  }

  /** Only the three pillar cells inside the safe zone differ between the
      layout as written and the corrected layout. */
  lemma LayoutsDifferOnlyInSafeZone(x: int, y: int)
    ensures FixedCellAsWritten(x, y) != FixedCell(x, y) <==>
              !OnBorder(x, y) && Pillar(x, y) && NearSpawn(x, y)
    ensures FixedCellAsWritten(x, y).None? <==> FixedCell(x, y).None?
  {
  }

  /** With the rule as written the spawn tile is a wall: the player starts,
      and respawns, inside a pillar. */
  lemma SpawnIsWallAsWritten()
    ensures FixedCellAsWritten(SpawnTile.x, SpawnTile.y) == Some(Solid)
    ensures FixedCell(SpawnTile.x, SpawnTile.y) == Some(Empty)
  {
  }

  // ---------------------------------------------------------------------
  // Enemy spawn tile search

  /** `Math.floor(r * n)` for a draw in [0, 1). */
  function Scale(r: Draw, n: nat): (k: int)
    requires n > 0
    ensures 0 <= k < n
  {
    ScaledBelow(r, n);
    (r * n as real).Floor
  }

  /** A draw in [0, 1) scaled by `n` stays in [0, n). */
  lemma {:induction false} ScaledBelow(r: Draw, n: nat)
    requires n > 0
    ensures 0.0 <= r * n as real < n as real
  {
    if n > 1 {
      ScaledBelow(r, n - 1);
      assert r * n as real == r * (n - 1) as real + r;
    }
  }

  /** The tile that attempt `k` of a search starting at `rng` draws:
      a column draw followed by a row draw. */
  function Drawn(rng: Rng, k: nat): Tile
  {
    Tile(Scale(rng.draws(rng.pos + 2 * k), Cols), Scale(rng.draws(rng.pos + 2 * k + 1), Rows))
  }

  /** A tile the search accepts: empty and outside the padding square. */
  predicate Acceptable(g: Grid, padding: int, t: Tile)
    requires WellFormed(g)
  {
    InBounds(t) && !(t.x < padding && t.y < padding) && CellAt(g, t) == Empty
  }

  lemma DrawnShift(rng: Rng, k: nat)
    ensures Drawn(rng.Skip(2), k) == Drawn(rng, k + 1)
  {
    assert rng.Skip(2).pos + 2 * k == rng.pos + 2 * (k + 1);
  }

  /** The attempt loop of `randomEmptyTile`, after the tiles in `rejected`
      were drawn and refused: the first acceptable tile drawn, or `None`
      once all 200 attempts are spent, with the advanced stream and the
      number of attempts this call made. */
  function Search(g: Grid, padding: int, rng: Rng, rejected: seq<Tile>): (r: (Option<Tile>, Rng, nat))
    requires WellFormed(g) && |rejected| <= MaxAttempts
    decreases MaxAttempts - |rejected|
    ensures r.1.draws == rng.draws && r.1.pos == rng.pos + 2 * r.2
    ensures r.2 <= MaxAttempts - |rejected|
    ensures r.0.Some? ==> r.2 >= 1
    ensures r.0.None? ==> r.2 == MaxAttempts - |rejected|
  {
    if |rejected| == MaxAttempts then (None, rng, 0)
    else
      var t := Drawn(rng, 0);
      if Acceptable(g, padding, t) then (Some(t), rng.Skip(2), 1)
      else
        var r := Search(g, padding, rng.Skip(2), rejected + [t]);
        (r.0, r.1, r.2 + 1)
  }

  /** A found tile is the last one drawn, it is acceptable, and every tile
      drawn before it was refused. */
  lemma {:induction false} SearchFound(g: Grid, padding: int, rng: Rng, rejected: seq<Tile>)
    requires WellFormed(g) && |rejected| <= MaxAttempts
    decreases MaxAttempts - |rejected|
    ensures var r := Search(g, padding, rng, rejected);
      r.0.Some? ==>
        && r.0.value == Drawn(rng, r.2 - 1) && Acceptable(g, padding, r.0.value)
        && forall k :: 0 <= k < r.2 - 1 ==> !Acceptable(g, padding, Drawn(rng, k))
  {
    if |rejected| < MaxAttempts && !Acceptable(g, padding, Drawn(rng, 0)) {
      var t := Drawn(rng, 0);
      var r := Search(g, padding, rng.Skip(2), rejected + [t]);
      assert Search(g, padding, rng, rejected) == (r.0, r.1, r.2 + 1);
      SearchFound(g, padding, rng.Skip(2), rejected + [t]);
      if r.0.Some? {
        DrawnShift(rng, r.2 - 1);
        RefusedShift(g, padding, rng, r.2 - 1);
      }
    }
  }

  /** A refused first draw followed by `n` refused draws of the rest of
      the stream makes `n + 1` refused draws. */
  lemma RefusedShift(g: Grid, padding: int, rng: Rng, n: nat)
    requires WellFormed(g) && !Acceptable(g, padding, Drawn(rng, 0))
    requires forall k :: 0 <= k < n ==> !Acceptable(g, padding, Drawn(rng.Skip(2), k))
    ensures forall k :: 0 <= k < n + 1 ==> !Acceptable(g, padding, Drawn(rng, k))
  {
    forall k | 0 < k < n + 1
      ensures !Acceptable(g, padding, Drawn(rng, k))
    {
      DrawnShift(rng, k - 1);
    }
  }

  /** An exhausted search refused every tile it drew. */
  lemma {:induction false} SearchExhausted(g: Grid, padding: int, rng: Rng, rejected: seq<Tile>)
    requires WellFormed(g) && |rejected| <= MaxAttempts
    decreases MaxAttempts - |rejected|
    ensures var r := Search(g, padding, rng, rejected);
      r.0.None? ==> forall k :: 0 <= k < r.2 ==> !Acceptable(g, padding, Drawn(rng, k))
  {
    if |rejected| < MaxAttempts && !Acceptable(g, padding, Drawn(rng, 0)) {
      var t := Drawn(rng, 0);
      var r := Search(g, padding, rng.Skip(2), rejected + [t]);
      assert Search(g, padding, rng, rejected) == (r.0, r.1, r.2 + 1);
      SearchExhausted(g, padding, rng.Skip(2), rejected + [t]);
      if r.0.None? {
        RefusedShift(g, padding, rng, r.2);
      }
    }
  }

  /** `randomEmptyTile(padding)`: the first drawn tile that is empty and
      outside the padding square, or the fallback `(padding, padding)` once
      all 200 attempts are spent. Each attempt consumes two draws. */
  function RandomEmptyTile(g: Grid, padding: int, rng: Rng): (r: (Tile, Rng))
    requires WellFormed(g)
    ensures r.1.draws == rng.draws && rng.pos <= r.1.pos <= rng.pos + 2 * MaxAttempts
    ensures Acceptable(g, padding, r.0) || r.0 == Tile(padding, padding)
  {
    var r := Search(g, padding, rng, []);
    SearchFound(g, padding, rng, []);
    match r.0
    case Some(t) => (t, r.1)
    case None => (Tile(padding, padding), r.1)
  }

  /** The tile `randomEmptyTile` returns is the first acceptable one of the
      200 draws, found after consuming exactly the attempts up to it; the
      fallback comes only when none of the 200 is acceptable. */
  lemma RandomEmptyTileFirst(g: Grid, padding: int, rng: Rng)
    requires WellFormed(g)
    ensures var r := RandomEmptyTile(g, padding, rng);
      || (exists k :: 0 <= k < MaxAttempts && r.0 == Drawn(rng, k) && Acceptable(g, padding, r.0)
                      && r.1.pos == rng.pos + 2 * (k + 1)
                      && forall j :: 0 <= j < k ==> !Acceptable(g, padding, Drawn(rng, j)))
      || (r.0 == Tile(padding, padding) && r.1.pos == rng.pos + 2 * MaxAttempts
          && forall k :: 0 <= k < MaxAttempts ==> !Acceptable(g, padding, Drawn(rng, k)))
  {
    var r := Search(g, padding, rng, []);
    SearchFound(g, padding, rng, []);
    SearchExhausted(g, padding, rng, []);
    if r.0.Some? {
      var k := r.2 - 1;
      assert RandomEmptyTile(g, padding, rng).0 == Drawn(rng, k);
    }
  }

}

=== FILE: movement.dfy ===
/** The discrete part of player movement: direction priority and the choice
    of the next target tile (main.js:279-313, 322-329). */
module Movement {
  import opened Base
  import opened Level
  import opened State
  import opened Collision

  /** Direction keys currently held and the most recently pressed one. */
  datatype Input = Input(held: set<Dir>, last: Option<Dir>)

  /** The fixed fallback order `["left", "right", "up", "down"]`. */
  const BaseOrder: seq<Dir> := [Left, Right, Up, Down]

  /** Position of a direction in `BaseOrder`. */
  function Rank(d: Dir): nat
  {
    match d
    case Left => 0
    case Right => 1
    case Up => 2
    case Down => 3
  }

  /** `s` with every occurrence of `d` filtered out. */
  function Without(s: seq<Dir>, d: Dir): (r: seq<Dir>)
    ensures d !in r
    ensures forall e :: e in r <==> e in s && e != d
    ensures |r| <= |s|
  {
    if |s| == 0 then []
    else if s[0] == d then Without(s[1..], d)
    else [s[0]] + Without(s[1..], d)
  }

  /** `desiredDirs()`: the last-pressed direction first, then the remaining
      ones in base order. */
  function DesiredDirs(last: Option<Dir>): (r: seq<Dir>)
    ensures |r| == 4
    ensures forall d :: d in r
    ensures forall i, j :: 0 <= i < j < |r| ==> r[i] != r[j]
    ensures last.Some? ==> r[0] == last.value
    ensures last.Some? ==> forall i, j :: 1 <= i < j < |r| ==> Rank(r[i]) < Rank(r[j])
    ensures last.None? ==> forall i, j :: 0 <= i < j < |r| ==> Rank(r[i]) < Rank(r[j])
  {
    assert forall d :: d in BaseOrder by {
      forall d ensures d in BaseOrder {
        assert BaseOrder[Rank(d)] == d;
      }
    }
    match last
    case None => BaseOrder
    case Some(d) =>
      var rest := Without(BaseOrder, d);
      WithoutBase(d);
      [d] + rest
  }

  /** The base order with one direction filtered out. */
  lemma WithoutBase(d: Dir)
    ensures Without(BaseOrder, d) == match d
      case Left => [Right, Up, Down]
      case Right => [Left, Up, Down]
      case Up => [Left, Right, Down]
      case Down => [Left, Right, Up]
  {
  }

  /** Direction `d` is held and the neighbouring tile that way can be entered. */
  predicate Viable(s: Game, input: Input, d: Dir)
    requires WellFormed(s.grid)
  {
    d in input.held && CanEnter(s, Step(s.player.tile, d, 1))
  }

  /** Index of the first viable direction of `order`, if any. */
  function FirstViable(s: Game, input: Input, order: seq<Dir>): (r: Option<nat>)
    requires WellFormed(s.grid)
    ensures r.Some? ==> r.value < |order| && Viable(s, input, order[r.value])
    ensures r.Some? ==> forall j :: 0 <= j < r.value ==> !Viable(s, input, order[j])
    ensures r.None? ==> forall j :: 0 <= j < |order| ==> !Viable(s, input, order[j])
  {
    if |order| == 0 then None
    else if Viable(s, input, order[0]) then Some(0)
    else match FirstViable(s, input, order[1..])
      case None => None
      case Some(i) => Some(i + 1)
  }

  /** The idle branch of `movePlayer`: start a transit towards the first
      held, enterable direction in priority order, or stay idle. */
  function TryStart(s: Game, input: Input): (r: Game)
    requires WellFormed(s.grid)
    ensures r.player.tile == s.player.tile
    ensures r == s.(player := r.player)
    ensures r.player == s.player.(moving := r.player.moving, target := r.player.target,
                                  facing := r.player.facing)
    ensures s.player.moving ==> r == s
    ensures !s.player.moving ==>
              (r.player.moving <==> exists d :: Viable(s, input, d))
    ensures !s.player.moving && r.player.moving ==>
              && r.player.facing.Some?
              && var d := r.player.facing.value;
              && Viable(s, input, d)
              && r.player.target == Some(Step(s.player.tile, d, 1))
              && forall j :: (0 <= j < 4 && DesiredDirs(input.last)[j] != d &&
                              Viable(s, input, DesiredDirs(input.last)[j])) ==>
                   exists k :: 0 <= k < j && DesiredDirs(input.last)[k] == d
    ensures !r.player.moving ==> r == s
  {
    if s.player.moving then s
    else
      var order := DesiredDirs(input.last);
      match FirstViable(s, input, order)
      case None =>
        assert forall d :: !Viable(s, input, d) by {
          forall d ensures !Viable(s, input, d) {
            assert d in order;
            var k :| 0 <= k < 4 && order[k] == d;
          }
        }
        s
      case Some(i) =>
        var d := order[i];
        s.(player := s.player.(facing := Some(d), moving := true, target := Some(Step(s.player.tile, d, 1))))
  }

  /** The player is idle without a target, or in transit to the neighbour
      in the direction it faces. */
  ghost predicate InTransitShape(p: Player)
  {
    (p.moving <==> p.target.Some?)
    && (p.moving ==> p.facing.Some? && p.target.value == Step(p.tile, p.facing.value, 1))
  }

  /** The discrete effect of one `movePlayer(dt)` call. `arrived` is the
      outcome of the continuous interpolation (the step covers the rest of
      the distance); on arrival the player snaps onto the target tile,
      becomes idle and immediately tries to start the next transit. */
  function MovePlayer(s: Game, input: Input, arrived: bool): (r: Game)
    requires WellFormed(s.grid) && InTransitShape(s.player)
    ensures InTransitShape(r.player)
    ensures r == s.(player := r.player)
    ensures r.player == s.player.(tile := r.player.tile, moving := r.player.moving,
                                  target := r.player.target, facing := r.player.facing)
    ensures Manhattan(s.player.tile, r.player.tile) <= 1
    ensures r.player.tile != s.player.tile ==>
              && arrived && TryStart(s, input).player.moving
              && r.player.tile == TryStart(s, input).player.target.value
    ensures !(arrived && TryStart(s, input).player.moving) ==> r == TryStart(s, input)
    ensures arrived && TryStart(s, input).player.moving ==>
              var p := TryStart(s, input).player;
              var snapped := s.(player := p.(tile := p.target.value, moving := false, target := None));
              && r.player.tile == p.target.value
              && (r.player.moving <==> exists d :: Viable(snapped, input, d))
              && (!r.player.moving ==> r == snapped)
              && r == TryStart(snapped, input)
  {
    var s1 := TryStart(s, input);
    if s1.player.moving && arrived then
      var snapped := s1.(player := s1.player.(tile := s1.player.target.value, moving := false, target := None));
      TryStart(snapped, input)
    else s1
  }
}

=== FILE: powerups.dfy ===
/** Power-up drops, pickup and stat changes (main.js:413-421, 461-491). */
module Powerups {
  import opened Base
  import opened State

  /** Score for picking up any power-up. */
  const PickupScore: int := 120
  const MaxRange: int := 8
  const MaxSpeed: real := 5.0

  /** The drop bucketing of `maybeSpawnPowerup`: a roll of 0.2 or more drops
      nothing; below that, heart on [0, 0.04), bomb on [0.04, 0.1],
      range on (0.1, 0.17] and speed on (0.17, 0.2). */
  function DropKind(roll: Draw): (r: Option<PowerKind>)
    ensures r.None? <==> roll >= 0.2
    ensures r == Some(Heart) <==> roll < 0.04
    ensures r == Some(BombUp) <==> 0.04 <= roll <= 0.1
    ensures r == Some(RangeUp) <==> 0.1 < roll <= 0.17
    ensures r == Some(SpeedUp) <==> 0.17 < roll < 0.2
  {
    if roll >= 0.2 then None
    else if roll > 0.17 then Some(SpeedUp)
    else if roll > 0.1 then Some(RangeUp)
    else if roll < 0.04 then Some(Heart)
    else Some(BombUp)
  }

  /** `maybeSpawnPowerup(tx, ty)`: one roll decides the drop; a drop also
      consumes a second draw for its cosmetic animation phase. */
  function MaybeSpawnPowerup(pus: seq<PowerUp>, t: Tile, rng: Rng): (r: (seq<PowerUp>, Rng))
    ensures r.1.draws == rng.draws
    ensures DropKind(rng.draws(rng.pos)).None? ==> r.0 == pus && r.1.pos == rng.pos + 1
    ensures DropKind(rng.draws(rng.pos)).Some? ==>
              && r.0 == pus + [PowerUp(t, DropKind(rng.draws(rng.pos)).value)]
              && r.1.pos == rng.pos + 2
  {
    var (roll, rng1) := rng.Next();
    match DropKind(roll)
    case None => (pus, rng1)
    case Some(k) => (pus + [PowerUp(t, k)], rng1.Skip(1))
  }

  /** `applyPowerup(type)`. */
  function ApplyPowerup(p: Player, k: PowerKind): (r: Player)
    ensures r.score == p.score + PickupScore
    ensures r.capacity == p.capacity + (if k == BombUp then 1 else 0)
    ensures r.stock == p.stock + (if k == BombUp then 1 else 0)
    ensures r.lives == p.lives + (if k == Heart then 1 else 0)
    ensures k == RangeUp ==> r.flameRange <= MaxRange
    ensures k == RangeUp && p.flameRange + 1 < MaxRange ==> r.flameRange == p.flameRange + 1
    ensures k == RangeUp && p.flameRange + 1 >= MaxRange ==> r.flameRange == MaxRange
    ensures k != RangeUp ==> r.flameRange == p.flameRange
    ensures k == SpeedUp ==> r.speed <= MaxSpeed
    ensures k == SpeedUp && p.speed + 0.25 < MaxSpeed ==> r.speed == p.speed + 0.25
    ensures k == SpeedUp && p.speed + 0.25 >= MaxSpeed ==> r.speed == MaxSpeed
    ensures k != SpeedUp ==> r.speed == p.speed
    ensures r.(score := p.score, capacity := p.capacity, stock := p.stock, lives := p.lives,
               flameRange := p.flameRange, speed := p.speed) == p
  {
    var q := match k
      case BombUp => p.(capacity := p.capacity + 1, stock := p.stock + 1)
      case RangeUp => p.(flameRange := if p.flameRange + 1 < MaxRange then p.flameRange + 1 else MaxRange)
      case SpeedUp => p.(speed := if p.speed + 0.25 < MaxSpeed then p.speed + 0.25 else MaxSpeed)
      case Heart => p.(lives := p.lives + 1);
    q.(score := q.score + PickupScore)
  }

  /** Picking up never breaks `0 <= stock <= capacity` nor lifts the flame
      range above 8 or the speed above 5 once they are within bounds. */
  lemma ApplyPowerupKeepsBounds(p: Player, k: PowerKind)
    requires 0 <= p.stock <= p.capacity && p.flameRange <= MaxRange && p.speed <= MaxSpeed
    ensures var r := ApplyPowerup(p, k);
      0 <= r.stock <= r.capacity && r.flameRange <= MaxRange && r.speed <= MaxSpeed
  {
  }

  /** Number of power-ups lying on tile `t`. */
  function CountAt(pus: seq<PowerUp>, t: Tile): nat
  {
    if |pus| == 0 then 0
    else CountAt(pus[..|pus| - 1], t) + (if pus[|pus| - 1].tile == t then 1 else 0)
  }

  /** Number of power-ups of kind `k` lying on tile `t`. */
  function CountKindAt(pus: seq<PowerUp>, t: Tile, k: PowerKind): nat
  {
    if |pus| == 0 then 0
    else CountKindAt(pus[..|pus| - 1], t, k) + (if pus[|pus| - 1].tile == t && pus[|pus| - 1].kind == k then 1 else 0)
  }

  /** The flame range after `n` range pickups: each adds one, and any pickup
      that would pass 8 sets it to 8. */
  function RangeAfter(v: int, n: nat): int
  {
    if n == 0 then v else if v + n < MaxRange then v + n else MaxRange
  }

  /** The speed after `n` speed pickups: each adds 0.25, and any pickup
      that would reach 5 sets it to 5. */
  function SpeedAfter(v: real, n: nat): real
  {
    if n == 0 then v else if v + 0.25 * n as real < MaxSpeed then v + 0.25 * n as real else MaxSpeed
  }

  /** One pickup followed by `n` more counts as `n + 1` of its kind. */
  lemma PickupsCompose(p: Player, k: PowerKind, nr: nat, ns: nat)
    ensures RangeAfter(ApplyPowerup(p, k).flameRange, nr)
              == RangeAfter(p.flameRange, nr + (if k == RangeUp then 1 else 0))
    ensures SpeedAfter(ApplyPowerup(p, k).speed, ns)
              == SpeedAfter(p.speed, ns + (if k == SpeedUp then 1 else 0))
  {
  }

  /** The pickup loop of `updatePowerups`, last index first: every power-up
      on the player's tile is applied and removed; the rest stay in order. */
  function Collect(p: Player, pus: seq<PowerUp>): (r: (Player, seq<PowerUp>))
    decreases |pus|
    ensures r.0.tile == p.tile
    ensures forall x :: x in r.1 <==> x in pus && x.tile != p.tile
    ensures |r.1| + CountAt(pus, p.tile) == |pus|
    ensures r.0.score == p.score + PickupScore * CountAt(pus, p.tile)
    ensures r.0.lives == p.lives + CountKindAt(pus, p.tile, Heart)
    ensures r.0.capacity == p.capacity + CountKindAt(pus, p.tile, BombUp)
    ensures r.0.capacity - r.0.stock == p.capacity - p.stock
    ensures p.flameRange <= MaxRange ==> p.flameRange <= r.0.flameRange <= MaxRange
    ensures r.0.flameRange == RangeAfter(p.flameRange, CountKindAt(pus, p.tile, RangeUp))
    ensures r.0.speed == SpeedAfter(p.speed, CountKindAt(pus, p.tile, SpeedUp))
    ensures r.0.(score := p.score, capacity := p.capacity, stock := p.stock, lives := p.lives,
                 flameRange := p.flameRange, speed := p.speed) == p
  {
    if |pus| == 0 then (p, [])
    else
      var last := pus[|pus| - 1];
      var front := pus[..|pus| - 1];
      assert pus == front + [last];
      if last.tile == p.tile then
        PickupsCompose(p, last.kind, CountKindAt(front, p.tile, RangeUp), CountKindAt(front, p.tile, SpeedUp));
        Collect(ApplyPowerup(p, last.kind), front)
      else
        var r := Collect(p, front);
        (r.0, r.1 + [last])
  }

  /** `updatePowerups()` on a state. */
  function UpdatePowerups(s: Game): (r: Game)
    requires Valid(s)
    ensures Valid(r)
    ensures forall x :: x in r.powerups <==> x in s.powerups && x.tile != s.player.tile
    ensures r.player.score == s.player.score + PickupScore * CountAt(s.powerups, s.player.tile)
    ensures r.player.lives == s.player.lives + CountKindAt(s.powerups, s.player.tile, Heart)
    ensures r.player.capacity == s.player.capacity + CountKindAt(s.powerups, s.player.tile, BombUp)
    ensures r.player.stock == s.player.stock + CountKindAt(s.powerups, s.player.tile, BombUp)
    ensures r.player.flameRange == RangeAfter(s.player.flameRange, CountKindAt(s.powerups, s.player.tile, RangeUp))
    ensures r.player.speed == SpeedAfter(s.player.speed, CountKindAt(s.powerups, s.player.tile, SpeedUp))
    ensures r.player.(score := s.player.score, capacity := s.player.capacity, stock := s.player.stock,
                      lives := s.player.lives, flameRange := s.player.flameRange,
                      speed := s.player.speed) == s.player
    ensures r == s.(player := r.player, powerups := r.powerups)
  {
    var (p, rest) := Collect(s.player, s.powerups);
    s.(player := p, powerups := rest)
  }
}

=== FILE: run.dfy ===
/** The run: level set-up, player damage, pause, the win check and one
    frame of `update` composed from the rule modules (main.js:90-155,
    532-603, 816-843). */
module Run {
  import opened Base
  import opened Level
  import opened State
  import opened Movement
  import opened Powerups
  import opened Explosion
  import opened Fuse

  /** Seconds of invulnerability after a hit. */
  const InvulnSeconds: real := 1.6
  const HitPenalty: int := 150
  const WinBonus: int := 500
  /** Enemies spawn outside the 4x4 square at the top-left corner. */
  const EnemyPadding: int := 4

  // ---------------------------------------------------------------------
  // Level set-up

  /** `pickDir()`: `Math.floor(r * 4)` indexes `+x`, `-x`, `+y`, `-y`. */
  function PickDir(r: Draw): (d: Dir)
    ensures d == Right <==> r < 0.25
    ensures d == Left <==> 0.25 <= r < 0.5
    ensures d == Down <==> 0.5 <= r < 0.75
    ensures d == Up <==> 0.75 <= r
  {
    [Right, Left, Down, Up][Scale(r, 4)]
  }

  /** An enemy as `buildLevel` creates it: numbered `id`, on an empty tile
      outside the corner square (or on the fallback tile), with its first
      heading change due in 0.8 to 2 seconds. */
  predicate Spawned(g: Grid, padding: int, e: Enemy, id: int)
    requires WellFormed(g)
  {
    && e.id == id
    && 0.8 <= e.changeTimer < 2.0
    && (Acceptable(g, padding, e.tile) || e.tile == Tile(padding, padding))
  }

  /** One pass of the enemy loop of `buildLevel`: a spawn tile from
      `randomEmptyTile(4)`, then one draw for the heading and one for the
      first heading change. */
  function SpawnEnemy(g: Grid, padding: int, id: nat, rng: Rng): (r: (Enemy, Rng))
    requires WellFormed(g)
    ensures Spawned(g, padding, r.0, id)
    ensures r.1.draws == rng.draws && r.1.pos >= rng.pos + 2
    ensures var (tile, after) := RandomEmptyTile(g, padding, rng);
      && r.0.tile == tile
      && r.0.dir == PickDir(rng.draws(after.pos))
      && r.0.changeTimer == 0.8 + 1.2 * rng.draws(after.pos + 1)
      && r.1 == rng.(pos := after.pos + 2)
  {
    var (tile, rng1) := RandomEmptyTile(g, padding, rng);
    var (d, rng2) := rng1.Next();
    var (c, rng3) := rng2.Next();
    (Enemy(tile, PickDir(d), 0.8 + c * 1.2, id), rng3)
  }

  /** The enemy loop of `buildLevel`, enemies `|acc|` onwards. */
  function SpawnEnemies(g: Grid, padding: int, acc: seq<Enemy>, rng: Rng): (r: (seq<Enemy>, Rng))
    requires WellFormed(g) && |acc| <= EnemyCount
    decreases EnemyCount - |acc|
    ensures |r.0| == EnemyCount
    ensures forall k :: 0 <= k < |acc| ==> r.0[k] == acc[k]
    ensures r.1.draws == rng.draws && r.1.pos >= rng.pos
  {
    if |acc| == EnemyCount then (acc, rng)
    else
      var (e, rng1) := SpawnEnemy(g, padding, |acc|, rng);
      var r := SpawnEnemies(g, padding, acc + [e], rng1);
      r
  }

  /** Every enemy the loop adds is spawned as `buildLevel` intends, and
      numbered by its position. */
  lemma {:induction false} SpawnEnemiesSpawned(g: Grid, padding: int, acc: seq<Enemy>, rng: Rng, k: int)
    requires WellFormed(g) && |acc| <= k < EnemyCount
    decreases EnemyCount - |acc|
    ensures Spawned(g, padding, SpawnEnemies(g, padding, acc, rng).0[k], k)
  {
    var (e, rng1) := SpawnEnemy(g, padding, |acc|, rng);
    var next := SpawnEnemies(g, padding, acc + [e], rng1).0;
    assert SpawnEnemies(g, padding, acc, rng).0 == next;
    if k == |acc| {
      assert next[k] == (acc + [e])[k] == e;
    } else {
      SpawnEnemiesSpawned(g, padding, acc + [e], rng1, k);
    }
  }

  /** The stream after enemies `from` to `to - 1` have been spawned, one
      after the other, starting from `rng`. */
  function SpawnStream(g: Grid, padding: int, from: nat, to: nat, rng: Rng): Rng
    requires WellFormed(g)
    decreases (to as int) - (from as int)
  {
    if to <= from then rng
    else SpawnStream(g, padding, from + 1, to, SpawnEnemy(g, padding, from, rng).1)
  }

  /** The enemy loop reads the stream in order: enemy `k` is spawned from
      the stream left by the enemies before it, and the loop ends with the
      stream left by all of them. */
  lemma {:induction false} SpawnEnemiesReadsInOrder(g: Grid, padding: int, acc: seq<Enemy>, rng: Rng, k: int)
    requires WellFormed(g) && |acc| <= k < EnemyCount
    decreases EnemyCount - |acc|
    ensures SpawnEnemies(g, padding, acc, rng).0[k]
              == SpawnEnemy(g, padding, k, SpawnStream(g, padding, |acc|, k, rng)).0
  {
    var (e, rng1) := SpawnEnemy(g, padding, |acc|, rng);
    var next := SpawnEnemies(g, padding, acc + [e], rng1).0;
    assert SpawnEnemies(g, padding, acc, rng).0 == next;
    if k == |acc| {
      assert next[k] == (acc + [e])[k] == e;
    } else {
      SpawnEnemiesReadsInOrder(g, padding, acc + [e], rng1, k);
    }
  }

  lemma {:induction false} SpawnEnemiesEnd(g: Grid, padding: int, acc: seq<Enemy>, rng: Rng)
    requires WellFormed(g) && |acc| <= EnemyCount
    decreases EnemyCount - |acc|
    ensures SpawnEnemies(g, padding, acc, rng).1 == SpawnStream(g, padding, |acc|, EnemyCount, rng)
  {
    if |acc| < EnemyCount {
      var (e, rng1) := SpawnEnemy(g, padding, |acc|, rng);
      SpawnEnemiesEnd(g, padding, acc + [e], rng1);
    }
  }

  /** The player record `buildLevel` resets to. */
  const FreshPlayer: Player :=
    Player(SpawnTile, false, None, None, BaseSpeed, 1, 1, 2, StartingLives, 0.0, 0)

  /** `startRun(seed)` after `setSeed`: `buildLevel()` on the draw stream,
      then the run is playing. The grid loop classifies cells by `layout`:
      `StartRun(FixedCellAsWritten, rng)` is the program as written, and
      `StartRun(FixedCell, rng)` the corrected one. */
  function StartRun(layout: Layout, rng: Rng): (r: Game)
    ensures Valid(r)
    ensures r.phase == Playing
    ensures r.bombs == [] && r.flames == [] && r.powerups == []
    ensures r.player == FreshPlayer && InTransitShape(r.player)
    ensures |r.enemies| == EnemyCount
    ensures forall t :: InBounds(t) ==> CellFits(layout(t.x, t.y), CellAt(r.grid, t))
    ensures r.rng.draws == rng.draws
  {
    var (g, rng1) := BuildGrid(layout, rng);
    var (es, rng2) := SpawnEnemies(g, EnemyPadding, [], rng1);
    Game(g, [], [], [], es, FreshPlayer, Playing, rng2)
  }

  /** Under the corrected layout a fresh run starts on a free spawn tile
      inside a walled board. */
  lemma StartRunBoard(rng: Rng)
    ensures var r := StartRun(FixedCell, rng);
      && WellFormed(r.grid)
      && r.player.tile == SpawnTile
      && CellAt(r.grid, SpawnTile) == Empty
      && forall t :: InBounds(t) && OnBorder(t.x, t.y) ==> CellAt(r.grid, t) == Solid
  {
    GeneratedGridLayout(rng);
    assert StartRun(FixedCell, rng).grid == BuildGrid(FixedCell, rng).0;
  }

  /** As written, a fresh run places the player on a wall: the spawn tile
      is solid on every seed. */
  lemma StartRunBoardAsWritten(rng: Rng)
    ensures var r := StartRun(FixedCellAsWritten, rng);
      && WellFormed(r.grid)
      && r.player.tile == SpawnTile
      && CellAt(r.grid, SpawnTile) == Solid
  {
    GeneratedGridLayoutAsWritten(rng);
    assert StartRun(FixedCellAsWritten, rng).grid == BuildGrid(FixedCellAsWritten, rng).0;
  }

  /** A fresh run reads the stream in program order: the grid cells row by
      row, then the enemies one after the other from the draw after the
      grid's last, and the run starts with the stream the last enemy left. */
  lemma StartRunReadsInOrder(layout: Layout, rng: Rng, t: Tile, k: int)
    ensures var r := StartRun(layout, rng);
      var afterGrid := rng.(pos := rng.pos + RowsDraws(layout, 0, Rows));
      && (InBounds(t) ==>
            CellAt(r.grid, t) == Expected(layout, t.x, t.y, rng.draws(rng.pos + RowsDraws(layout, 0, t.y) + DrawsIn(layout, t.y, 0, t.x))))
      && (0 <= k < EnemyCount ==>
            r.enemies[k] == SpawnEnemy(r.grid, EnemyPadding, k, SpawnStream(r.grid, EnemyPadding, 0, k, afterGrid)).0)
      && r.rng == SpawnStream(r.grid, EnemyPadding, 0, EnemyCount, afterGrid)
  {
    var (g, rng1) := BuildGrid(layout, rng);
    if InBounds(t) {
      BuildGridReadsInOrder(layout, rng, t);
    } else {
      BuildGridReadsInOrder(layout, rng, SpawnTile);
    }
    if 0 <= k < EnemyCount {
      SpawnEnemiesReadsInOrder(g, EnemyPadding, [], rng1, k);
    }
    SpawnEnemiesEnd(g, EnemyPadding, [], rng1);
  }

  /** Every enemy of a fresh run is numbered by its position and stands on
      an empty tile outside the corner square, or on the fallback tile. */
  lemma StartRunEnemies(layout: Layout, rng: Rng)
    ensures var r := StartRun(layout, rng);
      forall k :: 0 <= k < |r.enemies| ==> Spawned(r.grid, EnemyPadding, r.enemies[k], k)
  {
    var (g, rng1) := BuildGrid(layout, rng);
    var (es, rng2) := SpawnEnemies(g, EnemyPadding, [], rng1);
    assert StartRun(layout, rng).enemies == es && StartRun(layout, rng).grid == g;
    forall k | 0 <= k < |es|
      ensures Spawned(g, EnemyPadding, es[k], k)
    {
      SpawnEnemiesSpawned(g, EnemyPadding, [], rng1, k);
    }
  }

  // ---------------------------------------------------------------------
  // Run state machine

  /** `damagePlayer()`: ignored while invulnerable or not playing; otherwise
      a life is lost, the player is sent back to the spawn tile, idle, with
      1.6 s of invulnerability and 150 points off (never below zero), and
      the run ends when no life is left. */
  function DamagePlayer(s: Game): (r: Game)
    ensures s.player.invuln > 0.0 || s.phase != Playing ==> r == s
    ensures s.player.invuln <= 0.0 && s.phase == Playing ==>
              && r.player.lives == s.player.lives - 1
              && r.player.tile == SpawnTile && !r.player.moving && r.player.target.None?
              && r.player.invuln == InvulnSeconds
              && r.player.score >= 0
              && (s.player.score >= HitPenalty ==> r.player.score == s.player.score - HitPenalty)
              && (s.player.score < HitPenalty ==> r.player.score == 0)
              && (r.phase == GameOver <==> s.player.lives <= 1)
              && (r.phase != GameOver ==> r.phase == Playing)
              && r.player.(lives := s.player.lives, tile := s.player.tile, moving := s.player.moving,
                           target := s.player.target, invuln := s.player.invuln,
                           score := s.player.score) == s.player
              && r == s.(player := r.player, phase := r.phase)
  {
    if s.player.invuln > 0.0 || s.phase != Playing then s
    else
      var lives := s.player.lives - 1;
      var p := s.player.(lives := lives, invuln := InvulnSeconds, tile := SpawnTile,
                         moving := false, target := None,
                         score := if s.player.score - HitPenalty > 0 then s.player.score - HitPenalty else 0);
      s.(player := p, phase := if lives <= 0 then GameOver else s.phase)
  }

  /** A second hit straight after the first has no effect. */
  lemma DamageOnce(s: Game)
    ensures DamagePlayer(DamagePlayer(s)) == DamagePlayer(s)
  {
  }

  /** Damage keeps the state valid and the player's transit shape. */
  lemma DamageKeepsValid(s: Game)
    requires Valid(s) && InTransitShape(s.player)
    ensures Valid(DamagePlayer(s)) && InTransitShape(DamagePlayer(s).player)
  {
  }

  /** `togglePause()`: a finished run stays finished; otherwise playing and
      paused swap. */
  function TogglePause(ph: Phase): (r: Phase)
    ensures ph == Win || ph == GameOver ==> r == ph
    ensures r == Playing <==> ph == Paused
    ensures r == Paused <==> ph == Playing
  {
    match ph
    case Playing => Paused
    case Paused => Playing
    case _ => ph
  }

  /** Pausing twice gets back to where one started. */
  lemma TogglePauseTwice(ph: Phase)
    ensures TogglePause(TogglePause(ph)) == ph
  {
  }

  /** The check that ends `update(dt)`: a playing run with no enemy left is
      won, for a bonus of 500 points. */
  function CheckWin(s: Game): (r: Game)
    ensures (r.phase == Win && s.phase != Win) <==> (s.phase == Playing && |s.enemies| == 0)
    ensures r.phase != s.phase ==> r.phase == Win && r.player.score == s.player.score + WinBonus
    ensures r.phase == s.phase ==> r == s
    ensures r == s.(phase := r.phase, player := r.player)
    ensures r.player == s.player.(score := r.player.score)
  {
    if s.phase == Playing && |s.enemies| == 0 then
      s.(phase := Win, player := s.player.(score := s.player.score + WinBonus))
    else s
  }

  /** A won run is not won twice. */
  lemma CheckWinOnce(s: Game)
    ensures CheckWin(CheckWin(s)) == CheckWin(s)
  {
  }

  // ---------------------------------------------------------------------
  // One frame

  /** The invulnerability countdown of `updatePlayer`: it runs only while
      some invulnerability is left, and may end below zero. */
  function TickInvuln(v: real, dt: real): real
  {
    if v > 0.0 then v - dt else v
  }

  /** `updatePlayer(dt)`: the discrete move, the invulnerability countdown
      and a flame hit. `hit` is `flameHits` at the player's continuous
      position, an input here. */
  function UpdatePlayer(s: Game, input: Input, dt: real, arrived: bool, hit: bool): (r: Game)
    requires Valid(s) && InTransitShape(s.player)
    ensures Valid(r) && InTransitShape(r.player)
    ensures r.grid == s.grid && r.bombs == s.bombs && r.flames == s.flames
    ensures r.powerups == s.powerups && r.enemies == s.enemies && r.rng == s.rng
    ensures r.player.lives == s.player.lives || (hit && r.player.lives == s.player.lives - 1)
    ensures r.phase == s.phase || (hit && r.phase == GameOver)
    ensures var moved := MovePlayer(s, input, arrived).player.(invuln := TickInvuln(s.player.invuln, dt));
      !hit || moved.invuln > 0.0 || s.phase != Playing ==> r.player == moved && r.phase == s.phase
    ensures hit && TickInvuln(s.player.invuln, dt) <= 0.0 && s.phase == Playing ==>
              && r.player.lives == s.player.lives - 1
              && r.player.tile == SpawnTile && !r.player.moving
              && r.player.invuln == InvulnSeconds
              && (r.phase == GameOver <==> s.player.lives <= 1)
  {
    var m := MovePlayer(s, input, arrived);
    var p := if m.player.invuln > 0.0 then m.player.(invuln := m.player.invuln - dt) else m.player;
    var m1 := m.(player := p);
    if hit then DamagePlayer(m1) else m1
  }

  /** The transit shape only looks at position and heading. */
  lemma ShapeIgnoresStats(p: Player, q: Player)
    requires InTransitShape(p)
    requires q.tile == p.tile && q.moving == p.moving && q.target == p.target && q.facing == p.facing
    ensures InTransitShape(q)
  {
  }

  /** The rule steps of `update(dt)` before its win check: the player,
      pickups, the bomb countdown, flame expiry, and the enemies as
      `updateEnemies(dt)` leaves them. The enemies' continuous steering is
      not modelled: `enemies` is their list afterwards, and `enemyDraws` the
      number of draws their heading changes take from the stream. */
  function UpdateRules(s: Game, input: Input, dt: real, arrived: bool, hit: bool,
                       enemies: seq<Enemy>, enemyDraws: nat): (r: Game)
    requires Valid(s) && InTransitShape(s.player)
    ensures Valid(r) && InTransitShape(r.player)
    ensures GridEvolves(s.grid, r.grid)
    ensures var u := UpdatePlayer(s, input, dt, arrived, hit);
      && r.phase == u.phase
      && r.player.tile == u.player.tile && r.player.moving == u.player.moving
      && r.player.target == u.player.target && r.player.facing == u.player.facing
      && r.player.invuln == u.player.invuln
      && r.player.lives == u.player.lives + CountKindAt(s.powerups, u.player.tile, Heart)
      && r.player.score == u.player.score + PickupScore * CountAt(s.powerups, u.player.tile)
                           + SoftScore * (SoftCount(s.grid) - SoftCount(r.grid))
    ensures forall b :: b in r.bombs ==>
              b.timer > 0.0 && !FlameAt(s.flames, b.tile) && exists o :: o in s.bombs && TickedFrom(b, o, dt)
    ensures Aged(s.flames, r.flames, dt)
    ensures Collected(s.powerups, r.powerups, r.player.tile)
    ensures r.enemies == enemies
    ensures r.rng.draws == s.rng.draws && r.rng.pos >= s.rng.pos + enemyDraws
  {
    var s1 := UpdatePlayer(s, input, dt, arrived, hit);
    var s2 := UpdatePowerups(s1);
    var (s3, det) := UpdateBombs(s2, dt);
    var fl := UpdateFlames(s3.flames, dt);
    FlamesAged(s.flames, s3.flames, dt);
    s3.(flames := fl, enemies := enemies, rng := s3.rng.(pos := s3.rng.pos + enemyDraws))
  }

  /** The bomb countdown of a frame's rule steps, in both directions. */
  lemma UpdateRulesCountsDown(s: Game, input: Input, dt: real, arrived: bool, hit: bool,
                              enemies: seq<Enemy>, enemyDraws: nat)
    requires Valid(s) && InTransitShape(s.player)
    ensures CountedDown(s.bombs, s.flames, dt, UpdateRules(s, input, dt, arrived, hit, enemies, enemyDraws).bombs)
  {
    UpdateBombsCountsDown(UpdatePowerups(UpdatePlayer(s, input, dt, arrived, hit)), dt);
  }

  /** Expiry over a list that only had flames appended keeps every old
      flame with time left, aged. */
  lemma FlamesAged(before: seq<Flame>, mid: seq<Flame>, dt: real)
    requires |before| <= |mid| && mid[..|before|] == before
    ensures Aged(before, UpdateFlames(mid, dt), dt)
  {
    forall g | g in before && g.ttl - dt * 1000.0 > 0.0
      ensures g.(ttl := g.ttl - dt * 1000.0) in UpdateFlames(mid, dt)
    {
      var k :| 0 <= k < |before| && before[k] == g;
      assert mid[k] == g;
    }
  }

  /** After a frame every flame left has time left, and every flame that
      had more than `dt` seconds left is still there, `dt` older. */
  ghost predicate Aged(before: seq<Flame>, after: seq<Flame>, dt: real)
  {
    && (forall f :: f in after ==> f.ttl > 0.0)
    && (forall g :: g in before && g.ttl - dt * 1000.0 > 0.0 ==> g.(ttl := g.ttl - dt * 1000.0) in after)
  }

  /** The power-ups of `before` not on tile `t` come first in `after`,
      and none on `t` is among them; whatever follows was appended. */
  ghost predicate Collected(before: seq<PowerUp>, after: seq<PowerUp>, t: Tile)
  {
    var n := |before| - CountAt(before, t);
    && 0 <= n <= |after|
    && forall x :: x in after[..n] <==> x in before && x.tile != t
  }

  /** One `loop` tick: `update(dt)` runs only while playing, and ends with
      the win check. */
  function Frame(s: Game, input: Input, dt: real, arrived: bool, hit: bool,
                 enemies: seq<Enemy>, enemyDraws: nat): (r: Game)
    requires Valid(s) && InTransitShape(s.player)
    ensures Valid(r) && InTransitShape(r.player)
    ensures s.phase != Playing ==> r == s
    ensures s.phase == Playing ==> r.phase == Playing || r.phase == GameOver || r.phase == Win
    ensures r.phase == Win && s.phase != Win ==> |r.enemies| == 0
    ensures GridEvolves(s.grid, r.grid)
    ensures !hit ==> r.player.lives >= s.player.lives
    ensures r.player.lives >= s.player.lives - 1
    ensures r.rng.draws == s.rng.draws && r.rng.pos >= s.rng.pos
    ensures s.phase == Playing ==> r.rng.pos >= s.rng.pos + enemyDraws
    ensures s.phase == Playing ==>
              var u := UpdatePlayer(s, input, dt, arrived, hit);
              && (r.phase == Win <==> u.phase == Playing && |enemies| == 0)
              && (r.phase != Win ==> r.phase == u.phase)
              && r.player.tile == u.player.tile && r.player.moving == u.player.moving
              && r.player.target == u.player.target && r.player.invuln == u.player.invuln
              && r.player.lives == u.player.lives + CountKindAt(s.powerups, u.player.tile, Heart)
              && r.player.score == u.player.score + PickupScore * CountAt(s.powerups, u.player.tile)
                                   + SoftScore * (SoftCount(s.grid) - SoftCount(r.grid))
                                   + (if r.phase == Win then WinBonus else 0)
    ensures s.phase == Playing ==>
              && (forall b :: b in r.bombs ==>
                    b.timer > 0.0 && !FlameAt(s.flames, b.tile) && exists o :: o in s.bombs && TickedFrom(b, o, dt))
              && Aged(s.flames, r.flames, dt)
              && Collected(s.powerups, r.powerups, r.player.tile)
              && r.enemies == enemies
  {
    if s.phase != Playing then s
    else CheckWin(UpdateRules(s, input, dt, arrived, hit, enemies, enemyDraws))
  }

  /** The bomb countdown of a frame while playing, in both directions. */
  lemma FrameCountsDown(s: Game, input: Input, dt: real, arrived: bool, hit: bool,
                        enemies: seq<Enemy>, enemyDraws: nat)
    requires Valid(s) && InTransitShape(s.player) && s.phase == Playing
    ensures CountedDown(s.bombs, s.flames, dt, Frame(s, input, dt, arrived, hit, enemies, enemyDraws).bombs)
  {
    UpdateRulesCountsDown(s, input, dt, arrived, hit, enemies, enemyDraws);
  }
}

=== FILE: state.dfy ===
/** The run state: entities, the player record and the run phase
    (main.js:21-66), gathered into one immutable `Game` value. */
module State {
  import opened Base
  import opened Level

  /** The owner tag the player's bombs carry (`player.id`). */
  const PlayerId: string := "player"
  const FuseMs: real := 2200.0
  const FlameMs: real := 520.0
  const BaseSpeed: real := 3.1
  const StartingLives: int := 3
  const EnemyCount: nat := 5
  /** Seconds a fresh bomb stays passable for its owner. */
  const BombGrace: real := 0.25

  /** A placed bomb. `timer` is the fuse in milliseconds, `grace` in seconds. */
  datatype Bomb = Bomb(tile: Tile, timer: real, owner: string, grace: real, range: int)

  /** A burning blast cell; `ttl` in milliseconds. */
  datatype Flame = Flame(tile: Tile, ttl: real)

  datatype PowerKind = BombUp | RangeUp | SpeedUp | Heart

  datatype PowerUp = PowerUp(tile: Tile, kind: PowerKind)

  /** An enemy as placed by the generator: its spawn tile, heading and the
      seconds left before it picks a new heading. */
  datatype Enemy = Enemy(tile: Tile, dir: Dir, changeTimer: real, id: nat)

  /** The discrete part of the player record. `facing` is `None` while the
      player has not moved yet. `invuln` is in seconds. */
  datatype Player = Player(
    tile: Tile,
    moving: bool,
    target: Option<Tile>,
    facing: Option<Dir>,
    speed: real,
    capacity: int,
    stock: int,
    flameRange: int,
    lives: int,
    invuln: real,
    score: int)

  datatype Phase = Playing | Paused | GameOver | Win

  datatype Game = Game(
    grid: Grid,
    bombs: seq<Bomb>,
    flames: seq<Flame>,
    powerups: seq<PowerUp>,
    enemies: seq<Enemy>,
    player: Player,
    phase: Phase,
    rng: Rng)

  /** No two bombs share a tile. */
  ghost predicate DistinctTiles(bombs: seq<Bomb>)
  {
    forall i, j :: 0 <= i < j < |bombs| ==> bombs[i].tile != bombs[j].tile
  }

  /** What every reachable state satisfies. */
  ghost predicate Valid(s: Game)
  {
    && WellFormed(s.grid)
    && 0 <= s.player.stock <= s.player.capacity
    && DistinctTiles(s.bombs)
  }

  /** `bombs.findIndex(b => b.tx === tx && b.ty === ty)`. */
  function FindBomb(bombs: seq<Bomb>, t: Tile): (r: Option<nat>)
    ensures r.Some? ==> r.value < |bombs| && bombs[r.value].tile == t
    ensures r.Some? ==> forall j :: 0 <= j < r.value ==> bombs[j].tile != t
    ensures r.None? <==> forall j :: 0 <= j < |bombs| ==> bombs[j].tile != t
  {
    if |bombs| == 0 then None
    else if bombs[0].tile == t then Some(0)
    else match FindBomb(bombs[1..], t)
      case None => None
      case Some(i) => Some(i + 1)
  }

  /** `flames.some(f => f.tx === tx && f.ty === ty)`. */
  predicate FlameAt(flames: seq<Flame>, t: Tile)
  {
    exists i :: 0 <= i < |flames| && flames[i].tile == t
  }

  /** `bombs.splice(i, 1)`. */
  function RemoveAt<T>(s: seq<T>, i: nat): (r: seq<T>)
    requires i < |s|
    ensures |r| == |s| - 1
    ensures multiset(r) + multiset{s[i]} == multiset(s)
    ensures forall j :: 0 <= j < i ==> r[j] == s[j]
    ensures forall j :: i <= j < |r| ==> r[j] == s[j + 1]
  {
    assert s == s[..i] + [s[i]] + s[i + 1..];
    s[..i] + s[i + 1..]
  }

  /** The set of tiles holding a bomb of `bs`. */
  function TileSet(bs: seq<Bomb>): set<Tile>
  {
    set b | b in bs :: b.tile
  }

  /** Two different bombs of a list with distinct tiles stand on different
      tiles. */
  lemma DistinctMembers(bs: seq<Bomb>, x: Bomb, y: Bomb)
    requires DistinctTiles(bs) && x in bs && y in bs && x != y
    ensures x.tile != y.tile
  {
    var i :| 0 <= i < |bs| && bs[i] == x;
    var j :| 0 <= j < |bs| && bs[j] == y;
    assert i != j;
  }

  /** In a list with distinct tiles every bomb occurs at most once. */
  lemma {:induction false} DistinctOnce(bs: seq<Bomb>, x: Bomb)
    requires DistinctTiles(bs)
    ensures multiset(bs)[x] <= 1
    decreases |bs|
  {
    if |bs| > 0 {
      assert bs == [bs[0]] + bs[1..];
      assert DistinctTiles(bs[1..]);
      DistinctOnce(bs[1..], x);
      if bs[0] == x {
        assert x !in bs[1..];
      }
    }
  }

  /** A value stored at two indices occurs at least twice. */
  lemma Twice<T>(s: seq<T>, i: nat, j: nat)
    requires i < j < |s| && s[i] == s[j]
    ensures multiset(s)[s[i]] >= 2
  {
    assert s == s[..j] + s[j..];
    assert s[i] in s[..j];
    assert s[j] in s[j..];
  }

  /** Part of a list with distinct tiles has distinct tiles. */
  lemma SubDistinct(r: seq<Bomb>, s: seq<Bomb>)
    requires multiset(r) <= multiset(s) && DistinctTiles(s)
    ensures DistinctTiles(r)
  {
    forall i, j | 0 <= i < j < |r|
      ensures r[i].tile != r[j].tile
    {
      if r[i] == r[j] {
        Twice(r, i, j);
        DistinctOnce(s, r[i]);
      } else {
        assert r[i] in multiset(s) && r[j] in multiset(s);
        var p :| 0 <= p < |s| && s[p] == r[i];
        var q :| 0 <= q < |s| && s[q] == r[j];
      }
    }
  }

  /** Splitting a list into two parts splits its tile set. */
  lemma TileSetSplit(a: seq<Bomb>, b: seq<Bomb>, c: seq<Bomb>)
    requires multiset(a) + multiset(b) == multiset(c)
    ensures TileSet(a) + TileSet(b) == TileSet(c)
  {
    forall x
      ensures (x in a || x in b) <==> x in c
    {
      assert x in c <==> x in multiset(c);
      assert x in a <==> x in multiset(a);
      assert x in b <==> x in multiset(b);
    }
  }

  /** Replacing a bomb by one on the same tile keeps the tile set. */
  lemma TileSetUpdate(bs: seq<Bomb>, i: nat, b: Bomb)
    requires i < |bs| && b.tile == bs[i].tile
    ensures TileSet(bs[i := b]) == TileSet(bs)
  {
    forall t | t in TileSet(bs)
      ensures t in TileSet(bs[i := b])
    {
      var x :| x in bs && x.tile == t;
      var k :| 0 <= k < |bs| && bs[k] == x;
      if k == i {
        assert bs[i := b][i] == b;
      } else {
        assert bs[i := b][k] == x;
      }
    }
    forall t | t in TileSet(bs[i := b])
      ensures t in TileSet(bs)
    {
      var x :| x in bs[i := b] && x.tile == t;
      var k :| 0 <= k < |bs| && bs[i := b][k] == x;
      assert bs[k] in bs;
    }
  }
}
